=== FILE: README.md ===
# LinkedIn account pool — a Dafny model

This project models the account pool behind a LinkedIn scraping service and
proves properties of that model. The pool keeps a list of LinkedIn accounts
and a settings object. It does five things:

- It filters the accounts that may be used now. An account qualifies when it
  is "active", has no temporary block still running, and is under its hourly
  request ceiling. The scan also clears expired blocks and expired hourly
  windows.
- It picks the next account. The strategies are round-robin with a cursor,
  least used, or the first eligible account.
- It counts challenges (anti-automation checks) per account. At a threshold
  it blocks the account.
- It counts requests per account inside an hourly window.
- It logs in with rotation (`initialize_api`) and runs an operation with
  retries (`execute_with_retry`). Errors are classified by case-insensitive
  keywords. A challenge marks the account and rotates to another one. Any
  other error sleeps and retries.

It also models the status report (`get_account_status`), the admin commands
of the command-line tool (add, remove, reset one, reset all, update
settings), and the URL-identifier extractor of the web service.

## Modules

- `wrappers.dfy`, module `Wrappers`: `Option`, which stands in for Python's
  `None`.
- `accounts.dfy`, module `Accounts`: the records, the settings and their
  defaults, and search by id.
- `availability.dfy`, module `Availability`: the filter and the clean-up it
  writes back.
- `selection.dfy`, module `Selection`: the rotation strategies and
  `get_next_account`.
- `tracking.dfy`, module `Tracking`: `mark_challenge` and `mark_request`.
- `classify.dfy`, module `Classify`: lower-casing, substring search, and the
  two keyword lists.
- `retry.dfy`, module `Retry`: `initialize_api`, `rotate_account` and
  `execute_with_retry`.
- `summary.dfy`, module `Summary`: `get_account_status`.
- `admin.dfy`, module `Admin`: the commands of `manage_accounts.py`.
- `urlid.dfy`, module `UrlId`: `extract_linkedin_id`.

Modelling choices:

- Time is whole seconds on one clock, passed in as `now`. During a run the
  clock moves only when the code sleeps, and then by `request_delay_seconds`.
- The login call and the operation are outside the model. An `Env` gives the
  outcome of the n-th login and of the n-th operation call: `Ok` or
  `Err(str(e))`.
- Each run returns the trace of events it caused: logins, recorded requests,
  recorded challenges, calls, except-branch entries and sleeps. Its
  decisions are stated over this trace. `WellFormed` states how every event
  must be surrounded in the trace. For example, a challenge is recorded only
  right after a keyword failure of the same account. After an ordinary error
  comes a sleep, and never a challenge.
- The Python object's `linkedin_api` and `current_account` are always set
  together, so the model keeps a single `current: Option<string>` for both.
- `execute_with_retry` also returns its run cut into passes of its loop:
  the events of each pass and the state between two passes. What one pass
  promises (`Attempt`) is then stated for every pass of the run, at the
  state it starts from (`RunOfPasses`, `Retry.RunPass`).

## Notable behaviours of the code

The model follows the code in each case:

- A challenge does not invalidate the session. On a challenge error while
  attempts remain, `execute_with_retry` calls `rotate_account()`
  immediately. When that fails it leaves the loop and raises
  (account_manager.py:221-228). On the last attempt it does not rotate; the
  old session stays in place.
- A block made by `mark_challenge` is permanent. It also sets
  `status = "blocked"` (account_manager.py:116). The filter skips every
  account that is not "active" before it looks at `blocked_until`
  (account_manager.py:50-51). So the cooldown never lifts the block; only a
  reset does (`Tracking.ThresholdBlocksForGood`,
  `Admin.ResetAccountUnblocks`).
- The first operation after a login is counted twice. `initialize_api`
  records a request at login (account_manager.py:158), and the retry loop
  records another before the call (account_manager.py:203)
  (`Retry.ExecuteWithRetry`, `EveryLoginCountedTwice`).
- The login loop knows 7 keywords and the execution loop knows 10
  (account_manager.py:167-170, 216-220).
- When a session cannot be established, the retry loop raises
  "Falha na inicialização da API" (account_manager.py:199). Its own except
  branch catches that error. The message names no keyword, so it is handled
  as an ordinary error: the attempt counts, then a sleep
  (`Classify.InitFailureIsNotAChallenge`).
- `extract_linkedin_id` tries the patterns in a fixed order (profile,
  company, school) and returns the first that matches anywhere in the URL
  (main.py:24-33). So `/company/acme/in/john` gives the profile `john`,
  not the company `acme` (`UrlId.ExtractId`).

## Model

| member | source | states |
|---|---|---|
| Accounts.StatusOf | account_manager.py:50 | reading a status string gives Active exactly for "active" and Blocked exactly for "blocked"; any other string is kept as it is, and the status writes back as the same string |
| Accounts.FindIndex | account_manager.py:106-107 | None exactly when no account has the id; otherwise the position of the first account with it |
| Accounts.EffectiveReadsSettings | account_manager.py:109-110 | a missing or empty settings object gives the defaults (round_robin, 60 minutes, 3 challenges, 2 seconds, 3 attempts); each key present overrides its default |
| Availability.Normalize | account_manager.py:49-68 | a record that is not active, or is still blocked, is left alone; otherwise an expired block is cleared together with the challenge counter, and a window that has passed is cleared together with the request counter; identity, status and last use never change |
| Availability.NormalizeKeepsEligibility | account_manager.py:54-70 | the clean-up does not change whether an account is eligible, and a second clean-up at the same instant changes nothing |
| Availability.EligibilityCases | account_manager.py:53-70 | for an active account: a running block excludes it; an expired window makes it eligible; an open window at the ceiling excludes it; with no window no quota check happens; an expired block is no obstacle |
| Availability.AvailableAccounts | account_manager.py:44-74 | every returned account is active, unblocked and under quota at `now`, and there are no more of them than accounts |
| Availability.EligiblePositions | account_manager.py:49-72 | the positions kept are strictly increasing and are exactly the positions of eligible accounts |
| Availability.AvailableAreEligibleInOrder | account_manager.py:44-74 | the filter's result is the cleaned-up form of exactly the eligible accounts, in list order |
| Availability.InactiveNeverAvailable | account_manager.py:50-51 | an account whose status is not "active" is never returned, whatever its `blocked_until` says |
| Selection.LeastUsedIndex | account_manager.py:93-96 | the chosen account has the minimal request counter, and it is the earliest one among ties |
| Selection.Select | account_manager.py:80-100 | an empty list gives nothing; round-robin resets a cursor past the end to 0, returns that position and moves the cursor to the next position modulo the length; least_used takes the least-used account and leaves the cursor alone; any other strategy takes the first account |
| Selection.RoundRobinVisitOrder | account_manager.py:86-91 | the k-th of n round-robin calls over an unchanged list picks (start + k) mod size |
| Selection.RoundRobinFairness | account_manager.py:86-91 | over an unchanged list of N accounts, N round-robin calls visit every account exactly once, and from cursor 0 they go in list order |
| Selection.SelectRunIsVisits | account_manager.py:86-91 | successive round-robin selections, each from the cursor the previous one left, pick exactly the positions `RoundRobinVisits` lists; the first is `Select`'s own pick and the rest continue from the cursor it leaves |
| Selection.RoundRobinSelectionFair | account_manager.py:86-91 | over an unchanged list of N eligible accounts, N successive round-robin selections pick every account exactly once, and from cursor 0 they go in list order |
| Selection.NextAccount | account_manager.py:76-102 | the list written back is the filter's clean-up of every record; when the filter returns accounts, the pick and the new cursor are those `Select` gives on that list; nothing is picked exactly when no account is eligible, and then the cursor stays; the list keeps its accounts, statuses and eligibility |
| Tracking.MarkChallenge | account_manager.py:104-120 | only the first account with the id changes: its challenge counter grows by exactly one; at the threshold it becomes "blocked" until now plus the cooldown; below the threshold its status and block stay; an unknown id changes nothing |
| Tracking.MarkChallengeOnlyBlocks | account_manager.py:112-116 | the only status change `mark_challenge` makes is to "blocked", and only on an account with the challenged id |
| Tracking.MarkChallengeAt | account_manager.py:106-120 | on the list, `mark_challenge` applies the one-record step to the first account with the id and to no other |
| Tracking.ThresholdBlocksForGood | account_manager.py:108-116 | from a fresh active record, n challenges give a counter of n; below the threshold the record stays active; from the threshold on it is blocked until now plus the cooldown and is never eligible again at any time |
| Tracking.Requested | account_manager.py:126-134 | with no window, a window ending an hour from now opens and the count restarts; then the count grows by one (so it is at least 1) and `last_used` becomes now; status, challenges and block are untouched |
| Tracking.MarkRequest | account_manager.py:122-137 | only the first account with the id changes, and it changes by one request; an unknown id changes nothing |
| Tracking.MarkRequestKeepsStatus | account_manager.py:122-137 | `mark_request` never changes any account's status |
| Tracking.HourlyBudgetExhausted | account_manager.py:64-70 | with a ceiling of one request per hour, one request makes a fresh account ineligible until its window ends, and eligible with a cleared counter after it |
| Tracking.TwoMarksCountTwo | account_manager.py:129-133 | two requests recorded on an account without a window count as two |
| Classify.Lower | account_manager.py:164 | lower-casing keeps the length of the text |
| Classify.LowerAt | account_manager.py:164 | each character of the lower-cased text is the lower-cased character at the same position |
| Classify.LowerIdempotent | account_manager.py:164 | lower-casing twice is lower-casing once |
| Classify.ClassificationIgnoresCase | account_manager.py:164-170 | both classifications give the same answer for a message and for its lower-cased form |
| Classify.LoginChallengeIsExecutionChallenge | account_manager.py:216-220 | every login keyword is an execution keyword, so a login challenge text would also make the retry loop rotate |
| Classify.RateLimitIsOnlyAnExecutionChallenge | account_manager.py:167-170 | "RATE LIMIT" makes the retry loop rotate but is not a challenge to the login loop |
| Classify.InitFailureHasNoKeyword | account_manager.py:199 | the lower-cased initialisation-failure message contains none of the ten execution keywords |
| Classify.InitFailureIsNotAChallenge | account_manager.py:199 | the message raised when no session can be made names no keyword of either list |
| Retry.ReplayHead | account_manager.py:144-158 | in a trace that can happen, a login uses the account `get_next_account` picks in that state and gets the outcome the environment gives the next login; "no account" is recorded only when nothing is picked; a call uses the current session and gets the environment's next operation outcome |
| Retry.ReplayBookkeeping | account_manager.py:150-232 | after a trace that can happen, the logins and calls made have grown by the number of each in the trace, the clock by the delay once per sleep, and every status change is a block whose challenge is in the trace |
| Retry.ReplayOutcomeAt | account_manager.py:154-206 | in a trace that can happen, the login at any position gets the outcome the environment gives the login numbered by how many logins come before it, and likewise for calls |
| Retry.StatusChangeTracesToEnv | account_manager.py:163-222 | over a well-formed trace that can happen, an account's status changes only when the environment answered one of its logins or calls with a challenge error, and the account is then blocked |
| Retry.RecordLogin | account_manager.py:150-172 | on success the first account with the id gets one request; on an error naming a login keyword it gets one challenge; any other error leaves it as it was; every other record is unchanged |
| Retry.LoginWith | account_manager.py:150-180 | the events follow the environment's outcome for the next login; the list becomes what `RecordLogin` writes for that outcome; on failure the clock moves by the delay and the session stays; on success the session is the account; the cursor and the settings are kept |
| Retry.LoginOnce | account_manager.py:144-180 | a login is tried exactly when `get_next_account` picks an account, with that account and the outcome the environment gives the next login; the events can happen from the start state; when nothing is picked the list shows no eligible account; on success the session is the account that logged in, and on failure it stays |
| Retry.InitializeApi | account_manager.py:139-183 | the trace can happen from the start state, so every login is `get_next_account`'s pick with the environment's outcome; at most `max_retries` logins and no operation call; success exactly when the trace ends with a successful login and its request, and the session is then that account; on failure the session is unchanged, and either every attempt was used or the last pick found no eligible account; every sleep lasts the configured delay |
| Retry.LoginBlocksTraceToEnv | account_manager.py:163-172 | after the login loop, an account's status has changed only where the environment answered one of its logins with a challenge error, and the account is then blocked |
| Retry.RotateAccount | account_manager.py:144-188 | a rotation makes at most three logins and no call, and opens with a pick; it found a session exactly when its second-to-last event is a successful login, whose account is then the session; otherwise the session stays, no login succeeded, and either all three logins were used or the last pick found no eligible account in the list written back |
| Retry.RecordCall | account_manager.py:202-222 | the first account with the id gets one request, then one challenge when the call failed with an error naming an execution keyword; every other record is unchanged |
| Retry.LoginThenCallCountsTwice | account_manager.py:158-203 | a successful login followed by the first call with its session records two requests on the account: a fresh window counts 2, the window opens at the login, the last use is the call, and no other account changes |
| Retry.CallOnce | account_manager.py:202-232 | the events are the request, the call with the environment's next operation outcome, and on an error the counted attempt followed by a challenge (execution keyword) or a sleep (any other error); the list becomes what `RecordCall` writes; the session stays |
| Retry.CallThenRotation | account_manager.py:209-228 | the events of a challenge-like failure followed by any rotation that picks and logs no failure: one call and one failure entry at position 2, the rotation's pick at position 4, no later call, and a break exactly when no login succeeded |
| Retry.RotationShapeFacts | account_manager.py:211-227 | after a challenge-like failure the only failure entry is at position 2 with the pass's number, the rotation's first pick follows the challenge, and when the loop goes on a successful login is second to last |
| Retry.RotationShapeRotates | account_manager.py:216-228 | such a pass, while attempts remain, numbers its failure with the pass, follows it with a pick and with no call before a successful login, and when it does not break its rotation found a session |
| Retry.CallEventsNoRotation | account_manager.py:209-232 | a call after which the code does not rotate (success, an ordinary error, or a challenge on the last attempt) shows no rotating failure, and its failure entry carries the pass's number |
| Retry.CallAndRotate | account_manager.py:216-228 | after a challenge error, the request, the call, the failure entry and the challenge come first, then a rotation that picks at least once; the loop breaks exactly when the rotation made no successful login, and the pass then ends with that failed rotation; a successful login is the second-to-last event and its account is the session; the pass makes at most three logins, a session is still there afterwards, and after a break it is the one the pass started with |
| Retry.Operate | account_manager.py:201-232 | the pass returns exactly when the environment's next operation outcome is a success; it always starts with the request and the call; it rotates exactly when the error names an execution keyword and attempts remain; it breaks exactly when that rotation made no successful login; when the call cannot fail with a challenge, it never rotates, logs in or breaks, and sleeps once per failure; its failure entry carries the pass's number, and after a rotating failure the next events are the challenge and a pick, with no call before a successful login; the pass makes at most three logins, breaks only while attempts remain, and ends with a session, the one it started with when it picked no account |
| Retry.Attempt | account_manager.py:196-232 | the pass can happen from its start state; it makes at most one call, which is the last event when the pass returns and then succeeded; one counted attempt exactly when it does not return; every successful login is counted twice or is the session handed to the next pass; a break comes only after a failed rotation; with a session the pass starts with its request and its call, rotates exactly when the call fails with an execution keyword while attempts remain, and breaks exactly when that rotation made no successful login; without a session the pass opens with `initialize_api()`'s first pick, and when it makes no call that login loop used its three logins or found no eligible account; every rotation follows its challenge with a pick and makes no call before a successful login; a pass with a session keeps one, makes at most three logins, and keeps the same one when it picks no account; a pass without a session that makes no call is exactly a login loop (opening with a pick, at most three logins, none successful, all three used or no eligible account found) followed by the failure entry with the fixed message and one sleep, and still has no session; one that made a call ends with a session; no pass makes more than three logins before its call or after it; a break happens only while attempts remain |
| Retry.SessionLogins | account_manager.py:201-228 | a pass that starts with its request and its call, makes no later call and at most three logins, has no login before its call and at most three after it |
| Retry.OperateLogins | account_manager.py:196-228 | a login loop with no call and at most three logins, followed by such an operation part, has at most three logins before the call and at most three after it |
| Retry.SessionPassSession | account_manager.py:201-228 | a pass that started with a session and whose operation part keeps one, with at most three logins and a break only while attempts remain, meets every session clause of a pass |
| Retry.FailedInitSession | account_manager.py:196-199 | a pass whose `initialize_api()` failed is its failed login loop followed by the fixed failure entry and its sleep, makes no call, and ends without a session |
| Retry.LoginThenRotation | account_manager.py:196-228 | the logins of a successful `initialize_api()` logged no failure, so the pass rotates exactly as its operation part does, and it opens with the first pick |
| Retry.InitFailureRotation | account_manager.py:196-232 | when `initialize_api()` fails, the pass's only failure entry carries the fixed message and the pass's number and does not rotate; the pass opens with the first pick, and the login loop used all three logins or found no eligible account |
| Retry.OrdinaryFailureRotation | account_manager.py:229-232 | an ordinary failure and its sleep after a login loop with no failure give a pass that does not rotate and keeps the login loop's opening and its reason for failing |
| Retry.RotationDisciplineAppend | account_manager.py:195-228 | appending a pass to a run keeps "a pick after each rotating challenge, and no call before a successful login", provided the run's own rotations all found a session; the appended part's sessions carry over |
| Retry.NumberingAppend | account_manager.py:209-211 | failure entries numbered 1, 2, ... in order stay so when a pass numbered after the run's count is appended |
| Retry.RunRotationAppended | account_manager.py:195-228 | appending the pass numbered `retry_count + 1` keeps the whole run's failures numbered in order and its rotation discipline; unless that pass broke off, every rotation of the run found a session |
| Retry.SleepTimeOfDelays | account_manager.py:229-232 | when every sleep lasts the configured delay, the seconds slept are that delay times the number of sleeps |
| Retry.ExecuteWithRetry | account_manager.py:190-234 | the trace can happen from the start state under the environment; the operation runs at most `retry_attempts` times; the run returns only the result of its last call, which succeeded, and every earlier call failed; giving up reports `retry_attempts`, either after every attempt was used or right after a challenge whose rotation made no successful login; the failure entries carry `retry_count` 1, 2, ... in order; after every challenge-like failure while attempts remain the next events are the challenge and a pick, and no call comes before a successful login; a run that starts without a session and has at least one attempt opens with a pick; every login is counted twice before its first call; when no call can fail with a challenge nothing rotates and each failure sleeps once; with no attempts configured nothing happens; the trace is the concatenation of at most `retry_attempts` passes, each going from the state the previous one left as `Attempt` states for that pass's number; a returned run ends with the pass that returned, a run that gave up early ends with the pass that broke off, and any other run used every attempt |
| Retry.PassAt | account_manager.py:195-232 | in a run cut into passes, pass p, numbered p + 1, goes from state p to state p + 1 as `Attempt` states, and only the last pass may have returned or broken off |
| Retry.RunPass | account_manager.py:195-232 | in every pass of a run, read at the state it starts from: with a session it picks an account exactly when the call failed with an execution keyword while attempts remain, keeps its session otherwise, and makes at most three logins; without one, a pass with no call is a failed login loop followed by the fixed failure entry and its sleep; no pass makes more than three logins before or after its call |
| Retry.PassesAppend | account_manager.py:195-232 | a pass that goes on from the state the passes so far left extends them, and the run's trace grows by that pass's events |
| Retry.RetryBlocksTraceToEnv | account_manager.py:209-222 | after `execute_with_retry`, an account's status has changed only where the environment answered one of its logins or calls with a challenge error, and the account is then blocked |
| Summary.AccountStatus | account_manager.py:243-284 | the totals add up: every account is either active or blocked; active counts exactly the usable accounts; each line shows the account as stored and whether it is usable |
| Summary.AvailableWithinActive | account_manager.py:255-280 | every account the filter would hand out is counted as active, so the filter never offers more than the report's active total |
| Summary.ActiveMatchesAvailableWithoutWindows | account_manager.py:255-280 | when no account has an hourly window, the report's active total equals the number the filter hands out |
| Admin.EmailTaken | manage_accounts.py:69-72 | true exactly when some account has the email |
| Admin.AddAccount | manage_accounts.py:60-89 | a known id is refused first, then a known email, and the list is unchanged either way; otherwise exactly one fresh active record with ceiling 100 and no counters or timestamps is appended at the end |
| Admin.AddKeepsUnique | manage_accounts.py:62-72 | adding keeps ids and emails pairwise distinct |
| Admin.RemoveAccount | manage_accounts.py:91-100 | an unknown id changes nothing; otherwise exactly the first record with the id is dropped, and the rest keep their order |
| Admin.RemoveUndoesAdd | manage_accounts.py:87-95 | removing an account just added restores the list |
| Admin.RemoveLeavesNoTrace | manage_accounts.py:93-98 | with distinct ids, no record with the id remains and every other record is kept |
| Admin.ResetRecord | manage_accounts.py:106-111 | a reset keeps identity, password and ceiling, and leaves the record active with no counters or timestamps |
| Admin.ResetRecordIsFresh | manage_accounts.py:106-111 | a reset record is eligible at any time, the filter does not rewrite it, and a second reset changes nothing |
| Admin.ResetAccount | manage_accounts.py:102-116 | only the first record with the id is reset; an unknown id changes nothing |
| Admin.ResetAccountUnblocks | manage_accounts.py:102-116 | after a reset the account is eligible again at any time, even one that `mark_challenge` blocked |
| Admin.ResetAll | manage_accounts.py:118-129 | every record is reset, and the list keeps its accounts and order |
| Admin.ResetAllRestoresPool | manage_accounts.py:118-129 | after a full reset the filter hands out every account, and the report counts them all as active |
| Admin.ResetAllCoversResetAccount | manage_accounts.py:102-129 | resetting one account and then all is the same as resetting all |
| Admin.UpdateSettings | manage_accounts.py:131-141 | a settings object exists afterwards; every given key takes its value, every other key keeps its value; the accounts are untouched |
| Admin.UpdateSettingsPolicy | manage_accounts.py:131-141 | the policy in force takes every given value and keeps the rest; repeating an update changes nothing; an empty update leaves the policy as it was |
| UrlId.RunLength | main.py:25-27 | the run after the marker holds only characters other than `/` and `?`, and it ends at the end of the URL or at such a character |
| UrlId.Search | main.py:31 | finds the first position at or after the start where the marker is followed by an identifier character, and there is none before it |
| UrlId.MatchOf | main.py:31-33 | nothing exactly when the pattern matches nowhere; otherwise the capture at the leftmost match |
| UrlId.ExtractId | main.py:22-35 | nothing exactly when no marker is followed by an identifier character; otherwise the leftmost match's maximal capture; a profile match beats company, and company beats school, wherever they sit |
| UrlId.ExtractedIdShape | main.py:25-27 | an extracted id is non-empty and holds no `/` and no `?` |
| UrlId.ExtractRoundTrip | main.py:22-35 | a URL made of a prefix without `/`, a marker, an identifier and a rest that starts with `/` or `?` (or is empty) gives back that kind and that identifier, unless what follows the marker matches a pattern tried earlier |
| UrlId.ExtractBareRoundTrip | main.py:22-35 | the bare path of a page, a marker followed by an identifier, gives back that kind and that identifier |

## Left out

- Reading and writing the accounts file (`load_accounts` and
  `save_accounts` in both files). This is file I/O; the list in memory is the
  state. A missing file, or a file that fails to parse, reads as an empty
  list and empty settings in the code; this is not modelled.
- The `Linkedin(...)` constructor and the scraping callables. They are a
  foreign library and network calls, replaced by the outcomes of an `Env`.
- `datetime.now`, `fromisoformat` and `isoformat`. Timestamps are integer
  seconds. `time.sleep` only advances the clock by the delay.
- Logging, and every `print` in `manage_accounts.py`. The command outcome is
  the `Verdict` instead.
- `manage_accounts.main`: argparse, and the `input()` confirmation before
  `reset-all`. They are user-interface plumbing. `list_accounts` and
  `show_settings` only print.
- The Flask routes of `main.py`, `get_api`, `test_accounts.py`,
  `test_urn_converter.py` and `gunicorn.conf.py`. These are HTTP glue,
  manual scripts against a live server, and process configuration. Every
  gunicorn worker holds its own manager; that concurrency is not modelled.
- Classify.Lower: it lower-cases ASCII letters only. Python's `str.lower`
  also folds other alphabets; every keyword is plain ASCII. One non-ASCII
  character lowers into a keyword: the Kelvin sign U+212A becomes `k`, so
  "SECURITY CHEC\u212A" is a challenge to the code but not to the model.
- Retry.LoginWith: `request_delay_seconds` is a natural number. Python's
  `time.sleep` raises on a negative value, and the model does not carry that
  error.
- Tracking.Requested: "at least 1 after a request" is stated only for a
  non-negative stored count. The code adds 1 to whatever the file holds.
- Accounts.EffectiveReadsSettings: keys of the settings object other than
  the five the pool reads are not kept. A JSON `null` in a settings value is
  read as an absent key.
- Retry.ExecuteWithRetry: the exception text `Falha após N tentativas` is
  reduced to `RetryExhausted(N)`. The argument forwarding of
  `func(*args, **kwargs)` is reduced to the n-th outcome of the `Env`.
- Admin.UpdateSettings: the delay is a natural number. The command line
  reads `--request-delay` as any integer (manage_accounts.py:184), so a
  negative delay can be stored; the model does not represent it.

=== FILE: accounts.dfy ===
/**
 * The records the account pool works on: one entry of the accounts file per
 * credential set, the optional settings object, and the effective policy
 * obtained by filling in the defaults the pool code uses for missing keys.
 * Timestamps are whole seconds on one clock.
 */
module Accounts {
  import opened Wrappers

  /** The `status` string of an account. Anything other than "active" and
      "blocked" that the file may hold is kept as `Other`; `StatusOf` reads
      the string so that `Other` never holds either of those two names. */
  datatype Status = Active | Blocked | Other(name: string)

  /** The `status` value an account holds in the file. */
  function StatusName(st: Status): string
  {
    match st
    case Active => "active"
    case Blocked => "blocked"
    case Other(name) => name
  }

  /** Reads a `status` string from the file. The pool compares the string
      with "active" (account_manager.py:50, 268) and writes "blocked" and
      "active" back, so those two names are the only ones with a meaning. */
  function StatusOf(name: string): (st: Status)
    ensures st == Active <==> name == "active"
    ensures st == Blocked <==> name == "blocked"
    ensures st.Other? ==> st.name == name
    ensures StatusName(st) == name
  {
    if name == "active" then Active
    else if name == "blocked" then Blocked
    else Other(name)
  }

  /** A status as `StatusOf` reads one: `Other` never spells a known name. */
  predicate CanonicalStatus(st: Status)
  {
    st.Other? ==> st.name != "active" && st.name != "blocked"
  }

  /** Writing a status out and reading it back gives the same status, for
      every status `StatusOf` can produce, and only for those. */
  lemma StatusRoundTrip(st: Status)
    ensures StatusOf(StatusName(st)) == st <==> CanonicalStatus(st)
    ensures CanonicalStatus(StatusOf(StatusName(st)))
  {
  }

  /** One account record; a missing counter key reads as its default
      (0 for the counters, 100 for the hourly ceiling). */
  datatype Account = Account(
    id: string,
    email: string,
    password: string,
    status: Status,
    lastUsed: Option<int>,
    challengeCount: int,
    blockedUntil: Option<int>,
    maxRequestsPerHour: int,
    requestsCount: int,
    requestsResetTime: Option<int>)

  /** The `settings` object; `None` in a field means the key is absent. */
  datatype Settings = Settings(
    rotationStrategy: Option<string>,
    challengeCooldownMinutes: Option<int>,
    maxChallengeRetries: Option<int>,
    requestDelaySeconds: Option<nat>,
    retryAttempts: Option<int>)

  /** The empty settings object `{}`. */
  const NoSettings := Settings(None, None, None, None, None)

  /** The whole accounts file; `settings` is `None` when the key is absent. */
  datatype Store = Store(accounts: seq<Account>, settings: Option<Settings>)

  /** The policy in force once every absent setting has its default. */
  datatype Config = Config(
    strategy: string,
    cooldownMinutes: int,
    maxChallengeRetries: int,
    requestDelaySeconds: nat,
    retryAttempts: int)

  const RoundRobin := "round_robin"
  const LeastUsed := "least_used"
  const SecondsPerMinute := 60
  const SecondsPerHour := 3600
  const DefaultMaxRequestsPerHour := 100

  const Defaults := Config(RoundRobin, 60, 3, 2, 3)

  /** Reads the policy as `settings.get(key, default)` does. */
  function Effective(s: Option<Settings>): (c: Config)
  {
    var t := s.GetOr(NoSettings);
    Config(
      t.rotationStrategy.GetOr(Defaults.strategy),
      t.challengeCooldownMinutes.GetOr(Defaults.cooldownMinutes),
      t.maxChallengeRetries.GetOr(Defaults.maxChallengeRetries),
      t.requestDelaySeconds.GetOr(Defaults.requestDelaySeconds),
      t.retryAttempts.GetOr(Defaults.retryAttempts))
  }

  /** A missing settings object and an empty one give the same policy, and
      every key set explicitly wins over its default. */
  lemma EffectiveReadsSettings(s: Settings)
    ensures Effective(None) == Effective(Some(NoSettings)) == Defaults
    ensures Effective(Some(s)).strategy == s.rotationStrategy.GetOr(RoundRobin)
    ensures Effective(Some(s)).cooldownMinutes == s.challengeCooldownMinutes.GetOr(60)
    ensures Effective(Some(s)).maxChallengeRetries == s.maxChallengeRetries.GetOr(3)
    ensures Effective(Some(s)).requestDelaySeconds == s.requestDelaySeconds.GetOr(2)
    ensures Effective(Some(s)).retryAttempts == s.retryAttempts.GetOr(3)
  {
  }

  /** `i` is the position of the first account whose id is `id`: the one
      every `for account in accounts: if account["id"] == id` loop stops at. */
  ghost predicate FirstWithId(accs: seq<Account>, id: string, i: int)
  {
    && 0 <= i < |accs|
    && accs[i].id == id
    && forall j :: 0 <= j < i ==> accs[j].id != id
  }

  ghost predicate HasId(accs: seq<Account>, id: string)
  {
    exists i :: 0 <= i < |accs| && accs[i].id == id
  }

  /** Linear search for the first account with the given id. */
  function FindIndex(accs: seq<Account>, id: string): (r: Option<nat>)
    ensures r.None? <==> !HasId(accs, id)
    ensures r.Some? ==> FirstWithId(accs, id, r.value)
  {
    if |accs| == 0 then None
    else if accs[0].id == id then Some(0)
    else match FindIndex(accs[1..], id)
      case None => None
      case Some(i) => Some(i + 1)
  }

  lemma FirstWithIdUnique(accs: seq<Account>, id: string, i: int, j: int)
    requires FirstWithId(accs, id, i) && FirstWithId(accs, id, j)
    ensures i == j
  {
  }

  /** The fields the pool itself never writes. */
  predicate SameCredentials(a: Account, b: Account)
  {
    a.id == b.id && a.email == b.email && a.password == b.password
    && a.maxRequestsPerHour == b.maxRequestsPerHour
  }

  /** Same accounts in the same order, whatever their usage state. */
  predicate SameRoster(xs: seq<Account>, ys: seq<Account>)
  {
    |xs| == |ys| && forall i :: 0 <= i < |xs| ==> SameCredentials(xs[i], ys[i])
  }

  /** Ids are pairwise distinct. */
  ghost predicate UniqueIds(accs: seq<Account>)
  {
    forall i, j :: 0 <= i < j < |accs| ==> accs[i].id != accs[j].id
  }

  /** Emails are pairwise distinct. */
  ghost predicate UniqueEmails(accs: seq<Account>)
  {
    forall i, j :: 0 <= i < j < |accs| ==> accs[i].email != accs[j].email
  }
}

=== FILE: admin.dfy ===
/**
 * The administration commands of the accounts file (`AccountsManager` in
 * manage_accounts.py): adding, removing and resetting accounts, resetting
 * all of them, and updating the settings. Loading, saving and the
 * messages printed are left to the caller; each command returns the new
 * contents and which message it would print.
 */
module Admin {
  import opened Wrappers
  import opened Accounts
  import opened Availability
  import opened Summary

  /** Which outcome a command reports. */
  datatype Verdict = Done | DuplicateId | DuplicateEmail | NotFound

  datatype Edited = Edited(accounts: seq<Account>, verdict: Verdict)

  /** The usage state of a record that has never been used: active, no
      timestamps, no counters. */
  predicate Pristine(a: Account)
  {
    && a.status == Active
    && a.lastUsed.None?
    && a.challengeCount == 0
    && a.blockedUntil.None?
    && a.requestsCount == 0
    && a.requestsResetTime.None?
  }

  ghost predicate HasEmail(accs: seq<Account>, email: string)
  {
    exists i :: 0 <= i < |accs| && accs[i].email == email
  }

  /** Linear search for an account with the given email. */
  function EmailTaken(accs: seq<Account>, email: string): (r: bool)
    ensures r <==> HasEmail(accs, email)
  {
    if |accs| == 0 then false
    else accs[0].email == email || EmailTaken(accs[1..], email)
  }

  /** `add_account(id, email, password)`: refuses an id already present,
      then an email already present (in that order); otherwise appends a
      fresh record with the default hourly ceiling. */
  function AddAccount(accs: seq<Account>, id: string, email: string, password: string): (r: Edited)
    ensures HasId(accs, id) ==> r == Edited(accs, DuplicateId)
    ensures !HasId(accs, id) && HasEmail(accs, email) ==> r == Edited(accs, DuplicateEmail)
    ensures !HasId(accs, id) && !HasEmail(accs, email) ==>
      && r.verdict == Done
      && |r.accounts| == |accs| + 1
      && r.accounts[..|accs|] == accs
      && var a := r.accounts[|accs|];
        a.id == id && a.email == email && a.password == password
        && a.maxRequestsPerHour == DefaultMaxRequestsPerHour && Pristine(a)
  {
    if FindIndex(accs, id).Some? then Edited(accs, DuplicateId)
    else if EmailTaken(accs, email) then Edited(accs, DuplicateEmail)
    else
      var record := Account(id, email, password, Active, None, 0, None, DefaultMaxRequestsPerHour, 0, None);
      Edited(accs + [record], Done)
  }

  /** Adding keeps ids and emails pairwise distinct: the two checks are
      exactly what uniqueness needs. */
  lemma AddKeepsUnique(accs: seq<Account>, id: string, email: string, password: string)
    requires UniqueIds(accs) && UniqueEmails(accs)
    ensures UniqueIds(AddAccount(accs, id, email, password).accounts)
    ensures UniqueEmails(AddAccount(accs, id, email, password).accounts)
  {
    var r := AddAccount(accs, id, email, password).accounts;
    if r != accs {
      assert forall i :: 0 <= i < |accs| ==> r[i] == accs[i];
    }
  }

  /** `remove_account(id)`: drops the first record with that id and keeps
      the others in order; reports an unknown id. */
  function RemoveAccount(accs: seq<Account>, id: string): (r: Edited)
    ensures !HasId(accs, id) ==> r == Edited(accs, NotFound)
    ensures HasId(accs, id) ==> r.verdict == Done && exists i :: FirstWithId(accs, id, i) && r.accounts == accs[..i] + accs[i + 1..]
  {
    match FindIndex(accs, id)
    case None => Edited(accs, NotFound)
    case Some(i) => Edited(accs[..i] + accs[i + 1..], Done)
  }

  /** Removing an account just added restores the list as it was. */
  lemma RemoveUndoesAdd(accs: seq<Account>, id: string, email: string, password: string)
    requires AddAccount(accs, id, email, password).verdict == Done
    ensures RemoveAccount(AddAccount(accs, id, email, password).accounts, id) == Edited(accs, Done)
  {
    var added := AddAccount(accs, id, email, password).accounts;
    assert FirstWithId(added, id, |accs|);
    var i :| FirstWithId(added, id, i) && RemoveAccount(added, id).accounts == added[..i] + added[i + 1..];
    FirstWithIdUnique(added, id, i, |accs|);
    assert added[..|accs|] == accs;
  }

  /** With distinct ids, removing an account leaves no record with its id,
      and nothing else is lost. */
  lemma RemoveLeavesNoTrace(accs: seq<Account>, id: string)
    requires UniqueIds(accs) && HasId(accs, id)
    ensures var r := RemoveAccount(accs, id).accounts;
      && |r| == |accs| - 1
      && !HasId(r, id)
      && forall j :: 0 <= j < |accs| && accs[j].id != id ==> accs[j] in r
  {
    var r := RemoveAccount(accs, id).accounts;
    var i :| FirstWithId(accs, id, i) && r == accs[..i] + accs[i + 1..];
    forall j | 0 <= j < |accs| && accs[j].id != id
      ensures accs[j] in r
    {
      if j < i {
        assert r[j] == accs[j];
      } else {
        assert r[j - 1] == accs[j];
      }
    }
  }

  /** What `reset_account` and `reset_all_accounts` write into one record:
      the usage state of a fresh account, keeping the credentials and the
      hourly ceiling. */
  function ResetRecord(a: Account): (b: Account)
    ensures SameCredentials(a, b) && Pristine(b)
  {
    a.(status := Active, challengeCount := 0, blockedUntil := None, requestsCount := 0,
       requestsResetTime := None, lastUsed := None)
  }

  /** A reset record is usable at any time, the filter leaves it as it is,
      and resetting twice is resetting once. */
  lemma ResetRecordIsFresh(a: Account, now: int)
    ensures Eligible(ResetRecord(a), now)
    ensures Normalize(ResetRecord(a), now) == ResetRecord(a)
    ensures ResetRecord(ResetRecord(a)) == ResetRecord(a)
  {
  }

  /** `reset_account(id)`: resets the first record with that id and no
      other; reports an unknown id. */
  function ResetAccount(accs: seq<Account>, id: string): (r: Edited)
    ensures SameRoster(accs, r.accounts)
    ensures !HasId(accs, id) ==> r == Edited(accs, NotFound)
    ensures HasId(accs, id) ==> r.verdict == Done
    ensures forall i :: FirstWithId(accs, id, i) ==> r.accounts[i] == ResetRecord(accs[i])
    ensures forall j :: 0 <= j < |accs| && !FirstWithId(accs, id, j) ==> r.accounts[j] == accs[j]
  {
    match FindIndex(accs, id)
    case None => Edited(accs, NotFound)
    case Some(i) =>
      assert forall j :: FirstWithId(accs, id, j) ==> j == i;
      Edited(accs[i := ResetRecord(accs[i])], Done)
  }

  /** After a reset the account is handed out again by the filter, whatever
      blocked it before; in particular this undoes a permanent block set by
      the challenge bookkeeping. */
  lemma ResetAccountUnblocks(accs: seq<Account>, id: string, i: int, now: int)
    requires FirstWithId(accs, id, i)
    ensures var r := ResetAccount(accs, id).accounts;
      && Eligible(r[i], now)
      && i in EligiblePositions(r, now)
  {
    ResetRecordIsFresh(accs[i], now);
  }

  /** `reset_all_accounts()`: resets every record. */
  function ResetAll(accs: seq<Account>): (r: seq<Account>)
    ensures SameRoster(accs, r)
    ensures forall i :: 0 <= i < |r| ==> Pristine(r[i])
  {
    seq(|accs|, i requires 0 <= i < |accs| => ResetRecord(accs[i]))
  }

  /** A never-used record passes the filter at any time and is not
      rewritten by it. */
  lemma PristineIsReady(a: Account, now: int)
    requires Pristine(a)
    ensures Eligible(a, now) && Normalize(a, now) == a && Usable(a, now)
  {
  }

  /** The filter hands out a list of never-used records whole, and the
      report counts all of them as active. */
  lemma {:induction false} PristinePoolIsAvailable(accs: seq<Account>, now: int)
    requires forall i :: 0 <= i < |accs| ==> Pristine(accs[i])
    ensures AvailableAccounts(accs, now) == accs
    ensures CountUsable(accs, now) == |accs|
    decreases |accs|
  {
    if |accs| > 0 {
      var init := accs[..|accs| - 1];
      PristinePoolIsAvailable(init, now);
      PristineIsReady(accs[|accs| - 1], now);
      assert init + [accs[|accs| - 1]] == accs;
    }
  }

  /** After resetting everything, the filter hands out every account,
      unchanged and in list order, and the status report counts every
      account as active. */
  lemma ResetAllRestoresPool(accs: seq<Account>, now: int)
    ensures AvailableAccounts(ResetAll(accs), now) == ResetAll(accs)
    ensures CountUsable(ResetAll(accs), now) == |accs|
  {
    PristinePoolIsAvailable(ResetAll(accs), now);
  }

  /** Resetting one account first changes nothing about resetting
      everything afterwards. */
  lemma ResetAllCoversResetAccount(accs: seq<Account>, id: string)
    ensures ResetAll(ResetAccount(accs, id).accounts) == ResetAll(accs)
  {
    var r := ResetAccount(accs, id).accounts;
    forall j | 0 <= j < |accs|
      ensures ResetAll(r)[j] == ResetAll(accs)[j]
    {
      ResetRecordIsFresh(accs[j], 0);
    }
  }

  /** The keys `update_settings` accepts; `None` stands for an argument
      left at None. */
  datatype SettingsUpdate = SettingsUpdate(
    rotationStrategy: Option<string>,
    challengeCooldownMinutes: Option<int>,
    maxChallengeRetries: Option<int>,
    requestDelaySeconds: Option<nat>,
    retryAttempts: Option<int>)

  function Overwrite<T>(current: Option<T>, given: Option<T>): Option<T>
  {
    if given.Some? then given else current
  }

  /** `update_settings(**kwargs)`: creates the settings object when it is
      missing, then writes every key given a value; the accounts are not
      touched. */
  function UpdateSettings(store: Store, u: SettingsUpdate): (r: Store)
    ensures r.accounts == store.accounts && r.settings.Some?
    ensures var before, after := store.settings.GetOr(NoSettings), r.settings.value;
      && after.rotationStrategy == Overwrite(before.rotationStrategy, u.rotationStrategy)
      && after.challengeCooldownMinutes == Overwrite(before.challengeCooldownMinutes, u.challengeCooldownMinutes)
      && after.maxChallengeRetries == Overwrite(before.maxChallengeRetries, u.maxChallengeRetries)
      && after.requestDelaySeconds == Overwrite(before.requestDelaySeconds, u.requestDelaySeconds)
      && after.retryAttempts == Overwrite(before.retryAttempts, u.retryAttempts)
  {
    var s := store.settings.GetOr(NoSettings);
    store.(settings := Some(Settings(
      Overwrite(s.rotationStrategy, u.rotationStrategy),
      Overwrite(s.challengeCooldownMinutes, u.challengeCooldownMinutes),
      Overwrite(s.maxChallengeRetries, u.maxChallengeRetries),
      Overwrite(s.requestDelaySeconds, u.requestDelaySeconds),
      Overwrite(s.retryAttempts, u.retryAttempts))))
  }

  /** The policy in force after an update: every value given wins, every
      other key keeps the value in force before (its stored value or its
      default). Repeating an update changes nothing, and an update without
      values leaves the policy as it was. */
  lemma UpdateSettingsPolicy(store: Store, u: SettingsUpdate)
    ensures var before, after := Effective(store.settings), Effective(UpdateSettings(store, u).settings);
      && after.strategy == u.rotationStrategy.GetOr(before.strategy)
      && after.cooldownMinutes == u.challengeCooldownMinutes.GetOr(before.cooldownMinutes)
      && after.maxChallengeRetries == u.maxChallengeRetries.GetOr(before.maxChallengeRetries)
      && after.requestDelaySeconds == u.requestDelaySeconds.GetOr(before.requestDelaySeconds)
      && after.retryAttempts == u.retryAttempts.GetOr(before.retryAttempts)
    ensures UpdateSettings(UpdateSettings(store, u), u) == UpdateSettings(store, u)
    ensures u == SettingsUpdate(None, None, None, None, None) ==>
      Effective(UpdateSettings(store, u).settings) == Effective(store.settings)
  {
  }
}

=== FILE: availability.dfy ===
/**
 * The availability filter (`get_available_accounts`): which accounts may be
 * used at time `now`, and the normalisation of expired blocks and expired
 * hourly windows that the filter performs on the records as it scans them.
 */
module Availability {
  import opened Wrappers
  import opened Accounts

  /** A temporary block that has not yet run out. */
  predicate BlockedAt(a: Account, now: int)
  {
    a.blockedUntil.Some? && now < a.blockedUntil.value
  }

  /** An hourly window that is still open. */
  predicate WindowOpen(a: Account, now: int)
  {
    a.requestsResetTime.Some? && now <= a.requestsResetTime.value
  }

  /** The filter's three checks, in the order the scan applies them: the
      status string first, then the temporary block, then the hourly quota. */
  predicate Eligible(a: Account, now: int)
  {
    && a.status == Active
    && !BlockedAt(a, now)
    && !(WindowOpen(a, now) && a.requestsCount >= a.maxRequestsPerHour)
  }

  /** What the scan writes back into one record. A record skipped by the
      status check or by a live block is left as it is; otherwise an expired
      block is cleared together with the challenge counter, and then an
      expired hourly window is cleared together with the request counter. */
  function Normalize(a: Account, now: int): (b: Account)
    ensures SameCredentials(a, b) && b.status == a.status && b.lastUsed == a.lastUsed
    ensures a.status != Active || BlockedAt(a, now) ==> b == a
    ensures a.status == Active && !BlockedAt(a, now) ==>
      && b.blockedUntil.None?
      && b.challengeCount == (if a.blockedUntil.Some? then 0 else a.challengeCount)
      && (if a.requestsResetTime.Some? && now > a.requestsResetTime.value
          then b.requestsCount == 0 && b.requestsResetTime.None?
          else b.requestsCount == a.requestsCount && b.requestsResetTime == a.requestsResetTime)
  {
    if a.status != Active || BlockedAt(a, now) then a
    else
      var unblocked := if a.blockedUntil.Some? then a.(blockedUntil := None, challengeCount := 0) else a;
      match unblocked.requestsResetTime
      case Some(reset) =>
        if now > reset then unblocked.(requestsCount := 0, requestsResetTime := None) else unblocked
      case None => unblocked
  }

  /** Normalising does not change whether an account is eligible, and a
      second normalisation at the same instant changes nothing. */
  lemma NormalizeKeepsEligibility(a: Account, now: int)
    ensures Eligible(Normalize(a, now), now) == Eligible(a, now)
    ensures Normalize(Normalize(a, now), now) == Normalize(a, now)
  {
  }

  /** Ready for use: what every account handed out by the filter satisfies. */
  predicate Ready(a: Account, now: int)
  {
    && a.status == Active
    && a.blockedUntil.None?
    && (a.requestsResetTime.None? || (now <= a.requestsResetTime.value && a.requestsCount < a.maxRequestsPerHour))
  }

  /** The account list as the scan leaves it. */
  function NormalizeAll(accs: seq<Account>, now: int): (r: seq<Account>)
    ensures |r| == |accs|
    ensures forall i :: 0 <= i < |accs| ==> r[i] == Normalize(accs[i], now)
  {
    seq(|accs|, i requires 0 <= i < |accs| => Normalize(accs[i], now))
  }

  lemma NormalizeAllKeepsRoster(accs: seq<Account>, now: int)
    ensures SameRoster(accs, NormalizeAll(accs, now))
  {
  }

  /** The list the filter returns: the normalised form of every eligible
      account, in the order of the account list. */
  function AvailableAccounts(accs: seq<Account>, now: int): (r: seq<Account>)
    ensures |r| <= |accs|
    ensures forall k :: 0 <= k < |r| ==> Ready(r[k], now)
  {
    if |accs| == 0 then []
    else
      var rest := AvailableAccounts(accs[..|accs| - 1], now);
      var a := accs[|accs| - 1];
      if Eligible(a, now) then rest + [Normalize(a, now)] else rest
  }

  ghost predicate StrictlyIncreasing(idx: seq<nat>)
  {
    forall k, l :: 0 <= k < l < |idx| ==> idx[k] < idx[l]
  }

  /** The positions the filter keeps. */
  function EligiblePositions(accs: seq<Account>, now: int): (idx: seq<nat>)
    ensures StrictlyIncreasing(idx)
    ensures forall k :: 0 <= k < |idx| ==> idx[k] < |accs|
    ensures forall i :: 0 <= i < |accs| ==> (i in idx <==> Eligible(accs[i], now))
  {
    if |accs| == 0 then []
    else
      var rest := EligiblePositions(accs[..|accs| - 1], now);
      if Eligible(accs[|accs| - 1], now) then rest + [|accs| - 1] else rest
  }

  /** The filter's result is exactly the eligible accounts, normalised, in
      list order: an order-preserving subsequence of the normalised list. */
  lemma {:induction false} AvailableAreEligibleInOrder(accs: seq<Account>, now: int)
    ensures var idx := EligiblePositions(accs, now);
      var r := AvailableAccounts(accs, now);
      && |r| == |idx|
      && forall k :: 0 <= k < |r| ==> r[k] == NormalizeAll(accs, now)[idx[k]]
  {
    if |accs| > 0 {
      AvailableAreEligibleInOrder(accs[..|accs| - 1], now);
    }
  }

  /** No account whose status is not "active" is ever returned, whatever its
      `blocked_until` says; in particular a blocked account stays out for good. */
  lemma {:induction false} InactiveNeverAvailable(accs: seq<Account>, now: int, i: int)
    requires 0 <= i < |accs| && accs[i].status != Active
    ensures i !in EligiblePositions(accs, now)
    ensures forall k :: 0 <= k < |AvailableAccounts(accs, now)| ==> AvailableAccounts(accs, now)[k] != accs[i]
  {
  }

  /** The three time-based cases of the filter for an active account. */
  lemma EligibilityCases(a: Account, now: int)
    requires a.status == Active
    ensures BlockedAt(a, now) ==> !Eligible(a, now)
    ensures !BlockedAt(a, now) && a.requestsResetTime.Some? && now > a.requestsResetTime.value ==>
      Eligible(a, now) && Normalize(a, now).requestsCount == 0 && Normalize(a, now).requestsResetTime.None?
    ensures WindowOpen(a, now) && a.requestsCount >= a.maxRequestsPerHour ==> !Eligible(a, now)
    ensures a.requestsResetTime.None? ==> (Eligible(a, now) <==> !BlockedAt(a, now))
    ensures a.blockedUntil.Some? && now >= a.blockedUntil.value ==>
      Normalize(a, now).blockedUntil.None? && Normalize(a, now).challengeCount == 0
  {
  }
}

=== FILE: classify.dfy ===
/**
 * Error classification of the retry logic: an error message is challenge-like
 * when its lower-cased text contains one of a fixed list of keywords. The
 * login loop and the execution loop use different lists.
 */
module Classify {

  /** Lower-casing of one character (ASCII letters only). */
  function LowerChar(c: char): (d: char)
  {
    if 'A' <= c <= 'Z' then (c as int - 'A' as int + 'a' as int) as char else c
  }

  /** `str.lower()`. */
  function Lower(s: string): (r: string)
    ensures |r| == |s|
    decreases |s|
  {
    if |s| == 0 then [] else [LowerChar(s[0])] + Lower(s[1..])
  }

  /** Lower-casing maps every character on its own. */
  lemma {:induction false} LowerAt(s: string)
    ensures forall i :: 0 <= i < |s| ==> Lower(s)[i] == LowerChar(s[i])
    decreases |s|
  {
    if |s| > 0 {
      LowerAt(s[1..]);
      assert forall i :: 1 <= i < |s| ==> Lower(s)[i] == Lower(s[1..])[i - 1];
    }
  }

  /** Lower-casing gives `r` when `r` is `s` lower-cased character by
      character. */
  lemma LowerOf(s: string, r: string)
    requires |r| == |s| && forall i :: 0 <= i < |s| ==> r[i] == LowerChar(s[i])
    ensures Lower(s) == r
  {
    LowerAt(s);
  }

  /** Lower-casing twice is lower-casing once. */
  lemma LowerIdempotent(s: string)
    ensures Lower(Lower(s)) == Lower(s)
  {
    LowerAt(s);
    LowerAt(Lower(s));
  }

  /** `needle` occurs at position `i` of `hay`. */
  predicate OccursAt(hay: string, needle: string, i: int)
  {
    0 <= i && i + |needle| <= |hay| && hay[i..i + |needle|] == needle
  }

  /** Python's `needle in hay` on strings: the needle occurs at some
      position of the hay. */
  predicate Contains(hay: string, needle: string)
  {
    exists i | 0 <= i <= |hay| - |needle| :: OccursAt(hay, needle, i)
  }

  /** A needle does not occur when no position where it could start holds
      its first two characters. */
  lemma AbsentOpening(hay: string, needle: string)
    requires |needle| >= 2
    requires forall i :: 0 <= i <= |hay| - |needle| ==> hay[i] != needle[0] || hay[i + 1] != needle[1]
    ensures !Contains(hay, needle)
  {
    forall i | 0 <= i <= |hay| - |needle|
      ensures !OccursAt(hay, needle, i)
    {
      assert hay[i..i + |needle|][0] == hay[i] && hay[i..i + |needle|][1] == hay[i + 1];
    }
  }

  /** Some keyword of `keywords` occurs in `text`. */
  predicate MentionsAny(text: string, keywords: seq<string>)
  {
    exists k :: 0 <= k < |keywords| && Contains(text, keywords[k])
  }

  /** The keywords of the login loop (account_manager.py, initialize_api). */
  const LoginKeywords: seq<string> := [
    "challenge", "captcha", "verification", "suspicious",
    "unusual activity", "security check", "verify"]

  /** The keywords of the execution loop (execute_with_retry). */
  const ExecutionKeywords: seq<string> := [
    "challenge", "captcha", "verification", "suspicious",
    "unusual activity", "security check", "verify",
    "rate limit", "too many requests", "blocked"]

  /** A failed login is a challenge when `str(e).lower()` mentions a login keyword. */
  predicate IsLoginChallenge(message: string)
  {
    MentionsAny(Lower(message), LoginKeywords)
  }

  /** A failed operation calls for rotation when `str(e).lower()` mentions an
      execution keyword. */
  predicate IsExecutionChallenge(message: string)
  {
    MentionsAny(Lower(message), ExecutionKeywords)
  }

  /** Every login challenge would also be an execution challenge: the login
      list is the first seven entries of the execution list. */
  lemma LoginChallengeIsExecutionChallenge(message: string)
    ensures IsLoginChallenge(message) ==> IsExecutionChallenge(message)
  {
    assert ExecutionKeywords[..7] == LoginKeywords;
    if IsLoginChallenge(message) {
      var k :| 0 <= k < |LoginKeywords| && Contains(Lower(message), LoginKeywords[k]);
      assert ExecutionKeywords[k] == LoginKeywords[k];
    }
  }

  /** Classification ignores letter case. */
  lemma ClassificationIgnoresCase(message: string)
    ensures IsLoginChallenge(Lower(message)) == IsLoginChallenge(message)
    ensures IsExecutionChallenge(Lower(message)) == IsExecutionChallenge(message)
  {
    LowerIdempotent(message);
  }

  /** The three keywords only the execution loop knows make the two
      classifications disagree: a rate-limit message during login is an
      ordinary failure, during execution it is a challenge. */
  lemma RateLimitIsOnlyAnExecutionChallenge()
    ensures IsExecutionChallenge("RATE LIMIT")
    ensures !IsLoginChallenge("RATE LIMIT")
  {
    LowerOf("RATE LIMIT", "rate limit");
    RateLimitKeywords("rate limit");
  }

  /** "rate limit" holds the eighth execution keyword and no login keyword. */
  lemma RateLimitKeywords(text: string)
    requires text == "rate limit"
    ensures Contains(text, ExecutionKeywords[7])
    ensures forall k :: 0 <= k < |LoginKeywords| ==> !Contains(text, LoginKeywords[k])
  {
    assert OccursAt(text, ExecutionKeywords[7], 0);
    forall k | 0 <= k < |LoginKeywords|
      ensures !Contains(text, LoginKeywords[k])
    {
      var kw := LoginKeywords[k];
      if |kw| <= |text| {
        assert text[0] == 'r' && text[1] == 'a' && text[2] == 't' && text[3] == 'e' && text[4] == ' ';
        AbsentOpening(text, kw);
      }
    }
  }

  /** The message `execute_with_retry` raises when `initialize_api` fails. */
  const InitFailureMessage := "Falha na inicializa\U{E7}\U{E3}o da API"

  lemma InitFailureLowered()
    ensures Lower(InitFailureMessage) == "falha na inicializa\U{E7}\U{E3}o da api"
  {
    LowerOf(InitFailureMessage, "falha na inicializa\U{E7}\U{E3}o da api");
  }

  /** No execution keyword occurs in the lower-cased failure message: no
      position holds the first two letters of any of them. */
  lemma InitFailureHasNoKeyword(hay: string)
    requires hay == "falha na inicializa\U{E7}\U{E3}o da api"
    ensures forall k :: 0 <= k < |ExecutionKeywords| ==> !Contains(hay, ExecutionKeywords[k])
  {
    assert forall i :: 0 <= i < |hay| ==>
      hay[i] != 'v' && hay[i] != 's' && hay[i] != 'u' && hay[i] != 'r' && hay[i] != 't' && hay[i] != 'b';
    assert forall i :: 0 <= i < |hay| - 1 && hay[i] == 'c' ==> hay[i + 1] == 'i';
    forall k | 0 <= k < |ExecutionKeywords|
      ensures !Contains(hay, ExecutionKeywords[k])
    {
      AbsentOpening(hay, ExecutionKeywords[k]);
    }
  }

  /** A failed initialisation is never taken for a challenge, so the
      execution loop treats it as an ordinary error and sleeps. */
  lemma InitFailureIsNotAChallenge()
    ensures !IsExecutionChallenge(InitFailureMessage)
    ensures !IsLoginChallenge(InitFailureMessage)
  {
    InitFailureLowered();
    InitFailureHasNoKeyword("falha na inicializa\U{E7}\U{E3}o da api");
    LoginChallengeIsExecutionChallenge(InitFailureMessage);
  }
}

=== FILE: retry.dfy ===
/**
 * The session provider (`initialize_api`) and the retry orchestrator
 * (`execute_with_retry`). The login call and the scraping operation are
 * outside the model: an `Env` gives the outcome of the n-th login and of the
 * n-th operation call. Every run also returns the sequence of events it
 * caused, so that its decisions can be stated.
 */
module Retry {
  import opened Wrappers
  import opened Accounts
  import opened Availability
  import opened Selection
  import opened Tracking
  import opened Classify

  /** What an external call did: returned, or raised an error with text `str(e)`. */
  datatype Outcome = Ok | Err(message: string)

  /** The world outside: the outcome of the n-th login and of the n-th call
      of the operation, counted from the start of the manager's life. */
  datatype Env = Env(login: nat -> Outcome, operation: nat -> Outcome)

  /** The manager object: the accounts file in memory, the round-robin
      cursor, the account the cached session belongs to (`None` before the
      first successful login), the clock, and how many logins and operation
      calls have been made so far. */
  datatype Manager = Manager(
    store: Store,
    cursor: nat,
    current: Option<string>,
    now: int,
    logins: nat,
    calls: nat)

  /** Observable steps of a run. `Login` is a call of `get_next_account`
      that picked `account` followed by the login with it; `NoAccount` is a
      call that found nothing eligible. `Failed` is the entry into the
      except-branch of the retry loop, with the attempt number after
      counting it. */
  datatype Event =
    | Login(account: string, outcome: Outcome)
    | NoAccount
    | Request(account: string)
    | Challenge(account: string)
    | Call(account: string, outcome: Outcome)
    | Failed(attempt: nat, message: string)
    | Sleep(seconds: nat)

  /** The outcome of `execute_with_retry`: the result of the operation call
      with the given number, or the exception raised after giving up. */
  datatype RunResult = Returned(call: nat) | RetryExhausted(attempts: int)

  /** Sessions are established with this many login attempts
      (`initialize_api`'s default). */
  const LoginAttempts := 3

  function Max0(n: int): nat
  {
    if n < 0 then 0 else n
  }

  predicate IsLoginOk(e: Event)
  {
    e.Login? && e.outcome.Ok?
  }

  datatype Kind = Logins | Calls | Sleeps | Failures | Picks

  predicate IsKind(e: Event, kind: Kind)
  {
    match kind
    case Logins => e.Login?
    case Calls => e.Call?
    case Sleeps => e.Sleep?
    case Failures => e.Failed?
    case Picks => e.Login? || e.NoAccount?
  }

  /** How many events of one kind a trace holds. */
  function CountOf(t: seq<Event>, kind: Kind): nat
  {
    if |t| == 0 then 0
    else CountOf(t[..|t| - 1], kind) + (if IsKind(t[|t| - 1], kind) then 1 else 0)
  }

  lemma {:induction false} CountOfAppend(a: seq<Event>, b: seq<Event>, kind: Kind)
    ensures CountOf(a + b, kind) == CountOf(a, kind) + CountOf(b, kind)
    decreases |b|
  {
    if |b| > 0 {
      assert (a + b)[..|a + b| - 1] == a + b[..|b| - 1];
      CountOfAppend(a, b[..|b| - 1], kind);
    } else {
      assert a + b == a;
    }
  }

  /** A trace that holds an event of some kind counts at least one. */
  lemma {:induction false} CountOfPositive(t: seq<Event>, k: int, kind: Kind)
    requires 0 <= k < |t| && IsKind(t[k], kind)
    ensures CountOf(t, kind) >= 1
    decreases |t|
  {
    if k < |t| - 1 {
      assert t[..|t| - 1][k] == t[k];
      CountOfPositive(t[..|t| - 1], k, kind);
    }
  }

  /** A trace counts at most one event of a kind per entry. */
  lemma {:induction false} CountOfAtMostLength(t: seq<Event>, kind: Kind)
    ensures CountOf(t, kind) <= |t|
    decreases |t|
  {
    if |t| > 0 {
      CountOfAtMostLength(t[..|t| - 1], kind);
    }
  }

  function Bit(b: bool): nat
  {
    if b then 1 else 0
  }

  lemma CountOfShort(x: Event, y: Event, z: Event, w: Event)
    ensures forall kind :: CountOf([x], kind) == Bit(IsKind(x, kind))
    ensures forall kind :: CountOf([x, y], kind) == Bit(IsKind(x, kind)) + Bit(IsKind(y, kind))
    ensures forall kind :: CountOf([x, y, z], kind) == Bit(IsKind(x, kind)) + Bit(IsKind(y, kind)) + Bit(IsKind(z, kind))
    ensures forall kind ::
      CountOf([x, y, z, w], kind) == Bit(IsKind(x, kind)) + Bit(IsKind(y, kind)) + Bit(IsKind(z, kind)) + Bit(IsKind(w, kind))
  {
    assert [x, y][..1] == [x];
    assert [x, y, z][..2] == [x, y];
    assert [x, y, z, w][..3] == [x, y, z];
    assert [x][..0] == [];
  }

  lemma CountOfAll(a: seq<Event>, b: seq<Event>)
    ensures forall kind :: CountOf(a + b, kind) == CountOf(a, kind) + CountOf(b, kind)
  {
    forall kind {
      CountOfAppend(a, b, kind);
    }
  }

  /** What must surround the event at position k of a trace:
      - a successful login is followed by the request it records;
      - a failed login is followed by a sleep, with the challenge recorded
        first when its text names a login keyword;
      - every operation call directly follows the request recorded for the
        same account, and a failing call is followed by the failure entry;
      - a failure entry is followed by a challenge when its text names an
        execution keyword, and by a sleep otherwise;
      - a challenge is recorded only right after a challenge-like failure of
        the same account;
      - a request is recorded only right after a successful login of the
        same account or right before a call with it;
      - a sleep comes only after an ordinary failure entry, after a login
        that failed without a challenge, or after the challenge of a failed
        login. */
  predicate StepOk(t: seq<Event>, k: int)
    requires 0 <= k < |t|
  {
    match t[k]
    case Login(id, Ok) => k + 1 < |t| && t[k + 1] == Request(id)
    case Login(id, Err(msg)) =>
      if IsLoginChallenge(msg) then k + 2 < |t| && t[k + 1] == Challenge(id) && t[k + 2].Sleep?
      else k + 1 < |t| && t[k + 1].Sleep?
    case Call(id, outcome) =>
      && k > 0 && t[k - 1] == Request(id)
      && (outcome.Err? ==> k + 1 < |t| && t[k + 1].Failed? && t[k + 1].message == outcome.message)
    case Failed(_, msg) =>
      k + 1 < |t| && (if IsExecutionChallenge(msg) then t[k + 1].Challenge? else t[k + 1].Sleep?)
    case Challenge(id) =>
      || (k > 0 && t[k - 1].Login? && t[k - 1] == Login(id, t[k - 1].outcome)
            && t[k - 1].outcome.Err? && IsLoginChallenge(t[k - 1].outcome.message))
      || (k > 1 && t[k - 1].Failed? && IsExecutionChallenge(t[k - 1].message)
            && t[k - 2] == Call(id, Err(t[k - 1].message)))
    case Request(id) =>
      || (k > 0 && t[k - 1] == Login(id, Ok))
      || (k + 1 < |t| && t[k + 1].Call? && t[k + 1].account == id)
    case Sleep(_) =>
      || (k > 0 && t[k - 1].Failed? && !IsExecutionChallenge(t[k - 1].message))
      || (k > 0 && t[k - 1].Login? && t[k - 1].outcome.Err? && !IsLoginChallenge(t[k - 1].outcome.message))
      || (k > 1 && t[k - 1].Challenge? && t[k - 2].Login?)
    case _ => true
  }

  predicate WellFormed(t: seq<Event>)
  {
    forall k :: 0 <= k < |t| ==> StepOk(t, k)
  }

  lemma StepOkExtends(a: seq<Event>, b: seq<Event>, k: int)
    requires 0 <= k < |a| && StepOk(a, k)
    ensures StepOk(a + b, k)
  {
    var t := a + b;
    assert forall j :: 0 <= j < |a| ==> t[j] == a[j];
  }

  lemma StepOkShifts(a: seq<Event>, b: seq<Event>, k: int)
    requires 0 <= k < |b| && StepOk(b, k)
    ensures StepOk(a + b, |a| + k)
  {
    var t := a + b;
    assert forall j :: 0 <= j < |b| ==> t[|a| + j] == b[j];
  }

  lemma WellFormedAppend(a: seq<Event>, b: seq<Event>)
    requires WellFormed(a) && WellFormed(b)
    ensures WellFormed(a + b)
  {
    forall k | 0 <= k < |a + b|
      ensures StepOk(a + b, k)
    {
      if k < |a| {
        StepOkExtends(a, b, k);
      } else {
        StepOkShifts(a, b, k - |a|);
      }
    }
  }

  /** Every account whose status differs between `before` and `after` has
      become "blocked", and a challenge of its id is recorded in `t`. */
  ghost predicate StatusChangesAreBlocks(before: seq<Account>, after: seq<Account>, t: seq<Event>)
    requires |before| == |after|
  {
    forall i :: 0 <= i < |before| && after[i].status != before[i].status ==>
      after[i].status == Blocked && Challenge(before[i].id) in t
  }

  lemma StatusChangesCompose(a: seq<Account>, b: seq<Account>, c: seq<Account>, t1: seq<Event>, t2: seq<Event>)
    requires SameRoster(a, b) && SameRoster(b, c)
    requires StatusChangesAreBlocks(a, b, t1) && StatusChangesAreBlocks(b, c, t2)
    ensures StatusChangesAreBlocks(a, c, t1 + t2)
  {
  }

  function SetAccounts(m: Manager, accs: seq<Account>): Manager
  {
    m.(store := m.store.(accounts := accs))
  }

  /** The effect of one event on the manager, or `None` when the event could
      not have happened in state `m` under `env`: a login must be made with
      the account `get_next_account` picks there and get the outcome `env`
      gives the next login; a call must be made with the current session and
      get the outcome `env` gives the next call. A request and a challenge
      are `mark_request` and `mark_challenge` at the current time; a sleep
      moves the clock. */
  function Step(env: Env, m: Manager, e: Event): (r: Option<Manager>)
    ensures r.Some? ==> r.value.store.settings == m.store.settings
    ensures r.Some? ==> SameRoster(m.store.accounts, r.value.store.accounts)
  {
    var cfg := Effective(m.store.settings);
    match e
    case Login(id, outcome) =>
      var next := NextAccount(m.store.accounts, cfg.strategy, m.cursor, m.now);
      if next.picked.Some? && next.picked.value.id == id && outcome == env.login(m.logins) then
        Some(SetAccounts(m, next.accounts).(
          cursor := next.cursor,
          logins := m.logins + 1,
          current := if outcome.Ok? then Some(id) else m.current))
      else None
    case NoAccount =>
      var next := NextAccount(m.store.accounts, cfg.strategy, m.cursor, m.now);
      if next.picked.None? then Some(SetAccounts(m, next.accounts)) else None
    case Request(id) =>
      Some(SetAccounts(m, MarkRequest(m.store.accounts, id, m.now)))
    case Challenge(id) =>
      Some(SetAccounts(m, MarkChallenge(m.store.accounts, id, cfg.maxChallengeRetries, cfg.cooldownMinutes, m.now)))
    case Call(id, outcome) =>
      if m.current == Some(id) && outcome == env.operation(m.calls) then Some(m.(calls := m.calls + 1)) else None
    case Failed(_, _) => Some(m)
    case Sleep(seconds) => Some(m.(now := m.now + seconds))
  }

  /** The manager after the events of `t` happen in order from `m`, or
      `None` when one of them could not have happened. */
  function Replay(env: Env, m: Manager, t: seq<Event>): (r: Option<Manager>)
    ensures r.Some? ==> r.value.store.settings == m.store.settings
    ensures r.Some? ==> SameRoster(m.store.accounts, r.value.store.accounts)
    decreases |t|
  {
    if |t| == 0 then Some(m)
    else match Step(env, m, t[0])
      case None => None
      case Some(m1) => Replay(env, m1, t[1..])
  }

  /** Replaying two traces one after the other is replaying their
      concatenation. */
  lemma {:induction false} ReplayThen(env: Env, m: Manager, a: seq<Event>, m1: Manager, b: seq<Event>)
    requires Replay(env, m, a) == Some(m1)
    ensures Replay(env, m, a + b) == Replay(env, m1, b)
    decreases |a|
  {
    if |a| == 0 {
      assert a + b == b;
    } else {
      assert (a + b)[0] == a[0] && (a + b)[1..] == a[1..] + b;
      ReplayThen(env, Step(env, m, a[0]).value, a[1..], m1, b);
    }
  }

  /** Replaying one event is taking its step. */
  lemma ReplayOne(env: Env, m: Manager, e: Event, rest: seq<Event>)
    ensures Replay(env, m, [e] + rest) == if Step(env, m, e).None? then None else Replay(env, Step(env, m, e).value, rest)
  {
    assert ([e] + rest)[0] == e && ([e] + rest)[1..] == rest;
  }

  /** The first event of a trace that replays is the one the state allows:
      a pick is the login with the account `get_next_account` chooses and
      the outcome `env` gives that login, or the report that nothing is
      eligible; a call is made with the cached session and gets the outcome
      `env` gives that call. */
  lemma ReplayHead(env: Env, m: Manager, t: seq<Event>)
    requires |t| >= 1 && Replay(env, m, t).Some?
    ensures var next := NextAccount(m.store.accounts, Effective(m.store.settings).strategy, m.cursor, m.now);
      && (IsKind(t[0], Picks) && next.picked.Some? ==> t[0] == Login(next.picked.value.id, env.login(m.logins)))
      && (IsKind(t[0], Picks) && next.picked.None? ==> t[0] == NoAccount)
      && (t[0].Call? ==> m.current.Some? && t[0] == Call(m.current.value, env.operation(m.calls)))
  {
  }

  /** What one step does to the counters and the clock: they move by the
      event's kind and by a sleep, and a login or a call gets the outcome
      `env` gives it. */
  lemma StepCounters(env: Env, m: Manager, e: Event, m1: Manager)
    requires Step(env, m, e) == Some(m1)
    ensures m1.calls == m.calls + Bit(IsKind(e, Calls))
    ensures m1.logins == m.logins + Bit(IsKind(e, Logins))
    ensures m1.now == m.now + (if e.Sleep? then e.seconds else 0)
    ensures e.Login? ==> e.outcome == env.login(m.logins)
    ensures e.Call? ==> e.outcome == env.operation(m.calls)
  {
  }

  /** A step changes a status only to "blocked", by a challenge of that
      account. */
  lemma StepStatus(env: Env, m: Manager, e: Event, m1: Manager)
    requires Step(env, m, e) == Some(m1)
    ensures StatusChangesAreBlocks(m.store.accounts, m1.store.accounts, [e])
  {
    var cfg := Effective(m.store.settings);
    match e
    case Request(id) =>
      MarkRequestKeepsStatus(m.store.accounts, id, m.now);
    case Challenge(id) =>
      MarkChallengeOnlyBlocks(m.store.accounts, id, cfg.maxChallengeRetries, cfg.cooldownMinutes, m.now);
    case _ =>
  }

  /** Any trace that replays accounts for everything outside the list: the
      calls and logins made are the ones it records, the clock moved by its
      sleeps, and every status change is a block whose challenge it records. */
  lemma ReplayBookkeeping(env: Env, m: Manager, t: seq<Event>, m': Manager, delay: nat)
    requires Replay(env, m, t) == Some(m')
    ensures m'.calls == m.calls + CountOf(t, Calls)
    ensures m'.logins == m.logins + CountOf(t, Logins)
    ensures SleepsLast(t, delay) ==> m'.now == m.now + delay * CountOf(t, Sleeps)
    ensures StatusChangesAreBlocks(m.store.accounts, m'.store.accounts, t)
  {
    ReplayCounters(env, m, t, m', delay);
    ReplayStatusChanges(env, m, t, m');
  }

  /** The calls, logins and seconds slept that a replayed trace records
      are exactly the ones the manager's counters and clock advance by. */
  lemma {:induction false} ReplayCounters(env: Env, m: Manager, t: seq<Event>, m': Manager, delay: nat)
    requires Replay(env, m, t) == Some(m')
    ensures m'.calls == m.calls + CountOf(t, Calls)
    ensures m'.logins == m.logins + CountOf(t, Logins)
    ensures SleepsLast(t, delay) ==> m'.now == m.now + delay * CountOf(t, Sleeps)
  {
    ReplayClock(env, m, t, m');
    SleepTimeOfDelays(t, delay);
  }

  /** The seconds slept in a trace. */
  function SleepTime(t: seq<Event>): (r: nat)
    ensures |t| > 0 && t[0].Sleep? ==> r >= t[0].seconds
    decreases |t|
  {
    if |t| == 0 then 0
    else (if t[0].Sleep? then t[0].seconds else 0) + SleepTime(t[1..])
  }

  /** When every sleep lasts `delay`, the time slept is `delay` per sleep. */
  lemma {:induction false} SleepTimeOfDelays(t: seq<Event>, delay: nat)
    ensures SleepsLast(t, delay) ==> SleepTime(t) == delay * CountOf(t, Sleeps)
    decreases |t|
  {
    if |t| > 0 && SleepsLast(t, delay) {
      SleepsLastRest(t, delay);
      SleepTimeOfDelays(t[1..], delay);
      CountOfCons(t, Sleeps);
      if t[0].Sleep? {
        MulSucc(delay, CountOf(t[1..], Sleeps));
      }
    }
  }

  /** Replaying a trace advances the call and login counters by its calls
      and logins, and the clock by its sleeps. */
  lemma {:induction false} ReplayClock(env: Env, m: Manager, t: seq<Event>, m': Manager)
    requires Replay(env, m, t) == Some(m')
    ensures m'.calls == m.calls + CountOf(t, Calls)
    ensures m'.logins == m.logins + CountOf(t, Logins)
    ensures m'.now == m.now + SleepTime(t)
    decreases |t|
  {
    if |t| > 0 {
      var e, rest := t[0], t[1..];
      var m1 := Step(env, m, e).value;
      ReplayClock(env, m1, rest, m');
      StepCounters(env, m, e, m1);
      CountOfCons(t, Calls);
      CountOfCons(t, Logins);
    }
  }

  /** Counting a trace is counting its first event and then the rest. */
  lemma CountOfCons(t: seq<Event>, kind: Kind)
    requires |t| > 0
    ensures CountOf(t, kind) == Bit(IsKind(t[0], kind)) + CountOf(t[1..], kind)
  {
    assert t == [t[0]] + t[1..];
    assert [t[0]][..0] == [];
    CountOfAppend([t[0]], t[1..], kind);
  }

  /** The sleeps of a trace all last `delay` when those of its first event
      and of the rest do. */
  lemma SleepsLastRest(t: seq<Event>, delay: nat)
    requires |t| > 0
    ensures SleepsLast(t, delay) ==> SleepsLast(t[1..], delay) && (t[0].Sleep? ==> t[0].seconds == delay)
  {
    if SleepsLast(t, delay) {
      forall k | 0 <= k < |t| - 1 && t[1..][k].Sleep?
        ensures t[1..][k].seconds == delay
      {
        assert t[1..][k] == t[k + 1];
      }
    }
  }

  lemma {:induction false} ReplayStatusChanges(env: Env, m: Manager, t: seq<Event>, m': Manager)
    requires Replay(env, m, t) == Some(m')
    ensures StatusChangesAreBlocks(m.store.accounts, m'.store.accounts, t)
    decreases |t|
  {
    if |t| > 0 {
      var e, rest := t[0], t[1..];
      var m1 := Step(env, m, e).value;
      assert t == [e] + rest;
      ReplayStatusChanges(env, m1, rest, m');
      StepStatus(env, m, e, m1);
      StatusChangesCompose(m.store.accounts, m1.store.accounts, m'.store.accounts, [e], rest);
    }
  }

  lemma MulSucc(d: nat, s: nat)
    ensures d * (1 + s) == d + d * s
  {
  }

  /** Every prefix of a trace that replays replays too, and the rest of
      the trace replays from where the prefix ends. */
  lemma {:induction false} ReplayPrefix(env: Env, m: Manager, t: seq<Event>, k: nat)
    requires Replay(env, m, t).Some? && k <= |t|
    ensures Replay(env, m, t[..k]).Some?
    ensures Replay(env, m, t) == Replay(env, Replay(env, m, t[..k]).value, t[k..])
    decreases k
  {
    if k == 0 {
      assert t[..0] == [] && t[0..] == t;
    } else {
      var m1 := Step(env, m, t[0]).value;
      assert t[..k][0] == t[0] && t[..k][1..] == t[1..][..k - 1] && t[1..][k - 1..] == t[k..];
      ReplayPrefix(env, m1, t[1..], k - 1);
    }
  }

  /** In a trace that replays, each login and each call got the outcome
      `env` gives it, numbered by how many logins or calls came before: the
      state the events before position `k` reach has made exactly those. */
  lemma ReplayOutcomeAt(env: Env, m: Manager, t: seq<Event>, k: nat)
    requires Replay(env, m, t).Some? && k < |t|
    ensures Replay(env, m, t[..k]).Some?
    ensures var before := Replay(env, m, t[..k]).value;
      && before.logins == m.logins + CountOf(t[..k], Logins)
      && before.calls == m.calls + CountOf(t[..k], Calls)
      && (t[k].Login? ==> t[k].outcome == env.login(before.logins))
      && (t[k].Call? ==> t[k].outcome == env.operation(before.calls))
  {
    ReplayPrefix(env, m, t, k);
    var before := Replay(env, m, t[..k]).value;
    ReplayBookkeeping(env, m, t[..k], before, 0);
    assert t[k..][0] == t[k];
    StepCounters(env, before, t[k], Step(env, before, t[k]).value);
  }


  /** The event at position `k` is a login or a call with account `id`
      whose outcome, the one `env` gives it, is a challenge error. */
  ghost predicate ChallengedBy(env: Env, m: Manager, t: seq<Event>, k: int, id: string)
    requires 0 <= k < |t|
  {
    || (t[k].Login? && t[k].account == id && t[k].outcome.Err? && IsLoginChallenge(t[k].outcome.message)
        && t[k].outcome == env.login(m.logins + CountOf(t[..k], Logins)))
    || (t[k].Call? && t[k].account == id && t[k].outcome.Err? && IsExecutionChallenge(t[k].outcome.message)
        && t[k].outcome == env.operation(m.calls + CountOf(t[..k], Calls)))
  }

  /** An account's status changes over a well-formed run only when the
      outcome `env` gave one of its logins or calls was a challenge, and
      then the account is blocked. */
  lemma StatusChangeTracesToEnv(env: Env, m: Manager, t: seq<Event>, m': Manager, i: int)
    requires Replay(env, m, t) == Some(m') && WellFormed(t)
    requires 0 <= i < |m.store.accounts| && m'.store.accounts[i].status != m.store.accounts[i].status
    ensures m'.store.accounts[i].status == Blocked
    ensures exists k :: 0 <= k < |t| && ChallengedBy(env, m, t, k, m.store.accounts[i].id)
  {
    var id := m.store.accounts[i].id;
    ReplayStatusChanges(env, m, t, m');
    var j :| 0 <= j < |t| && t[j] == Challenge(id);
    assert StepOk(t, j);
    var k := if j > 0 && t[j - 1].Login? then j - 1 else j - 2;
    assert (t[k].Login? || t[k].Call?) && t[k].account == id && t[k].outcome.Err?;
    assert t[k].Login? ==> IsLoginChallenge(t[k].outcome.message);
    assert t[k].Call? ==> IsExecutionChallenge(t[k].outcome.message);
    ReplayOutcomeAt(env, m, t, k);
    var before := Replay(env, m, t[..k]).value;
    ChallengedByFromParts(env, m, t, k, id, before);
  }

  lemma ChallengedByFromParts(env: Env, m: Manager, t: seq<Event>, k: int, id: string, before: Manager)
    requires 0 <= k < |t|
    requires (t[k].Login? || t[k].Call?) && t[k].account == id && t[k].outcome.Err?
    requires t[k].Login? ==> IsLoginChallenge(t[k].outcome.message)
    requires t[k].Call? ==> IsExecutionChallenge(t[k].outcome.message)
    requires before.logins == m.logins + CountOf(t[..k], Logins) && before.calls == m.calls + CountOf(t[..k], Calls)
    requires t[k].Login? ==> t[k].outcome == env.login(before.logins)
    requires t[k].Call? ==> t[k].outcome == env.operation(before.calls)
    ensures ChallengedBy(env, m, t, k, id)
  {
    SameOutcomes(env, t[k], before.logins, m.logins + CountOf(t[..k], Logins), before.calls, m.calls + CountOf(t[..k], Calls));
  }

  /** The outcomes `env` gives are a function of the login or call number. */
  lemma SameOutcomes(env: Env, e: Event, logins: nat, logins': nat, calls: nat, calls': nat)
    requires logins == logins' && calls == calls'
    requires e.Login? ==> e.outcome == env.login(logins)
    requires e.Call? ==> e.outcome == env.operation(calls)
    ensures e.Login? ==> e.outcome == env.login(logins')
    ensures e.Call? ==> e.outcome == env.operation(calls')
  {
  }

  /** What a run from `m0` that produced the trace `t` and reached `m`
      shows: the trace replays to `m` and is well formed, every sleep lasts
      `request_delay_seconds`, the settings and the roster are kept, every
      status change is a block with its challenge in `t`, and the counters
      and the clock moved by what `t` holds. */
  ghost predicate Ran(m0: Manager, env: Env, t: seq<Event>, m: Manager)
  {
    var delay := Effective(m0.store.settings).requestDelaySeconds;
    && Replay(env, m0, t) == Some(m)
    && WellFormed(t) && SleepsLast(t, delay)
    && m.store.settings == m0.store.settings
    && SameRoster(m0.store.accounts, m.store.accounts)
    && StatusChangesAreBlocks(m0.store.accounts, m.store.accounts, t)
    && m.calls == m0.calls + CountOf(t, Calls)
    && m.logins == m0.logins + CountOf(t, Logins)
    && m.now == m0.now + delay * CountOf(t, Sleeps)
  }

  /** Two runs one after the other are one run. */
  lemma RanThen(m0: Manager, env: Env, t: seq<Event>, m1: Manager, c: seq<Event>, m2: Manager)
    requires Ran(m0, env, t, m1) && Ran(m1, env, c, m2)
    ensures Ran(m0, env, t + c, m2)
    ensures forall kind :: CountOf(t + c, kind) == CountOf(t, kind) + CountOf(c, kind)
    ensures NoLoginOk(t) && NoLoginOk(c) ==> NoLoginOk(t + c)
  {
    var delay := Effective(m0.store.settings).requestDelaySeconds;
    Extend(t, c, delay, m0.now);
    StatusChangesCompose(m0.store.accounts, m1.store.accounts, m2.store.accounts, t, c);
    ReplayThen(env, m0, t, m1, c);
  }

  /** The events of one login attempt, by outcome. */
  function LoginEvents(id: string, outcome: Outcome, delay: nat): seq<Event>
  {
    match outcome
    case Ok => [Login(id, Ok), Request(id)]
    case Err(msg) =>
      if IsLoginChallenge(msg) then [Login(id, outcome), Challenge(id), Sleep(delay)]
      else [Login(id, outcome), Sleep(delay)]
  }

  lemma LoginEventsFacts(id: string, outcome: Outcome, delay: nat)
    ensures var c := LoginEvents(id, outcome, delay);
      && WellFormed(c)
      && CountOf(c, Logins) == 1 && CountOf(c, Calls) == 0 && CountOf(c, Failures) == 0 && CountOf(c, Picks) == 1
      && CountOf(c, Sleeps) == (if outcome.Ok? then 0 else 1)
      && (forall k :: 0 <= k < |c| && c[k].Sleep? ==> c[k].seconds == delay)
      && (outcome.Ok? ==> |c| == 2 && IsLoginOk(c[0]) && c[0].account == id)
      && (outcome.Err? ==> forall k :: 0 <= k < |c| ==> !IsLoginOk(c[k]))
      && (outcome.Err? && IsLoginChallenge(outcome.message) ==> Challenge(id) in c)
  {
    var c := LoginEvents(id, outcome, delay);
    CountOfShort(c[0], c[1], if |c| == 3 then c[2] else c[1], c[1]);
    assert StepOk(c, 0);
    if |c| == 3 {
      assert c == [c[0], c[1], c[2]];
      assert StepOk(c, 1);
    } else {
      assert c == [c[0], c[1]];
    }
  }

  /** What a login attempt writes into the account list: one request on
      success, one challenge when the error names a login keyword. */
  function RecordLogin(accs: seq<Account>, id: string, outcome: Outcome, cfg: Config, now: int): (r: seq<Account>)
    ensures SameRoster(accs, r)
    ensures StatusChangesAreBlocks(accs, r, LoginEvents(id, outcome, cfg.requestDelaySeconds))
    ensures forall i :: FirstWithId(accs, id, i) ==>
      r[i] == match outcome
        case Ok => Requested(accs[i], now)
        case Err(msg) => if IsLoginChallenge(msg) then Challenged(accs[i], cfg.maxChallengeRetries, cfg.cooldownMinutes, now) else accs[i]
    ensures forall j :: 0 <= j < |accs| && !FirstWithId(accs, id, j) ==> r[j] == accs[j]
  {
    match outcome
    case Ok =>
      MarkRequestKeepsStatus(accs, id, now);
      MarkRequest(accs, id, now)
    case Err(msg) =>
      if IsLoginChallenge(msg) then
        MarkChallengeOnlyBlocks(accs, id, cfg.maxChallengeRetries, cfg.cooldownMinutes, now);
        assert LoginEvents(id, outcome, cfg.requestDelaySeconds)[1] == Challenge(id);
        MarkChallenge(accs, id, cfg.maxChallengeRetries, cfg.cooldownMinutes, now)
      else accs
  }

  /** One login attempt with the account `id`, and what it records. */
  method LoginWith(m: Manager, env: Env, id: string) returns (m': Manager, ok: bool, chunk: seq<Event>)
    ensures chunk == LoginEvents(id, env.login(m.logins), Effective(m.store.settings).requestDelaySeconds)
    ensures ok <==> env.login(m.logins).Ok?
    ensures m'.store.accounts == RecordLogin(m.store.accounts, id, env.login(m.logins), Effective(m.store.settings), m.now)
    ensures m'.store.settings == m.store.settings && m'.cursor == m.cursor
    ensures SameRoster(m.store.accounts, m'.store.accounts)
    ensures StatusChangesAreBlocks(m.store.accounts, m'.store.accounts, chunk)
    ensures m'.calls == m.calls && m'.logins == m.logins + 1
    ensures m'.now == if ok then m.now else m.now + Effective(m.store.settings).requestDelaySeconds
    ensures m'.current == if ok then Some(id) else m.current
  {
    var cfg := Effective(m.store.settings);
    var outcome := env.login(m.logins);
    ok := outcome.Ok?;
    chunk := LoginEvents(id, outcome, cfg.requestDelaySeconds);
    var accs := RecordLogin(m.store.accounts, id, outcome, cfg, m.now);
    m' := SetAccounts(m, accs).(
      logins := m.logins + 1,
      now := if ok then m.now else m.now + cfg.requestDelaySeconds,
      current := if ok then Some(id) else m.current);
  }

  /** After the login itself, the rest of a login attempt's events replay
      to what `LoginWith` writes: the request or the challenge on the list,
      and the sleep of a failure. */
  lemma ReplayLoginTail(env: Env, s: Manager, id: string, outcome: Outcome, cfg: Config, tail: seq<Event>, after: Manager)
    requires cfg == Effective(s.store.settings)
    requires tail == LoginEvents(id, outcome, cfg.requestDelaySeconds)[1..]
    requires after == SetAccounts(s, RecordLogin(s.store.accounts, id, outcome, cfg, s.now)).(
      now := if outcome.Ok? then s.now else s.now + cfg.requestDelaySeconds)
    ensures Replay(env, s, tail) == Some(after)
  {
    var r := RecordLogin(s.store.accounts, id, outcome, cfg, s.now);
    if outcome.Ok? {
      assert tail == [Request(id)];
      ReplayOne(env, s, Request(id), []);
    } else if IsLoginChallenge(outcome.message) {
      assert tail == [Challenge(id)] + [Sleep(cfg.requestDelaySeconds)];
      ReplayOne(env, s, Challenge(id), [Sleep(cfg.requestDelaySeconds)]);
      ReplayOne(env, SetAccounts(s, r), Sleep(cfg.requestDelaySeconds), []);
    } else {
      assert tail == [Sleep(cfg.requestDelaySeconds)];
      ReplayOne(env, s, Sleep(cfg.requestDelaySeconds), []);
    }
  }

  /** One pass of the login loop: pick the next account (normalising the
      list and moving the cursor), try to log in with it, and record the
      outcome. `picked` is false when no account is eligible. */
  method LoginOnce(m: Manager, env: Env) returns (m': Manager, picked: bool, ok: bool, chunk: seq<Event>)
    ensures |chunk| >= 1 && IsKind(chunk[0], Picks) && CountOf(chunk, Picks) == 1
    ensures picked <==> chunk[0].Login?
    ensures var next := NextAccount(m.store.accounts, Effective(m.store.settings).strategy, m.cursor, m.now);
      && (picked <==> next.picked.Some?)
      && (picked ==> chunk[0] == Login(next.picked.value.id, env.login(m.logins)) && (ok <==> env.login(m.logins).Ok?))
    ensures Ran(m, env, chunk, m')
    ensures CountOf(chunk, Calls) == 0 && CountOf(chunk, Failures) == 0
    ensures CountOf(chunk, Logins) == if picked then 1 else 0
    ensures !picked ==> !ok && chunk == [NoAccount] && m'.current == m.current
    ensures !picked ==> forall i :: 0 <= i < |m'.store.accounts| ==> !Eligible(m'.store.accounts[i], m'.now)
    ensures ok ==> |chunk| == 2 && IsLoginOk(chunk[0]) && m'.current == Some(chunk[0].account)
    ensures !ok ==> m'.current == m.current && forall k :: 0 <= k < |chunk| ==> !IsLoginOk(chunk[k])
  {
    var cfg := Effective(m.store.settings);
    var next := NextAccount(m.store.accounts, cfg.strategy, m.cursor, m.now);
    if next.picked.None? {
      m', picked, ok, chunk := SetAccounts(m, next.accounts), false, false, [NoAccount];
      ReplayOne(env, m, NoAccount, []);
      CountOfShort(NoAccount, NoAccount, NoAccount, NoAccount);
      assert StatusChangesAreBlocks(m.store.accounts, next.accounts, chunk);
    } else {
      picked := true;
      m', ok, chunk := PickedLogin(m, env);
    }
  }

  /** The login loop's pass when `get_next_account` picks an account. */
  method PickedLogin(m: Manager, env: Env) returns (m': Manager, ok: bool, chunk: seq<Event>)
    requires NextAccount(m.store.accounts, Effective(m.store.settings).strategy, m.cursor, m.now).picked.Some?
    ensures |chunk| >= 1 && IsKind(chunk[0], Picks) && CountOf(chunk, Picks) == 1
    ensures var next := NextAccount(m.store.accounts, Effective(m.store.settings).strategy, m.cursor, m.now);
      chunk[0] == Login(next.picked.value.id, env.login(m.logins)) && (ok <==> env.login(m.logins).Ok?)
    ensures Ran(m, env, chunk, m')
    ensures CountOf(chunk, Calls) == 0 && CountOf(chunk, Failures) == 0
    ensures m'.logins == m.logins + 1 && CountOf(chunk, Logins) == 1
    ensures ok ==> |chunk| == 2 && IsLoginOk(chunk[0]) && m'.current == Some(chunk[0].account)
    ensures !ok ==> m'.current == m.current && forall k :: 0 <= k < |chunk| ==> !IsLoginOk(chunk[k])
  {
    var cfg := Effective(m.store.settings);
    var next := NextAccount(m.store.accounts, cfg.strategy, m.cursor, m.now);
    var moved := SetAccounts(m, next.accounts).(cursor := next.cursor);
    var id := next.picked.value.id;
    m', ok, chunk := LoginWith(moved, env, id);
    LoginEventsFacts(id, env.login(m.logins), cfg.requestDelaySeconds);
    PickedLoginRan(env, m, moved, id, m', chunk);
  }

  /** A picked login is a run: the replay, and the bookkeeping of the
      login's events. */
  lemma PickedLoginRan(env: Env, m: Manager, moved: Manager, id: string, m': Manager, chunk: seq<Event>)
    requires var next := NextAccount(m.store.accounts, Effective(m.store.settings).strategy, m.cursor, m.now);
      && next.picked.Some? && id == next.picked.value.id
      && moved == SetAccounts(m, next.accounts).(cursor := next.cursor)
    requires chunk == LoginEvents(id, env.login(moved.logins), Effective(moved.store.settings).requestDelaySeconds)
    requires m'.store.accounts == RecordLogin(moved.store.accounts, id, env.login(moved.logins), Effective(moved.store.settings), moved.now)
    requires m'.store.settings == moved.store.settings && m'.cursor == moved.cursor
    requires m'.calls == moved.calls && m'.logins == moved.logins + 1
    requires m'.now == if env.login(moved.logins).Ok? then moved.now else moved.now + Effective(moved.store.settings).requestDelaySeconds
    requires m'.current == if env.login(moved.logins).Ok? then Some(id) else moved.current
    ensures Ran(m, env, chunk, m')
  {
    var cfg := Effective(m.store.settings);
    var next := NextAccount(m.store.accounts, cfg.strategy, m.cursor, m.now);
    LoginEventsFacts(id, env.login(m.logins), cfg.requestDelaySeconds);
    assert StatusChangesAreBlocks(m.store.accounts, next.accounts, []);
    StatusChangesCompose(m.store.accounts, next.accounts, m'.store.accounts, [], chunk);
    assert [] + chunk == chunk;
    assert m'.store == moved.store.(accounts := m'.store.accounts);
    ReplayPickedLogin(env, m, moved, id, m', chunk);
    if env.login(m.logins).Ok? {
      assert m'.now == m.now + cfg.requestDelaySeconds * 0;
    } else {
      assert m'.now == m.now + cfg.requestDelaySeconds * 1;
    }
  }

  /** The replay of a picked login: the pick and the login, then the rest
      of the attempt's events. */
  lemma ReplayPickedLogin(env: Env, m: Manager, moved: Manager, id: string, m': Manager, chunk: seq<Event>)
    requires var next := NextAccount(m.store.accounts, Effective(m.store.settings).strategy, m.cursor, m.now);
      && next.picked.Some? && id == next.picked.value.id
      && moved == SetAccounts(m, next.accounts).(cursor := next.cursor)
    requires chunk == LoginEvents(id, env.login(m.logins), Effective(m.store.settings).requestDelaySeconds)
    requires m' == SetAccounts(moved, RecordLogin(moved.store.accounts, id, env.login(m.logins), Effective(m.store.settings), m.now)).(
      logins := m.logins + 1,
      now := if env.login(m.logins).Ok? then m.now else m.now + Effective(m.store.settings).requestDelaySeconds,
      current := if env.login(m.logins).Ok? then Some(id) else m.current)
    ensures Replay(env, m, chunk) == Some(m')
  {
    var cfg := Effective(m.store.settings);
    var outcome := env.login(m.logins);
    var logged := moved.(logins := m.logins + 1, current := if outcome.Ok? then Some(id) else m.current);
    StepPickedLogin(env, m, moved, id, logged);
    assert Effective(logged.store.settings) == cfg && logged.now == m.now;
    ReplayLoginTail(env, logged, id, outcome, cfg, chunk[1..], m');
    LoginEventsOpen(id, outcome, cfg.requestDelaySeconds);
    ReplayOne(env, m, Login(id, outcome), chunk[1..]);
  }

  /** A login attempt's events open with the login. */
  lemma LoginEventsOpen(id: string, outcome: Outcome, delay: nat)
    ensures var c := LoginEvents(id, outcome, delay);
      |c| >= 1 && c == [Login(id, outcome)] + c[1..]
  {
    var c := LoginEvents(id, outcome, delay);
    assert c[0] == Login(id, outcome);
  }

  /** The step of a picked login: the list and the cursor that
      `get_next_account` leaves, one more login, and the session on success. */
  lemma StepPickedLogin(env: Env, m: Manager, moved: Manager, id: string, logged: Manager)
    requires var next := NextAccount(m.store.accounts, Effective(m.store.settings).strategy, m.cursor, m.now);
      && next.picked.Some? && id == next.picked.value.id
      && moved == SetAccounts(m, next.accounts).(cursor := next.cursor)
    requires logged == moved.(logins := m.logins + 1, current := if env.login(m.logins).Ok? then Some(id) else m.current)
    ensures Step(env, m, Login(id, env.login(m.logins))) == Some(logged)
  {
  }

  /** Every sleep in `t` lasts `delay` seconds. */
  ghost predicate SleepsLast(t: seq<Event>, delay: nat)
  {
    forall k :: 0 <= k < |t| && t[k].Sleep? ==> t[k].seconds == delay
  }

  ghost predicate NoLoginOk(t: seq<Event>)
  {
    forall k :: 0 <= k < |t| ==> !IsLoginOk(t[k])
  }

  /** What appending a well-formed chunk to a well-formed trace keeps. */
  lemma Extend(t: seq<Event>, chunk: seq<Event>, delay: nat, now: int)
    requires WellFormed(t) && WellFormed(chunk)
    requires SleepsLast(t, delay) && SleepsLast(chunk, delay)
    ensures WellFormed(t + chunk) && SleepsLast(t + chunk, delay)
    ensures forall kind :: CountOf(t + chunk, kind) == CountOf(t, kind) + CountOf(chunk, kind)
    ensures now + delay * CountOf(t, Sleeps) + delay * CountOf(chunk, Sleeps) == now + delay * CountOf(t + chunk, Sleeps)
    ensures NoLoginOk(t) && NoLoginOk(chunk) ==> NoLoginOk(t + chunk)
    ensures |chunk| >= 2 ==> (t + chunk)[|t + chunk| - 2] == chunk[|chunk| - 2]
    ensures NoLoginOk(t) && (forall k :: 0 <= k < |chunk| - 2 ==> !IsLoginOk(chunk[k])) ==>
      forall k :: 0 <= k < |t + chunk| - 2 ==> !IsLoginOk((t + chunk)[k])
    ensures forall k :: 0 <= k < |t| ==> (t + chunk)[k] == t[k]
    ensures forall k :: 0 <= k < |chunk| ==> (t + chunk)[|t| + k] == chunk[k]
  {
    WellFormedAppend(t, chunk);
    CountOfAll(t, chunk);
    var u := t + chunk;
    assert forall k :: 0 <= k < |t| ==> u[k] == t[k];
    assert forall k :: 0 <= k < |chunk| ==> u[|t| + k] == chunk[k];
    assert delay * CountOf(t, Sleeps) + delay * CountOf(chunk, Sleeps) == delay * (CountOf(t, Sleeps) + CountOf(chunk, Sleeps));
  }

  /** What the login loop keeps of the trace `t` it has produced from `m0`
      so far, now in state `m`: the trace replays to `m`, and its logins,
      sleeps and status changes are the ones `m` shows. */
  ghost predicate LoginsSoFar(m0: Manager, env: Env, t: seq<Event>, m: Manager)
  {
    && Ran(m0, env, t, m)
    && CountOf(t, Calls) == 0 && CountOf(t, Failures) == 0
    && (|t| >= 1 ==> IsKind(t[0], Picks))
  }

  /** One pass of the login loop, appended to the trace so far. */
  method LoginRound(m0: Manager, env: Env, t: seq<Event>, m: Manager) returns (m': Manager, picked: bool, ok: bool, chunk: seq<Event>)
    requires LoginsSoFar(m0, env, t, m)
    ensures LoginsSoFar(m0, env, t + chunk, m')
    ensures |chunk| >= 1
    ensures CountOf(t + chunk, Logins) == CountOf(t, Logins) + if picked then 1 else 0
    ensures ok ==> picked && |chunk| == 2 && IsLoginOk(chunk[0]) && m'.current == Some(chunk[0].account)
    ensures !ok ==> m'.current == m.current && NoLoginOk(chunk)
    ensures !picked ==> chunk == [NoAccount]
    ensures !picked ==> forall i :: 0 <= i < |m'.store.accounts| ==> !Eligible(m'.store.accounts[i], m'.now)
  {
    m', picked, ok, chunk := LoginOnce(m, env);
    RanThen(m0, env, t, m, chunk, m');
    OpensWithAppend(t, chunk, Picks);
  }

  /** Where the successful login sits in a trace extended by a login pass:
      second from the end, and nowhere else. */
  lemma LoginTraceEnd(t: seq<Event>, chunk: seq<Event>, ok: bool)
    requires NoLoginOk(t) && |chunk| >= 1
    requires ok ==> |chunk| == 2 && IsLoginOk(chunk[0])
    requires !ok ==> NoLoginOk(chunk)
    ensures (t + chunk)[|t + chunk| - 1] == chunk[|chunk| - 1]
    ensures ok ==> |t + chunk| >= 2 && (t + chunk)[|t + chunk| - 2] == chunk[0]
    ensures forall k :: 0 <= k < |t + chunk| - 2 ==> !IsLoginOk((t + chunk)[k])
    ensures !ok ==> NoLoginOk(t + chunk)
  {
    var u := t + chunk;
    assert forall k :: 0 <= k < |t| ==> u[k] == t[k];
    assert forall k :: 0 <= k < |chunk| ==> u[|t| + k] == chunk[k];
  }

  /** `initialize_api(max_retries)`: up to `maxRetries` times, pick the next
      account, try to log in with it; on success record the session and one
      request and stop; on failure record a challenge when the error text
      names a login keyword, then sleep `request_delay_seconds` either way.
      Gives up at once when no account is eligible. */
  method InitializeApi(m: Manager, env: Env, maxRetries: int) returns (m': Manager, ok: bool, t: seq<Event>)
    ensures LoginsSoFar(m, env, t, m')
    ensures CountOf(t, Logins) <= Max0(maxRetries)
    ensures maxRetries > 0 ==> |t| >= 1
    ensures ok <==> |t| >= 2 && IsLoginOk(t[|t| - 2])
    ensures forall k :: 0 <= k < |t| - 2 ==> !IsLoginOk(t[k])
    ensures ok ==> m'.current == Some(t[|t| - 2].account)
    ensures !ok ==> m'.current == m.current && NoLoginOk(t)
    ensures !ok ==>
      || CountOf(t, Logins) == Max0(maxRetries)
      || (|t| >= 1 && t[|t| - 1] == NoAccount && forall i :: 0 <= i < |m'.store.accounts| ==> !Eligible(m'.store.accounts[i], m'.now))
  {
    m' := m;
    t := [];
    ok := false;
    var retry := 0;
    while retry < maxRetries
      invariant LoginsSoFar(m, env, t, m') && NoLoginOk(t)
      invariant retry == CountOf(t, Logins) <= Max0(maxRetries)
      invariant retry == 0 ==> t == []
      invariant m'.current == m.current
      invariant !ok
    {
      var picked, chunk;
      m', picked, ok, chunk := LoginRound(m, env, t, m');
      LoginTraceEnd(t, chunk, ok);
      t := t + chunk;
      if !picked || ok {
        return;
      }
      retry := retry + 1;
    }
  }

  /** A trace that opens with an event of some kind still does after more
      events are appended; an empty one opens the way its extension does. */
  lemma OpensWithAppend(t: seq<Event>, chunk: seq<Event>, kind: Kind)
    requires |chunk| >= 1 && IsKind(chunk[0], kind)
    requires |t| >= 1 ==> IsKind(t[0], kind)
    ensures |t + chunk| >= 1 && IsKind((t + chunk)[0], kind)
  {
    if |t| == 0 {
      assert t + chunk == chunk;
    } else {
      assert (t + chunk)[0] == t[0];
    }
  }

  /** The login at position k was counted twice before the operation ran:
      once by the login itself and once more by the retry loop, both
      directly before the call made with that account's session. */
  ghost predicate CountedTwice(t: seq<Event>, k: int)
    requires 0 <= k < |t|
  {
    && t[k].Login?
    && k + 3 < |t|
    && t[k + 1] == Request(t[k].account)
    && t[k + 2] == Request(t[k].account)
    && t[k + 3].Call? && t[k + 3].account == t[k].account
  }

  ghost predicate EveryLoginCountedTwice(t: seq<Event>)
  {
    forall k :: 0 <= k < |t| && IsLoginOk(t[k]) ==> CountedTwice(t, k)
  }

  /** The events of one operation call, by outcome: the request recorded
      before it, the call, and for a failure the except-branch entry followed
      by the challenge or by the sleep. */
  function CallEvents(id: string, outcome: Outcome, attempt: nat, delay: nat): seq<Event>
  {
    match outcome
    case Ok => [Request(id), Call(id, Ok)]
    case Err(msg) =>
      if IsExecutionChallenge(msg) then [Request(id), Call(id, outcome), Failed(attempt, msg), Challenge(id)]
      else [Request(id), Call(id, outcome), Failed(attempt, msg), Sleep(delay)]
  }

  /** Every call chunk opens with the request and the call. */
  lemma CallEventsHead(id: string, outcome: Outcome, attempt: nat, delay: nat)
    ensures var c := CallEvents(id, outcome, attempt, delay);
      |c| >= 2 && c[0] == Request(id) && c[1] == Call(id, outcome)
  {
  }

  lemma CallEventsFacts(id: string, outcome: Outcome, attempt: nat, delay: nat)
    ensures var c := CallEvents(id, outcome, attempt, delay);
      && WellFormed(c) && SleepsLast(c, delay) && NoLoginOk(c)
      && |c| >= 2 && c[0] == Request(id) && c[1] == Call(id, outcome)
      && (outcome.Ok? ==> |c| == 2)
      && (forall k :: 0 <= k < |c| && c[k].Call? ==> k == 1)
      && CountOf(c, Calls) == 1 && CountOf(c, Logins) == 0 && CountOf(c, Picks) == 0
      && CountOf(c, Failures) == Bit(outcome.Err?)
      && CountOf(c, Sleeps) == Bit(outcome.Err? && !IsExecutionChallenge(outcome.message))
      && (outcome.Err? && IsExecutionChallenge(outcome.message) ==> Challenge(id) in c)
  {
    var c := CallEvents(id, outcome, attempt, delay);
    if outcome.Ok? {
      CountOfShort(c[0], c[1], c[1], c[1]);
      assert c == [c[0], c[1]];
      assert StepOk(c, 1);
    } else {
      CountOfShort(c[0], c[1], c[2], c[3]);
      assert c == [c[0], c[1], c[2], c[3]];
      assert StepOk(c, 1) && StepOk(c, 2) && StepOk(c, 3);
    }
  }

  /** The events when the session could not be established: the failure
      entry with the fixed message, and the sleep of an ordinary error. */
  function InitFailureEvents(attempt: nat, delay: nat): seq<Event>
  {
    [Failed(attempt, InitFailureMessage), Sleep(delay)]
  }

  lemma InitFailureEventsFacts(attempt: nat, delay: nat)
    ensures var c := InitFailureEvents(attempt, delay);
      && WellFormed(c) && SleepsLast(c, delay) && NoLoginOk(c)
      && CountOf(c, Calls) == 0 && CountOf(c, Logins) == 0
      && CountOf(c, Failures) == 1 && CountOf(c, Sleeps) == 1
  {
    var c := InitFailureEvents(attempt, delay);
    InitFailureEventsWellFormed(c, attempt, delay);
    CountOfShort(c[0], c[1], c[1], c[1]);
  }

  /** The failure entry of a failed initialisation is followed by a sleep,
      as an ordinary error's is. */
  lemma InitFailureEventsWellFormed(c: seq<Event>, attempt: nat, delay: nat)
    requires c == InitFailureEvents(attempt, delay)
    ensures WellFormed(c)
  {
    InitFailureIsNotAChallenge();
    OrdinaryFailureThenSleep(InitFailureMessage, attempt, delay);
  }

  /** A failure with an ordinary error followed by a sleep is a well-formed
      trace. */
  lemma OrdinaryFailureThenSleep(message: string, attempt: nat, delay: nat)
    requires !IsExecutionChallenge(message)
    ensures WellFormed([Failed(attempt, message), Sleep(delay)])
  {
    var t := [Failed(attempt, message), Sleep(delay)];
    assert StepOk(t, 0) && StepOk(t, 1);
  }

  /** What one operation call writes into the account list: the request
      recorded before the call, then a challenge when the call failed with
      an error that names an execution keyword. */
  function RecordCall(accs: seq<Account>, id: string, outcome: Outcome, attempt: nat, cfg: Config, now: int): (r: seq<Account>)
    ensures SameRoster(accs, r)
    ensures StatusChangesAreBlocks(accs, r, CallEvents(id, outcome, attempt, cfg.requestDelaySeconds))
    ensures forall i :: FirstWithId(accs, id, i) ==>
      r[i] == if outcome.Err? && IsExecutionChallenge(outcome.message)
        then Challenged(Requested(accs[i], now), cfg.maxChallengeRetries, cfg.cooldownMinutes, now)
        else Requested(accs[i], now)
    ensures forall j :: 0 <= j < |accs| && !FirstWithId(accs, id, j) ==> r[j] == accs[j]
  {
    var counted := MarkRequest(accs, id, now);
    MarkRequestKeepsStatus(accs, id, now);
    match outcome
    case Ok => counted
    case Err(msg) =>
      if IsExecutionChallenge(msg) then
        MarkChallengeOnlyBlocks(counted, id, cfg.maxChallengeRetries, cfg.cooldownMinutes, now);
        assert CallEvents(id, outcome, attempt, cfg.requestDelaySeconds)[3] == Challenge(id);
        MarkChallenge(counted, id, cfg.maxChallengeRetries, cfg.cooldownMinutes, now)
      else counted
  }

  /** A successful login and the first call with the new session each
      record a request on the same account: two requests in one pass, and
      nothing else on the list changes. */
  lemma LoginThenCallCountsTwice(accs: seq<Account>, id: string, i: int, cfg: Config, loginAt: int, callAt: int,
                                 outcome: Outcome, attempt: nat)
    requires FirstWithId(accs, id, i)
    ensures var after := RecordCall(RecordLogin(accs, id, Ok, cfg, loginAt), id, outcome, attempt, cfg, callAt);
      && after[i].requestsCount == (if accs[i].requestsResetTime.None? then 2 else accs[i].requestsCount + 2)
      && after[i].requestsResetTime == Some(accs[i].requestsResetTime.GetOr(loginAt + SecondsPerHour))
      && after[i].lastUsed == Some(callAt)
      && forall j :: 0 <= j < |accs| && j != i ==> after[j] == accs[j]
  {
    var logged := RecordLogin(accs, id, Ok, cfg, loginAt);
    var once := Requested(accs[i], loginAt);
    assert logged[i] == once;
    assert FirstWithId(logged, id, i);
    var after := RecordCall(logged, id, outcome, attempt, cfg, callAt);
    var twice := Requested(once, callAt);
    if outcome.Err? && IsExecutionChallenge(outcome.message) {
      assert after[i] == Challenged(twice, cfg.maxChallengeRetries, cfg.cooldownMinutes, callAt);
    } else {
      assert after[i] == twice;
    }
    forall j | 0 <= j < |accs| && j != i
      ensures after[j] == accs[j]
    {
      if FirstWithId(accs, id, j) {
        FirstWithIdUnique(accs, id, i, j);
      }
      if FirstWithId(logged, id, j) {
        FirstWithIdUnique(logged, id, i, j);
      }
    }
  }

  /** What follows a call in its events replays to the failure's effect: a
      challenge mark for a challenge, the sleep for any other error. */
  lemma ReplayCallTail(env: Env, s: Manager, id: string, outcome: Outcome, attempt: nat, cfg: Config,
                       tail: seq<Event>, after: Manager)
    requires cfg == Effective(s.store.settings)
    requires tail == CallEvents(id, outcome, attempt, cfg.requestDelaySeconds)[2..]
    requires after == match outcome
      case Ok => s
      case Err(msg) =>
        if IsExecutionChallenge(msg)
        then SetAccounts(s, MarkChallenge(s.store.accounts, id, cfg.maxChallengeRetries, cfg.cooldownMinutes, s.now))
        else s.(now := s.now + cfg.requestDelaySeconds)
    ensures Replay(env, s, tail) == Some(after)
  {
    match outcome
    case Ok =>
    case Err(msg) =>
      assert tail == [tail[0]] + [tail[1]];
      ReplayOne(env, s, tail[0], [tail[1]]);
      ReplayOne(env, s, tail[1], []);
  }

  /** The request and the call that open a call's events replay to the
      counted request and one more call made. */
  lemma ReplayCallHead(env: Env, m: Manager, id: string, attempt: nat, delay: nat, counted: Manager)
    requires m.current == Some(id)
    requires counted == SetAccounts(m, MarkRequest(m.store.accounts, id, m.now)).(calls := m.calls + 1)
    ensures var c := CallEvents(id, env.operation(m.calls), attempt, delay);
      Replay(env, m, c) == Replay(env, counted, c[2..])
  {
    var outcome := env.operation(m.calls);
    var c := CallEvents(id, outcome, attempt, delay);
    CallEventsHead(id, outcome, attempt, delay);
    var s1 := SetAccounts(m, MarkRequest(m.store.accounts, id, m.now));
    assert Step(env, m, Request(id)) == Some(s1);
    assert Step(env, s1, Call(id, outcome)) == Some(counted);
    assert c == [Request(id)] + ([Call(id, outcome)] + c[2..]);
    ReplayOne(env, s1, Call(id, outcome), c[2..]);
    ReplayOne(env, m, Request(id), [Call(id, outcome)] + c[2..]);
  }

  /** The n-th operation call, if it fails, fails with an ordinary error. */
  ghost predicate TransientAt(env: Env, n: nat)
  {
    env.operation(n).Err? ==> !IsExecutionChallenge(env.operation(n).message)
  }

  /** One call of the operation with the current session: record a
      request, call, and on an error count the attempt, then record a
      challenge or sleep. */
  method CallOnce(m: Manager, env: Env, attempt: nat) returns (m': Manager, chunk: seq<Event>)
    requires m.current.Some?
    ensures chunk == CallEvents(m.current.value, env.operation(m.calls), attempt, Effective(m.store.settings).requestDelaySeconds)
    ensures m'.store.accounts == RecordCall(m.store.accounts, m.current.value, env.operation(m.calls), attempt, Effective(m.store.settings), m.now)
    ensures Ran(m, env, chunk, m')
    ensures m'.calls == m.calls + 1 && m'.logins == m.logins && m'.current == m.current
  {
    var cfg := Effective(m.store.settings);
    var delay := cfg.requestDelaySeconds;
    var id := m.current.value;
    var outcome := env.operation(m.calls);
    chunk := CallEvents(id, outcome, attempt, delay);
    CallEventsFacts(id, outcome, attempt, delay);
    var accs := RecordCall(m.store.accounts, id, outcome, attempt, cfg, m.now);
    var transient := outcome.Err? && !IsExecutionChallenge(outcome.message);
    m' := SetAccounts(m, accs).(calls := m.calls + 1, now := if transient then m.now + delay else m.now);
    var counted := SetAccounts(m, MarkRequest(m.store.accounts, id, m.now)).(calls := m.calls + 1);
    ReplayCallHead(env, m, id, attempt, delay, counted);
    ReplayCallTail(env, counted, id, outcome, attempt, cfg, chunk[2..], m');
  }

  /** Position k of `t` holds the failure entry of a challenge-like error,
      and what follows it is a rotation that found no session: at least one
      pick, no successful login, no call and no further failure; either all
      three logins were tried or the trace ends with a pick that found no
      eligible account. */
  ghost predicate FailedRotationAt(t: seq<Event>, k: int)
  {
    && 0 <= k < |t|
    && t[k].Failed? && IsExecutionChallenge(t[k].message)
    && CountOf(t[k + 1..], Picks) >= 1 && NoLoginOk(t[k + 1..])
    && CountOf(t[k + 1..], Calls) == 0 && CountOf(t[k + 1..], Failures) == 0
    && (CountOf(t[k + 1..], Logins) == LoginAttempts || t[|t| - 1] == NoAccount)
  }

  /** The trace ends with a rotation that failed. */
  ghost predicate EndsWithFailedRotation(t: seq<Event>)
  {
    exists k :: FailedRotationAt(t, k)
  }

  lemma FailedRotationShifts(a: seq<Event>, b: seq<Event>, k: int)
    requires FailedRotationAt(b, k)
    ensures FailedRotationAt(a + b, |a| + k)
  {
    assert (a + b)[|a| + k + 1..] == b[k + 1..];
    assert (a + b)[|a + b| - 1] == b[|b| - 1];
  }

  /** The pass calls `rotate_account()`: its call failed with an error that
      names an execution keyword, and attempts remain. */
  predicate Rotates(outcome: Outcome, attempt: nat, maxRetries: int)
  {
    outcome.Err? && IsExecutionChallenge(outcome.message) && attempt < maxRetries
  }

  /** Where a rotation sits after its call: the call's failure entry, at
      position 2 and numbered `attempt`, is the only one; the rotation's
      first pick follows the challenge; and when the loop goes on, the
      second-to-last event is the login that succeeded. */
  ghost predicate RotationShape(chunk: seq<Event>, attempt: nat, stop: bool)
  {
    && |chunk| >= 5
    && chunk[2].Failed? && chunk[2].attempt == attempt && IsExecutionChallenge(chunk[2].message)
    && IsKind(chunk[4], Picks)
    && (forall k :: 0 <= k < |chunk| && chunk[k].Failed? ==> k == 2)
    && (!stop ==> |chunk| >= 6 && IsLoginOk(chunk[|chunk| - 2]))
  }

  /** A call failing with a challenge-like error, followed by a rotation
      that logs no failure, has the shape `RotationShape` describes. */
  lemma RotationShapeFacts(id: string, outcome: Outcome, attempt: nat, delay: nat, rotation: seq<Event>, ok: bool)
    requires outcome.Err? && IsExecutionChallenge(outcome.message)
    requires |rotation| >= 1 && IsKind(rotation[0], Picks)
    requires CountOf(rotation, Failures) == 0
    requires ok ==> |rotation| >= 2 && IsLoginOk(rotation[|rotation| - 2])
    ensures RotationShape(CallEvents(id, outcome, attempt, delay) + rotation, attempt, !ok)
  {
    var calls := CallEvents(id, outcome, attempt, delay);
    var chunk := calls + rotation;
    assert |calls| == 4 && calls[2] == Failed(attempt, outcome.message);
    assert chunk[2] == calls[2] && chunk[4] == rotation[0];
    forall k | 0 <= k < |chunk| && chunk[k].Failed?
      ensures k == 2
    {
      if k >= 4 {
        assert chunk[k] == rotation[k - 4];
        CountOfPositive(rotation, k - 4, Failures);
      }
    }
    if ok {
      assert chunk[|chunk| - 2] == rotation[|rotation| - 2];
    }
  }

  /** Where calls and successful logins can sit once a rotation's login
      events follow the events of a call, and whose session `session` is. */
  lemma RotationAppended(calls: seq<Event>, rotation: seq<Event>, session: Option<string>)
    requires |calls| >= 2 && NoLoginOk(calls)
    requires forall k :: 1 < k < |calls| ==> !calls[k].Call?
    requires WellFormed(rotation) && CountOf(rotation, Calls) == 0
    requires forall k :: 0 <= k < |rotation| - 2 ==> !IsLoginOk(rotation[k])
    requires |rotation| >= 2 && IsLoginOk(rotation[|rotation| - 2]) ==> session == Some(rotation[|rotation| - 2].account)
    ensures forall k :: 1 < k < |calls + rotation| ==> !(calls + rotation)[k].Call?
    ensures forall k :: 0 <= k < |calls + rotation| && IsLoginOk((calls + rotation)[k]) ==>
      k == |calls + rotation| - 2 && session == Some((calls + rotation)[k].account)
  {
    var u := calls + rotation;
    forall k | 1 < k < |u|
      ensures !u[k].Call?
    {
      if k >= |calls| && u[k].Call? {
        assert rotation[k - |calls|] == u[k];
        CountOfPositive(rotation, k - |calls|, Calls);
      }
    }
    forall k | 0 <= k < |u| && IsLoginOk(u[k])
      ensures k == |u| - 2 && session == Some(u[k].account)
    {
      if k >= |calls| {
        assert u[k] == rotation[k - |calls|];
        assert StepOk(rotation, k - |calls|);
      }
    }
  }

  /** `rotate_account()`: a fresh `initialize_api()` with its default of
      three logins. It opens with a pick, makes no call, and found a session
      exactly when its second-to-last event is a successful login, whose
      account is then the session. */
  method RotateAccount(m: Manager, env: Env) returns (m': Manager, ok: bool, t: seq<Event>)
    ensures Ran(m, env, t, m') && CountOf(t, Calls) == 0 && CountOf(t, Failures) == 0
    ensures CountOf(t, Logins) <= LoginAttempts
    ensures |t| >= 1 && IsKind(t[0], Picks)
    ensures ok <==> |t| >= 2 && IsLoginOk(t[|t| - 2])
    ensures forall k :: 0 <= k < |t| - 2 ==> !IsLoginOk(t[k])
    ensures ok ==> m'.current == Some(t[|t| - 2].account)
    ensures !ok ==> m'.current == m.current && NoLoginOk(t)
    ensures !ok ==>
      || CountOf(t, Logins) == LoginAttempts
      || (t[|t| - 1] == NoAccount && forall i :: 0 <= i < |m'.store.accounts| ==> !Eligible(m'.store.accounts[i], m'.now))
  {
    m', ok, t := InitializeApi(m, env, LoginAttempts);
  }

  /** A call that fails with a challenge-like error, followed by the
      rotation to a fresh session (`initialize_api(3)`); `stop` is the
      `break` taken when that rotation finds no session. */
  method CallAndRotate(m: Manager, env: Env, attempt: nat) returns (m': Manager, stop: bool, chunk: seq<Event>)
    requires m.current.Some?
    requires env.operation(m.calls).Err? && IsExecutionChallenge(env.operation(m.calls).message)
    ensures Ran(m, env, chunk, m')
    ensures CountOf(chunk, Calls) == 1 && CountOf(chunk, Failures) == 1 && CountOf(chunk, Picks) >= 1
    ensures CountOf(chunk, Logins) <= LoginAttempts
    ensures m'.current.Some? && (stop ==> m'.current == m.current)
    ensures |chunk| >= 4
      && chunk[..4] == CallEvents(m.current.value, env.operation(m.calls), attempt, Effective(m.store.settings).requestDelaySeconds)
    ensures forall k :: 1 < k < |chunk| ==> !chunk[k].Call?
    ensures stop <==> NoLoginOk(chunk)
    ensures stop ==> FailedRotationAt(chunk, 2)
    ensures RotationShape(chunk, attempt, stop)
    ensures forall k :: 0 <= k < |chunk| && IsLoginOk(chunk[k]) ==> k == |chunk| - 2 && m'.current == Some(chunk[k].account)
  {
    var id, outcome, delay := m.current.value, env.operation(m.calls), Effective(m.store.settings).requestDelaySeconds;
    var called, calls := CallOnce(m, env, attempt);
    var ok, rotation;
    m', ok, rotation := RotateAccount(called, env);
    RanThen(m, env, calls, called, rotation, m');
    chunk := calls + rotation;
    stop := !ok;
    CallThenRotation(id, outcome, attempt, delay, rotation, ok, m'.current);
  }

  /** The events of a call that failed with a challenge-like error followed
      by those of the rotation that left the session `session`. */
  lemma CallThenRotation(id: string, outcome: Outcome, attempt: nat, delay: nat, rotation: seq<Event>, ok: bool, session: Option<string>)
    requires outcome.Err? && IsExecutionChallenge(outcome.message)
    requires WellFormed(rotation) && CountOf(rotation, Calls) == 0 && CountOf(rotation, Failures) == 0
    requires |rotation| >= 1 && IsKind(rotation[0], Picks)
    requires ok <==> |rotation| >= 2 && IsLoginOk(rotation[|rotation| - 2])
    requires forall k :: 0 <= k < |rotation| - 2 ==> !IsLoginOk(rotation[k])
    requires ok ==> session == Some(rotation[|rotation| - 2].account)
    requires !ok ==> NoLoginOk(rotation)
    requires !ok ==> CountOf(rotation, Logins) == LoginAttempts || rotation[|rotation| - 1] == NoAccount
    requires CountOf(rotation, Logins) <= LoginAttempts
    ensures var calls := CallEvents(id, outcome, attempt, delay);
      var chunk := calls + rotation;
      && CountOf(chunk, Calls) == 1 && CountOf(chunk, Failures) == 1 && CountOf(chunk, Picks) >= 1
      && CountOf(chunk, Logins) <= LoginAttempts
      && |chunk| >= 4 && chunk[..4] == calls
      && (forall k :: 1 < k < |chunk| ==> !chunk[k].Call?)
      && (!ok <==> NoLoginOk(chunk))
      && (!ok ==> FailedRotationAt(chunk, 2))
      && RotationShape(chunk, attempt, !ok)
      && (forall k :: 0 <= k < |chunk| && IsLoginOk(chunk[k]) ==> k == |chunk| - 2 && session == Some(chunk[k].account))
  {
    var calls := CallEvents(id, outcome, attempt, delay);
    CallEventsFacts(id, outcome, attempt, delay);
    CountOfAll(calls, rotation);
    RotationAppended(calls, rotation, session);
    RotationFacts(id, outcome, attempt, delay, rotation, ok);
    RotationShapeFacts(id, outcome, attempt, delay, rotation, ok);
  }

  /** The trace facts of a call followed by a rotation: the call's events
      come first, the rotation picks, and it found no session exactly when
      the whole holds no successful login. */
  lemma RotationFacts(id: string, outcome: Outcome, attempt: nat, delay: nat, rotation: seq<Event>, ok: bool)
    requires outcome.Err? && IsExecutionChallenge(outcome.message)
    requires |rotation| >= 1 && IsKind(rotation[0], Picks)
    requires CountOf(rotation, Calls) == 0 && CountOf(rotation, Failures) == 0
    requires ok <==> |rotation| >= 2 && IsLoginOk(rotation[|rotation| - 2])
    requires !ok ==> NoLoginOk(rotation)
    requires !ok ==> CountOf(rotation, Logins) == LoginAttempts || rotation[|rotation| - 1] == NoAccount
    ensures var calls := CallEvents(id, outcome, attempt, delay);
      var chunk := calls + rotation;
      && |chunk| >= 4 && chunk[..4] == calls
      && CountOf(chunk, Picks) >= 1
      && (!ok <==> NoLoginOk(chunk))
      && (!ok ==> FailedRotationAt(chunk, 2))
  {
    var calls := CallEvents(id, outcome, attempt, delay);
    var chunk := calls + rotation;
    CallEventsFacts(id, outcome, attempt, delay);
    assert |calls| == 4 && chunk[..4] == calls;
    CountOfPositive(rotation, 0, Picks);
    CountOfAppend(calls, rotation, Picks);
    if ok {
      assert chunk[|calls| + |rotation| - 2] == rotation[|rotation| - 2];
    } else {
      assert calls[3..] == [Challenge(id)];
      assert chunk[3..] == calls[3..] + rotation;
      CountOfShort(Challenge(id), Challenge(id), Challenge(id), Challenge(id));
      CountOfAll([Challenge(id)], rotation);
      NoLoginOkAppend(calls, rotation);
      NoLoginOkAppend([Challenge(id)], rotation);
      assert chunk[2] == calls[2] && chunk[|chunk| - 1] == rotation[|rotation| - 1];
    }
  }

  /** Two traces without a successful login make one. */
  lemma NoLoginOkAppend(a: seq<Event>, b: seq<Event>)
    requires NoLoginOk(a) && NoLoginOk(b)
    ensures NoLoginOk(a + b)
  {
    forall k | 0 <= k < |a + b|
      ensures !IsLoginOk((a + b)[k])
    {
      if k >= |a| {
        assert (a + b)[k] == b[k - |a|];
      }
    }
  }

  /** Position i of `t` holds the failure entry of a challenge-like error
      made while attempts remained, so the code rotates after it. */
  ghost predicate RotatingFailure(t: seq<Event>, i: int, maxRetries: int)
  {
    0 <= i < |t| && t[i].Failed? && IsExecutionChallenge(t[i].message) && t[i].attempt < maxRetries
  }

  /** After every failure entry that the code rotates on, the rotation's
      first pick follows the challenge, and no call comes until a login has
      succeeded. */
  ghost predicate RotatesAfterChallenges(t: seq<Event>, maxRetries: int)
  {
    && (forall i :: RotatingFailure(t, i, maxRetries) ==> i + 2 < |t| && IsKind(t[i + 2], Picks))
    && (forall i, j :: RotatingFailure(t, i, maxRetries) && i < j < |t| && t[j].Call? ==>
          exists l :: i < l < j && IsLoginOk(t[l]))
  }

  /** Every rotation in `t` found a session. */
  ghost predicate RotationsFoundSession(t: seq<Event>, maxRetries: int)
  {
    forall i :: RotatingFailure(t, i, maxRetries) ==> exists l :: i < l < |t| && IsLoginOk(t[l])
  }

  /** How one pass numbered `attempt` rotates: its failure entries carry
      `attempt`, it rotates after a challenge-like error while attempts
      remain, and when the loop goes on the rotation found a session. */
  ghost predicate PassRotation(chunk: seq<Event>, attempt: nat, maxRetries: int, stop: bool)
  {
    && (forall k :: 0 <= k < |chunk| && chunk[k].Failed? ==> chunk[k].attempt == attempt)
    && RotatesAfterChallenges(chunk, maxRetries)
    && (!stop ==> RotationsFoundSession(chunk, maxRetries))
  }

  /** A call that fails with a challenge-like error while attempts remain,
      followed by its rotation, rotates as a pass must. */
  lemma RotationShapeRotates(chunk: seq<Event>, attempt: nat, maxRetries: int, stop: bool)
    requires RotationShape(chunk, attempt, stop) && attempt < maxRetries
    requires forall k :: 1 < k < |chunk| ==> !chunk[k].Call?
    ensures PassRotation(chunk, attempt, maxRetries, stop)
  {
    assert forall i :: RotatingFailure(chunk, i, maxRetries) ==> i == 2;
    if !stop {
      forall i | RotatingFailure(chunk, i, maxRetries)
        ensures exists l :: i < l < |chunk| && IsLoginOk(chunk[l])
      {
        assert i == 2 && IsLoginOk(chunk[|chunk| - 2]);
      }
    }
  }

  /** The events of a call after which the code does not rotate never show
      a rotating failure. */
  lemma CallEventsNoRotation(id: string, outcome: Outcome, attempt: nat, delay: nat, maxRetries: int)
    requires !Rotates(outcome, attempt, maxRetries)
    ensures PassRotation(CallEvents(id, outcome, attempt, delay), attempt, maxRetries, false)
  {
    var c := CallEvents(id, outcome, attempt, delay);
    forall i | 0 <= i < |c|
      ensures !RotatingFailure(c, i, maxRetries) && (c[i].Failed? ==> c[i].attempt == attempt)
    {
      if c[i].Failed? {
        assert i == 2 && c[i] == Failed(attempt, outcome.message);
      }
    }
  }

  /** The part of one pass of `execute_with_retry`'s loop that runs with a
      session: the call, and after a challenge, while attempts remain, the
      rotation to a fresh session. `stop` is the `break` taken when that
      rotation fails. */
  method Operate(m: Manager, env: Env, attempt: nat, maxRetries: int) returns (m': Manager, returned: bool, stop: bool, chunk: seq<Event>)
    requires m.current.Some?
    ensures Ran(m, env, chunk, m')
    ensures CountOf(chunk, Calls) == 1 && CountOf(chunk, Failures) == Bit(!returned)
    ensures returned <==> env.operation(m.calls).Ok?
    ensures returned ==> !stop && chunk == [Request(m.current.value), Call(m.current.value, Ok)]
    ensures |chunk| >= 2 && chunk[0] == Request(m.current.value) && chunk[1] == Call(m.current.value, env.operation(m.calls))
    ensures forall k :: 1 < k < |chunk| ==> !chunk[k].Call?
    ensures CountOf(chunk, Picks) >= 1 <==> Rotates(env.operation(m.calls), attempt, maxRetries)
    ensures stop <==> CountOf(chunk, Picks) >= 1 && NoLoginOk(chunk)
    ensures stop ==> FailedRotationAt(chunk, 2)
    ensures forall k :: 0 <= k < |chunk| && IsLoginOk(chunk[k]) ==>
      k == |chunk| - 2 && m'.current == Some(chunk[k].account) && !returned && !stop && attempt < maxRetries
    ensures TransientAt(env, m.calls) ==>
      !stop && m'.current == m.current && CountOf(chunk, Logins) == 0 && CountOf(chunk, Sleeps) == CountOf(chunk, Failures)
    ensures PassRotation(chunk, attempt, maxRetries, stop)
    ensures CountOf(chunk, Logins) <= LoginAttempts && (stop ==> attempt < maxRetries)
    ensures m'.current.Some? && (CountOf(chunk, Picks) == 0 ==> m'.current == m.current)
  {
    var delay := Effective(m.store.settings).requestDelaySeconds;
    var outcome := env.operation(m.calls);
    CallEventsFacts(m.current.value, outcome, attempt, delay);
    if Rotates(outcome, attempt, maxRetries) {
      m', stop, chunk := CallAndRotate(m, env, attempt);
      returned := false;
      RotationShapeRotates(chunk, attempt, maxRetries, stop);
    } else {
      m', chunk := CallOnce(m, env, attempt);
      returned, stop := outcome.Ok?, false;
      CallEventsNoRotation(m.current.value, outcome, attempt, delay, maxRetries);
    }
  }

  /** What one pass of the retry loop, numbered `attempt`, leaves behind:
      the state `m'` reached from `m`, whether the operation returned,
      whether the loop breaks, and the events of the pass. */
  ghost predicate PassResult(m: Manager, env: Env, attempt: nat, maxRetries: int, m': Manager, returned: bool, stop: bool, chunk: seq<Event>)
  {
    && Ran(m, env, chunk, m') && PassShape(m, env, attempt, maxRetries, m', returned, stop, chunk)
    && PassRotation(chunk, attempt, maxRetries, stop) && PassOpening(m, env, attempt, maxRetries, stop, chunk)
    && PassSession(m, attempt, maxRetries, m', stop, chunk)
  }

  /** The logins of an `initialize_api()` that found no session: it opened
      with a pick, made at most three logins and none succeeded, made no
      call and logged no failure, and it either used all three logins or
      its last pick found no eligible account. */
  ghost predicate FailedLoginLoop(init: seq<Event>)
  {
    && |init| >= 1 && IsKind(init[0], Picks) && NoLoginOk(init)
    && CountOf(init, Calls) == 0 && CountOf(init, Failures) == 0
    && CountOf(init, Logins) <= LoginAttempts
    && (CountOf(init, Logins) == LoginAttempts || init[|init| - 1] == NoAccount)
  }

  /** A pass whose `initialize_api()` failed: that login loop, then the
      failure entry with the fixed message and its sleep, and nothing else. */
  ghost predicate InitFailurePass(chunk: seq<Event>, attempt: nat, delay: nat)
  {
    |chunk| >= 2 && chunk[|chunk| - 2..] == InitFailureEvents(attempt, delay) && FailedLoginLoop(chunk[..|chunk| - 2])
  }

  /** At most three logins come before a pass's call, and at most three
      after it. */
  ghost predicate LoginsAroundCall(chunk: seq<Event>)
  {
    forall k :: 0 <= k < |chunk| && chunk[k].Call? ==>
      CountOf(chunk[..k], Logins) <= LoginAttempts && CountOf(chunk[k + 1..], Logins) <= LoginAttempts
  }

  /** What a pass does to the session, and how many logins it makes. A
      session, once there, stays. A pass that starts with one makes at most
      the three logins of one rotation, and keeps its session when it does
      not rotate. A pass without one either fails as `InitFailurePass`
      says, still without a session, or ends with one after its call. */
  ghost predicate PassSession(m: Manager, attempt: nat, maxRetries: int, m': Manager, stop: bool, chunk: seq<Event>)
  {
    && (m.current.Some? ==> m'.current.Some? && CountOf(chunk, Logins) <= LoginAttempts)
    && (m.current.Some? && CountOf(chunk, Picks) == 0 ==> m'.current == m.current)
    && (m.current.None? && CountOf(chunk, Calls) == 0 ==>
          m'.current.None? && InitFailurePass(chunk, attempt, Effective(m.store.settings).requestDelaySeconds))
    && (m.current.None? && CountOf(chunk, Calls) >= 1 ==> m'.current.Some?)
    && LoginsAroundCall(chunk)
    && (stop ==> attempt < maxRetries)
  }

  /** How a pass that starts with a session treats it, from what its
      operation part shows. */
  lemma SessionPassSession(m: Manager, attempt: nat, maxRetries: int, m': Manager, stop: bool, chunk: seq<Event>)
    requires m.current.Some? && m'.current.Some?
    requires CountOf(chunk, Picks) == 0 ==> m'.current == m.current
    requires |chunk| >= 2 && chunk[0].Request? && chunk[1].Call?
    requires forall k :: 1 < k < |chunk| ==> !chunk[k].Call?
    requires CountOf(chunk, Logins) <= LoginAttempts && (stop ==> attempt < maxRetries)
    ensures PassSession(m, attempt, maxRetries, m', stop, chunk)
  {
    SessionLogins(chunk);
  }

  /** The logins of an operation part: none before its call, and at most
      the three of one rotation after it. */
  lemma SessionLogins(op: seq<Event>)
    requires |op| >= 2 && op[0].Request? && op[1].Call?
    requires forall k :: 1 < k < |op| ==> !op[k].Call?
    requires CountOf(op, Logins) <= LoginAttempts
    ensures LoginsAroundCall(op)
    ensures CountOf(op[..1], Logins) == 0
  {
    assert op[..1][..0] == [];
    assert op == op[..2] + op[2..];
    CountOfAppend(op[..2], op[2..], Logins);
    forall k | 0 <= k < |op| && op[k].Call?
      ensures CountOf(op[..k], Logins) <= LoginAttempts && CountOf(op[k + 1..], Logins) <= LoginAttempts
    {
      assert k == 1;
    }
  }

  /** The logins of a pass made of some logins without a call followed by
      the operation part: those before the call, and those of the rotation
      after it. */
  lemma OperateLogins(init: seq<Event>, op: seq<Event>)
    requires CountOf(init, Calls) == 0 && CountOf(init, Logins) <= LoginAttempts
    requires |op| >= 2 && op[0].Request? && op[1].Call?
    requires forall k :: 1 < k < |op| ==> !op[k].Call?
    requires CountOf(op, Logins) <= LoginAttempts
    ensures LoginsAroundCall(init + op)
  {
    var u := init + op;
    SessionLogins(op);
    forall k | 0 <= k < |u| && u[k].Call?
      ensures CountOf(u[..k], Logins) <= LoginAttempts && CountOf(u[k + 1..], Logins) <= LoginAttempts
    {
      if k < |init| {
        assert u[k] == init[k];
        CountOfPositive(init, k, Calls);
      } else {
        assert u[k] == op[k - |init|];
        assert k == |init| + 1;
        LoginsAroundInitCall(init, op);
      }
    }
  }

  /** The logins around the call that follows `initialize_api()`. */
  lemma LoginsAroundInitCall(init: seq<Event>, op: seq<Event>)
    requires CountOf(init, Logins) <= LoginAttempts && |op| >= 2
    requires CountOf(op[..1], Logins) == 0 && CountOf(op[2..], Logins) <= LoginAttempts
    ensures var u := init + op;
      CountOf(u[..|init| + 1], Logins) <= LoginAttempts && CountOf(u[|init| + 2..], Logins) <= LoginAttempts
  {
    AppendSlices(init, op, 1);
    AppendSlices(init, op, 2);
    CountOfAppend(init, op[..1], Logins);
  }

  /** Cutting `a + b` inside `b`. */
  lemma AppendSlices<T>(a: seq<T>, b: seq<T>, j: nat)
    requires j <= |b|
    ensures (a + b)[..|a| + j] == a + b[..j] && (a + b)[|a| + j..] == b[j..]
  {
    assert (a + b)[..|a| + j] == a + b[..j];
  }

  /** How a pass begins. With a session it rotates exactly when its call
      fails with a challenge-like error while attempts remain, and breaks
      exactly when that rotation found no session. Without one it begins
      with `initialize_api()`'s first pick, and when it makes no call that
      login loop used all its logins or found no eligible account. */
  ghost predicate PassOpening(m: Manager, env: Env, attempt: nat, maxRetries: int, stop: bool, chunk: seq<Event>)
  {
    && (m.current.Some? ==> (CountOf(chunk, Picks) >= 1 <==> Rotates(env.operation(m.calls), attempt, maxRetries)))
    && (m.current.Some? ==> (stop <==> CountOf(chunk, Picks) >= 1 && NoLoginOk(chunk)))
    && (m.current.None? ==> |chunk| >= 1 && IsKind(chunk[0], Picks))
    && (m.current.None? && CountOf(chunk, Calls) == 0 ==> CountOf(chunk, Logins) == LoginAttempts || NoAccount in chunk)
  }

  /** The events of a pass: at most one call, which is the pass's last
      event when it returned; one failure entry unless it returned; where
      the successful logins sit; and a `break` only after a failed rotation. */
  ghost predicate PassShape(m: Manager, env: Env, attempt: nat, maxRetries: int, m': Manager, returned: bool, stop: bool, chunk: seq<Event>)
  {
    && CountOf(chunk, Calls) <= 1 && CountOf(chunk, Failures) == Bit(!returned)
    && (returned ==> (!stop && CountOf(chunk, Calls) == 1 && |chunk| >= 2
        && chunk[|chunk| - 1].Call? && chunk[|chunk| - 1].outcome.Ok? && env.operation(m.calls).Ok?))
    && (forall k :: 0 <= k < |chunk| && chunk[k].Call? ==> chunk[k].outcome.Err? || (returned && k == |chunk| - 1))
    && (forall k :: 0 <= k < |chunk| && IsLoginOk(chunk[k]) ==>
        || CountedTwice(chunk, k)
        || (k == |chunk| - 2 && m'.current == Some(chunk[k].account) && !returned && !stop && attempt < maxRetries))
    && (stop ==> !returned && EndsWithFailedRotation(chunk))
    && (m.current.Some? ==>
        |chunk| >= 2 && chunk[0] == Request(m.current.value) && chunk[1].Call? && chunk[1].account == m.current.value)
    && (m.current.Some? ==> CountOf(chunk, Calls) == 1)
    && (m.current.Some? && TransientAt(env, m.calls) ==>
        !stop && m'.current == m.current && CountOf(chunk, Logins) == 0 && CountOf(chunk, Sleeps) == CountOf(chunk, Failures))
  }

  /** One pass of `execute_with_retry`'s loop, numbered `attempt` (the
      value `retry_count` takes in the except-branch): when there is no
      session, establish one first; when that fails, the pass ends as an
      ordinary error with the fixed message and a sleep. */
  method Attempt(m: Manager, env: Env, attempt: nat, maxRetries: int) returns (m': Manager, returned: bool, stop: bool, chunk: seq<Event>)
    ensures PassResult(m, env, attempt, maxRetries, m', returned, stop, chunk)
  {
    if m.current.Some? {
      m', returned, stop, chunk := AttemptWithSession(m, env, attempt, maxRetries);
    } else {
      m', returned, stop, chunk := AttemptWithoutSession(m, env, attempt, maxRetries);
    }
  }

  /** A pass that starts with a session: the operation part alone. */
  method AttemptWithSession(m: Manager, env: Env, attempt: nat, maxRetries: int) returns (m': Manager, returned: bool, stop: bool, chunk: seq<Event>)
    requires m.current.Some?
    ensures PassResult(m, env, attempt, maxRetries, m', returned, stop, chunk)
  {
    m', returned, stop, chunk := Operate(m, env, attempt, maxRetries);
    SessionPassSession(m, attempt, maxRetries, m', stop, chunk);
    forall k | 0 <= k < |chunk| && chunk[k].Call?
      ensures chunk[k].outcome.Err? || (returned && k == |chunk| - 1)
    {
      assert k == 1;
    }
  }

  /** A pass that starts without a session: `initialize_api()`, then the
      operation with the new session or the failure entry. */
  method AttemptWithoutSession(m: Manager, env: Env, attempt: nat, maxRetries: int) returns (m': Manager, returned: bool, stop: bool, chunk: seq<Event>)
    requires m.current.None?
    ensures PassResult(m, env, attempt, maxRetries, m', returned, stop, chunk)
  {
    var m1, ok, init := InitializeApi(m, env, LoginAttempts);
    if ok {
      m', returned, stop, chunk := OperateAfterLogin(m, env, attempt, maxRetries, m1, init);
    } else {
      m', returned, stop, chunk := SessionFailed(m, env, attempt, maxRetries, m1, init);
    }
  }

  /** The rest of a pass whose `initialize_api()` succeeded: the operation
      with the new session. */
  method OperateAfterLogin(m: Manager, env: Env, attempt: nat, maxRetries: int, m1: Manager, init: seq<Event>)
    returns (m': Manager, returned: bool, stop: bool, chunk: seq<Event>)
    requires m.current.None? && LoginsSoFar(m, env, init, m1)
    requires |init| >= 2 && IsLoginOk(init[|init| - 2]) && m1.current == Some(init[|init| - 2].account)
    requires forall k :: 0 <= k < |init| - 2 ==> !IsLoginOk(init[k])
    requires CountOf(init, Logins) <= LoginAttempts
    ensures PassResult(m, env, attempt, maxRetries, m', returned, stop, chunk)
  {
    var op;
    m', returned, stop, op := Operate(m1, env, attempt, maxRetries);
    OperateLogins(init, op);
    RanThen(m, env, init, m1, op, m');
    LoginThenOperate(m, env, attempt, maxRetries, m1, init, m', returned, stop, op);
    LoginThenRotation(init, op, attempt, maxRetries, stop);
    chunk := init + op;
  }

  /** A successful `initialize_api()` has no failure entry, so the pass
      rotates as its operation part does, and opens with the first pick. */
  lemma LoginThenRotation(init: seq<Event>, op: seq<Event>, attempt: nat, maxRetries: int, stop: bool)
    requires CountOf(init, Failures) == 0 && |init| >= 1 && IsKind(init[0], Picks)
    requires PassRotation(op, attempt, maxRetries, stop)
    ensures PassRotation(init + op, attempt, maxRetries, stop)
    ensures IsKind((init + op)[0], Picks)
  {
    NoFailureNoRotation(init, maxRetries);
    RotationDisciplineAppend(init, op, maxRetries);
    var u := init + op;
    assert forall k :: 0 <= k < |init| ==> u[k] == init[k];
    forall k | |init| <= k < |u|
      ensures u[k].Failed? ==> u[k].attempt == attempt
    {
      assert u[k] == op[k - |init|];
    }
  }

  /** A trace without failure entries has no rotating failure. */
  lemma NoFailureNoRotation(t: seq<Event>, maxRetries: int)
    requires CountOf(t, Failures) == 0
    ensures forall k :: 0 <= k < |t| ==> !t[k].Failed?
    ensures RotatesAfterChallenges(t, maxRetries) && RotationsFoundSession(t, maxRetries)
  {
    forall k | 0 <= k < |t|
      ensures !t[k].Failed?
    {
      if t[k].Failed? {
        CountOfPositive(t, k, Failures);
      }
    }
  }

  /** Appending events keeps every rotation of the first part; the second
      part's rotations carry over when each found a session. */
  lemma RotationDisciplineAppend(a: seq<Event>, b: seq<Event>, maxRetries: int)
    requires RotatesAfterChallenges(a, maxRetries) && RotationsFoundSession(a, maxRetries)
    requires RotatesAfterChallenges(b, maxRetries)
    ensures RotatesAfterChallenges(a + b, maxRetries)
    ensures RotationsFoundSession(b, maxRetries) ==> RotationsFoundSession(a + b, maxRetries)
  {
    RotationPicksAppend(a, b, maxRetries);
    RotationCallsAppend(a, b, maxRetries);
    if RotationsFoundSession(b, maxRetries) {
      RotationSessionsAppend(a, b, maxRetries);
    }
  }

  /** A rotating failure of either part is still followed by a pick. */
  lemma RotationPicksAppend(a: seq<Event>, b: seq<Event>, maxRetries: int)
    requires RotatesAfterChallenges(a, maxRetries) && RotatesAfterChallenges(b, maxRetries)
    ensures forall i :: RotatingFailure(a + b, i, maxRetries) ==> i + 2 < |a + b| && IsKind((a + b)[i + 2], Picks)
  {
    var u := a + b;
    forall i | RotatingFailure(u, i, maxRetries)
      ensures i + 2 < |u| && IsKind(u[i + 2], Picks)
    {
      if i >= |a| {
        assert u[i] == b[i - |a|];
        assert RotatingFailure(b, i - |a|, maxRetries);
        assert u[i + 2] == b[i - |a| + 2];
      } else {
        assert u[i] == a[i];
        assert RotatingFailure(a, i, maxRetries);
        assert u[i + 2] == a[i + 2];
      }
    }
  }

  /** A rotating failure of either part is followed by a completed login
      before any later call: inside its own part, or, for the first part,
      before the part ends. */
  lemma RotationCallsAppend(a: seq<Event>, b: seq<Event>, maxRetries: int)
    requires RotatesAfterChallenges(a, maxRetries) && RotationsFoundSession(a, maxRetries)
    requires RotatesAfterChallenges(b, maxRetries)
    ensures forall i, j :: RotatingFailure(a + b, i, maxRetries) && i < j < |a + b| && (a + b)[j].Call? ==>
      exists l :: i < l < j && IsLoginOk((a + b)[l])
  {
    var u := a + b;
    forall i, j | RotatingFailure(u, i, maxRetries) && i < j < |u| && u[j].Call?
      ensures exists l :: i < l < j && IsLoginOk(u[l])
    {
      if i >= |a| {
        assert u[i] == b[i - |a|] && u[j] == b[j - |a|];
        assert RotatingFailure(b, i - |a|, maxRetries) && b[j - |a|].Call?;
        var l :| i - |a| < l < j - |a| && IsLoginOk(b[l]);
        assert u[|a| + l] == b[l];
      } else {
        assert u[i] == a[i];
        assert RotatingFailure(a, i, maxRetries);
        var l :| i < l < |a| && IsLoginOk(a[l]);
        assert u[l] == a[l];
        if j < |a| {
          assert u[j] == a[j];
          var l' :| i < l' < j && IsLoginOk(a[l']);
          assert u[l'] == a[l'];
        }
      }
    }
  }

  /** When every rotation of both parts found a session, every rotation of
      the whole does. */
  lemma RotationSessionsAppend(a: seq<Event>, b: seq<Event>, maxRetries: int)
    requires RotationsFoundSession(a, maxRetries) && RotationsFoundSession(b, maxRetries)
    ensures RotationsFoundSession(a + b, maxRetries)
  {
    var u := a + b;
    forall i | RotatingFailure(u, i, maxRetries)
      ensures exists l :: i < l < |u| && IsLoginOk(u[l])
    {
      if i >= |a| {
        assert u[i] == b[i - |a|];
        assert RotatingFailure(b, i - |a|, maxRetries);
        var l :| i - |a| < l < |b| && IsLoginOk(b[l]);
        assert u[|a| + l] == b[l];
      } else {
        assert u[i] == a[i];
        assert RotatingFailure(a, i, maxRetries);
        var l :| i < l < |a| && IsLoginOk(a[l]);
        assert u[l] == a[l];
      }
    }
  }

  /** The events of a successful `initialize_api()` followed by those of
      the operation make up a pass. */
  lemma LoginThenOperate(m: Manager, env: Env, attempt: nat, maxRetries: int, m1: Manager, init: seq<Event>,
                              m': Manager, returned: bool, stop: bool, op: seq<Event>)
    requires m.current.None? && m1.calls == m.calls
    requires WellFormed(init) && CountOf(init, Calls) == 0 && CountOf(init, Failures) == 0
    requires |init| >= 2 && IsLoginOk(init[|init| - 2]) && m1.current == Some(init[|init| - 2].account)
    requires forall k :: 0 <= k < |init| - 2 ==> !IsLoginOk(init[k])
    requires CountOf(op, Calls) == 1 && CountOf(op, Failures) == Bit(!returned)
    requires returned <==> env.operation(m1.calls).Ok?
    requires returned ==> !stop && op == [Request(m1.current.value), Call(m1.current.value, Ok)]
    requires |op| >= 2 && op[0] == Request(m1.current.value) && op[1] == Call(m1.current.value, env.operation(m1.calls))
    requires forall k :: 1 < k < |op| ==> !op[k].Call?
    requires stop ==> FailedRotationAt(op, 2)
    requires forall k :: 0 <= k < |op| && IsLoginOk(op[k]) ==>
      k == |op| - 2 && m'.current == Some(op[k].account) && !returned && !stop && attempt < maxRetries
    ensures PassShape(m, env, attempt, maxRetries, m', returned, stop, init + op)
  {
    var call := op[1];
    SessionThenCall(init, op, call, returned);
    SessionThenLogins(init, op, m'.current, returned, stop, attempt < maxRetries);
  }

  /** The calls and failure entries of a successful `initialize_api()`
      followed by the pass's call: only that call, and its failure. */
  lemma SessionThenCall(init: seq<Event>, op: seq<Event>, call: Event, returned: bool)
    requires WellFormed(init) && CountOf(init, Calls) == 0 && CountOf(init, Failures) == 0
    requires |init| >= 2 && IsLoginOk(init[|init| - 2])
    requires forall k :: 0 <= k < |init| - 2 ==> !IsLoginOk(init[k])
    requires CountOf(op, Calls) == 1 && CountOf(op, Failures) == Bit(!returned)
    requires |op| >= 2 && op[0] == Request(init[|init| - 2].account) && op[1] == call && call.Call?
    requires call.account == init[|init| - 2].account && (returned <==> call.outcome.Ok?)
    requires returned ==> |op| == 2
    requires forall k :: 1 < k < |op| ==> !op[k].Call?
    ensures var chunk := init + op;
      && CountOf(chunk, Calls) == 1 && CountOf(chunk, Failures) == Bit(!returned)
      && (returned ==> |chunk| >= 2 && chunk[|chunk| - 1] == call)
      && (forall k :: 0 <= k < |chunk| && chunk[k].Call? ==> chunk[k].outcome.Err? || (returned && k == |chunk| - 1))
  {
    SessionThenOperate(init, op);
    CountOfAppend(init, op, Calls);
    CountOfAppend(init, op, Failures);
    var chunk := init + op;
    assert chunk[|init| + 1] == call;
  }

  /** The completed logins of a successful `initialize_api()` followed by
      the pass's call: the session's login, counted twice, and at most the
      one that a rotation leaves pending at the end; a failed rotation
      still ends the pass. */
  lemma SessionThenLogins(init: seq<Event>, op: seq<Event>, session: Option<string>, returned: bool, stop: bool, early: bool)
    requires WellFormed(init) && CountOf(init, Calls) == 0
    requires |init| >= 2 && IsLoginOk(init[|init| - 2])
    requires forall k :: 0 <= k < |init| - 2 ==> !IsLoginOk(init[k])
    requires |op| >= 2 && op[0] == Request(init[|init| - 2].account) && op[1].Call? && op[1].account == init[|init| - 2].account
    requires forall k :: 1 < k < |op| ==> !op[k].Call?
    requires stop ==> FailedRotationAt(op, 2)
    requires forall k :: 0 <= k < |op| && IsLoginOk(op[k]) ==>
      k == |op| - 2 && session == Some(op[k].account) && !returned && !stop && early
    ensures var chunk := init + op;
      && (forall k :: 0 <= k < |chunk| && IsLoginOk(chunk[k]) ==>
          CountedTwice(chunk, k) || (k == |chunk| - 2 && session == Some(chunk[k].account) && !returned && !stop && early))
      && (stop ==> EndsWithFailedRotation(chunk))
  {
    SessionThenOperate(init, op);
    var chunk := init + op;
    forall k | |init| <= k < |chunk| && IsLoginOk(chunk[k])
      ensures k == |chunk| - 2 && session == Some(chunk[k].account) && !returned && !stop && early
    {
      assert chunk[k] == op[k - |init|];
    }
    if stop {
      FailedRotationShifts(init, op, 2);
    }
  }

  /** Where the calls and the completed logins sit when a successful
      `initialize_api()` is followed by the pass's call. */
  lemma SessionThenOperate(init: seq<Event>, op: seq<Event>)
    requires WellFormed(init) && CountOf(init, Calls) == 0
    requires |init| >= 2 && IsLoginOk(init[|init| - 2])
    requires forall k :: 0 <= k < |init| - 2 ==> !IsLoginOk(init[k])
    requires |op| >= 2 && op[0] == Request(init[|init| - 2].account) && op[1].Call? && op[1].account == init[|init| - 2].account
    requires forall k :: 1 < k < |op| ==> !op[k].Call?
    ensures var chunk := init + op;
      && CountedTwice(chunk, |init| - 2)
      && (forall k :: 0 <= k < |chunk| && chunk[k].Call? ==> k == |init| + 1)
      && (forall k :: 0 <= k < |init| && k != |init| - 2 ==> !IsLoginOk(chunk[k]))
  {
    var chunk := init + op;
    assert forall k :: 0 <= k < |init| ==> chunk[k] == init[k];
    assert forall k :: 0 <= k < |op| ==> chunk[|init| + k] == op[k];
    assert StepOk(init, |init| - 2);
    forall k | 0 <= k < |chunk| && chunk[k].Call?
      ensures k == |init| + 1
    {
      if k < |init| {
        CountOfPositive(init, k, Calls);
      }
    }
  }

  /** The end of a pass whose `initialize_api()` failed: the failure entry
      with the fixed message and the sleep of an ordinary error. */
  method SessionFailed(m: Manager, env: Env, attempt: nat, maxRetries: int, m1: Manager, init: seq<Event>) returns (m': Manager, returned: bool, stop: bool, chunk: seq<Event>)
    requires m.current.None?
    requires LoginsSoFar(m, env, init, m1) && NoLoginOk(init) && |init| >= 1
    requires CountOf(init, Logins) == LoginAttempts || init[|init| - 1] == NoAccount
    requires CountOf(init, Logins) <= LoginAttempts && m1.current == m.current
    ensures PassResult(m, env, attempt, maxRetries, m', returned, stop, chunk)
    ensures !returned && !stop
  {
    var delay := Effective(m.store.settings).requestDelaySeconds;
    var fail := InitFailureEvents(attempt, delay);
    InitFailureEventsFacts(attempt, delay);
    m', returned, stop := m1.(now := m1.now + delay), false, false;
    ReplayInitFailure(env, m1, attempt, m');
    RanThen(m, env, init, m1, fail, m');
    InitFailureRotation(init, attempt, delay, maxRetries);
    chunk := init + fail;
    FailedInitSession(m, attempt, maxRetries, m', init, chunk);
    forall k | 0 <= k < |chunk| && chunk[k].Call?
      ensures false
    {
      if k < |init| {
        assert chunk[k] == init[k];
        CountOfPositive(init, k, Calls);
      }
    }
  }

  /** A pass whose `initialize_api()` failed keeps no session, and is its
      login loop followed by the fixed failure entry and its sleep. */
  lemma FailedInitSession(m: Manager, attempt: nat, maxRetries: int, m': Manager, init: seq<Event>, chunk: seq<Event>)
    requires m.current.None? && m'.current.None?
    requires chunk == init + InitFailureEvents(attempt, Effective(m.store.settings).requestDelaySeconds)
    requires FailedLoginLoop(init)
    ensures PassSession(m, attempt, maxRetries, m', false, chunk)
  {
    var fail := InitFailureEvents(attempt, Effective(m.store.settings).requestDelaySeconds);
    assert chunk[|chunk| - 2..] == fail && chunk[..|chunk| - 2] == init;
    InitFailureEventsFacts(attempt, Effective(m.store.settings).requestDelaySeconds);
    CountOfAppend(init, fail, Calls);
    forall k | 0 <= k < |chunk| && chunk[k].Call?
      ensures false
    {
      if k < |init| {
        assert chunk[k] == init[k];
        CountOfPositive(init, k, Calls);
      }
    }
  }

  /** A pass whose `initialize_api()` failed has one failure entry, with the
      fixed message, and so does not rotate; it opens with the login loop's
      first pick, and that loop used all its logins or found no eligible
      account. */
  lemma InitFailureRotation(init: seq<Event>, attempt: nat, delay: nat, maxRetries: int)
    requires CountOf(init, Failures) == 0 && CountOf(init, Calls) == 0 && |init| >= 1 && IsKind(init[0], Picks)
    requires CountOf(init, Logins) == LoginAttempts || init[|init| - 1] == NoAccount
    ensures var chunk := init + InitFailureEvents(attempt, delay);
      && PassRotation(chunk, attempt, maxRetries, false)
      && IsKind(chunk[0], Picks)
      && (CountOf(chunk, Logins) == LoginAttempts || NoAccount in chunk)
  {
    InitFailureIsNotAChallenge();
    OrdinaryFailureRotation(init, InitFailureEvents(attempt, delay), attempt, InitFailureMessage, delay, maxRetries);
  }

  /** An ordinary failure entry and its sleep, after a login loop that
      logged no failure, give a pass that does not rotate. */
  lemma OrdinaryFailureRotation(init: seq<Event>, fail: seq<Event>, attempt: nat, message: string, delay: nat, maxRetries: int)
    requires fail == [Failed(attempt, message), Sleep(delay)] && !IsExecutionChallenge(message)
    requires CountOf(init, Failures) == 0 && |init| >= 1 && IsKind(init[0], Picks)
    requires CountOf(init, Logins) == LoginAttempts || init[|init| - 1] == NoAccount
    ensures var chunk := init + fail;
      && PassRotation(chunk, attempt, maxRetries, false)
      && IsKind(chunk[0], Picks)
      && (CountOf(chunk, Logins) == LoginAttempts || NoAccount in chunk)
  {
    var chunk := init + fail;
    OrdinaryFailureAlone(fail, attempt, message, delay, maxRetries);
    LoginThenRotation(init, fail, attempt, maxRetries, false);
    CountOfAppend(init, fail, Logins);
    if CountOf(init, Logins) != LoginAttempts {
      assert chunk[|init| - 1] == NoAccount;
    }
  }

  /** An ordinary failure entry and its sleep neither log in nor rotate. */
  lemma OrdinaryFailureAlone(fail: seq<Event>, attempt: nat, message: string, delay: nat, maxRetries: int)
    requires fail == [Failed(attempt, message), Sleep(delay)] && !IsExecutionChallenge(message)
    ensures PassRotation(fail, attempt, maxRetries, false) && CountOf(fail, Logins) == 0
  {
    assert fail[..1][..0] == [] && fail[..1] == [fail[0]];
    assert CountOf(fail[..1], Logins) == 0;
    assert forall i :: !RotatingFailure(fail, i, maxRetries);
  }

  /** The failure entry and the sleep of a failed initialisation replay to
      the same state, `request_delay_seconds` later. */
  lemma ReplayInitFailure(env: Env, m: Manager, attempt: nat, after: Manager)
    requires after == m.(now := m.now + Effective(m.store.settings).requestDelaySeconds)
    ensures Ran(m, env, InitFailureEvents(attempt, Effective(m.store.settings).requestDelaySeconds), after)
  {
    var delay := Effective(m.store.settings).requestDelaySeconds;
    var fail := InitFailureEvents(attempt, delay);
    InitFailureEventsFacts(attempt, delay);
    assert fail == [fail[0]] + [fail[1]];
    ReplayOne(env, m, fail[0], [fail[1]]);
    ReplayOne(env, m, fail[1], []);
  }

  /** From call number `from` on, the operation never fails with an error
      that names an execution keyword. */
  ghost predicate OnlyTransient(env: Env, from: nat)
  {
    forall n :: from <= n ==> TransientAt(env, n)
  }

  /** Appending one pass to the trace completes the login left pending at
      its end, and keeps every completed login of the pass completed. */
  lemma PassAppended(t: seq<Event>, chunk: seq<Event>)
    requires WellFormed(t)
    requires forall k :: 0 <= k < |t| && IsLoginOk(t[k]) ==> CountedTwice(t, k) || k == |t| - 2
    requires |t| >= 2 && IsLoginOk(t[|t| - 2]) && !CountedTwice(t, |t| - 2) ==>
      |chunk| >= 2 && chunk[0] == Request(t[|t| - 2].account) && chunk[1].Call? && chunk[1].account == t[|t| - 2].account
    ensures forall k :: 0 <= k < |t| && IsLoginOk(t[k]) ==> CountedTwice(t + chunk, k)
    ensures forall j :: 0 <= j < |chunk| && IsLoginOk(chunk[j]) && CountedTwice(chunk, j) ==> CountedTwice(t + chunk, |t| + j)
  {
    var u := t + chunk;
    forall k | 0 <= k < |t| && IsLoginOk(t[k])
      ensures CountedTwice(u, k)
    {
      if !CountedTwice(t, k) {
        assert StepOk(t, k);
        assert u[k + 2] == chunk[0] && u[k + 3] == chunk[1];
      }
    }
  }

  /** What holds of a run of `execute_with_retry` that has ended with `r`
      after producing the trace `t`, starting from `m0`. */
  ghost predicate Finished(m0: Manager, env: Env, m: Manager, r: RunResult, t: seq<Event>)
  {
    var cfg := Effective(m0.store.settings);
    && Ran(m0, env, t, m)
    && EveryLoginCountedTwice(t)
    && CountOf(t, Failures) <= Max0(cfg.retryAttempts)
    && CountOf(t, Calls) <= CountOf(t, Failures) + Bit(r.Returned?)
    && CountOf(t, Calls) <= Max0(cfg.retryAttempts)
    && (r.Returned? ==> (r.call + 1 == m.calls && env.operation(r.call).Ok?
      && |t| >= 2 && t[|t| - 1].Call? && t[|t| - 1].outcome.Ok?))
    && (forall k :: 0 <= k < |t| && t[k].Call? ==> t[k].outcome.Err? || (r.Returned? && k == |t| - 1))
    && (r.RetryExhausted? ==> r.attempts == cfg.retryAttempts)
    && (r.RetryExhausted? ==> CountOf(t, Failures) == Max0(cfg.retryAttempts) || EndsWithFailedRotation(t))
    && FailuresNumbered(t, 0)
    && RotatesAfterChallenges(t, cfg.retryAttempts)
    && (m0.current.None? && cfg.retryAttempts > 0 ==> |t| >= 1 && IsKind(t[0], Picks))
    && (m0.current.Some? && OnlyTransient(env, m0.calls) ==>
      && m.current == m0.current
      && CountOf(t, Logins) == 0
      && CountOf(t, Calls) == CountOf(t, Failures) + Bit(r.Returned?)
      && CountOf(t, Sleeps) == CountOf(t, Failures)
      && (r.RetryExhausted? ==> CountOf(t, Failures) == Max0(cfg.retryAttempts)))
  }

  /** What holds after `retry` failed passes of `execute_with_retry`. */
  ghost predicate Progress(m0: Manager, env: Env, m: Manager, t: seq<Event>, retry: nat)
  {
    var cfg := Effective(m0.store.settings);
    && Ran(m0, env, t, m)
    && retry == CountOf(t, Failures) <= Max0(cfg.retryAttempts)
    && CountOf(t, Calls) <= retry
    && (forall k :: 0 <= k < |t| && t[k].Call? ==> t[k].outcome.Err?)
    && (forall k :: 0 <= k < |t| && IsLoginOk(t[k]) ==>
      CountedTwice(t, k) || (k == |t| - 2 && m.current == Some(t[k].account) && retry < cfg.retryAttempts))
    && (m0.current.Some? && OnlyTransient(env, m0.calls) ==>
      m.current == m0.current && CountOf(t, Logins) == 0 && CountOf(t, Calls) == retry && CountOf(t, Sleeps) == retry)
    && FailuresNumbered(t, 0)
    && RotatesAfterChallenges(t, cfg.retryAttempts)
    && (|t| == 0 ==> m == m0)
    && (m0.current.None? && |t| >= 1 ==> IsKind(t[0], Picks))
  }

  /** The failure entries of `t` carry the attempt numbers `base + 1`,
      `base + 2`, ... in order: each is `retry_count` after counting it. */
  ghost predicate FailuresNumbered(t: seq<Event>, base: int)
  {
    forall k :: 0 <= k < |t| && t[k].Failed? ==> t[k].attempt == base + CountOf(t[..k + 1], Failures)
  }

  /** A pass logs at most one failure entry, numbered with the pass. */
  lemma OneFailureNumbered(c: seq<Event>, attempt: nat)
    requires CountOf(c, Failures) <= 1
    requires forall k :: 0 <= k < |c| && c[k].Failed? ==> c[k].attempt == attempt
    ensures FailuresNumbered(c, attempt - 1)
  {
    forall k | 0 <= k < |c| && c[k].Failed?
      ensures CountOf(c[..k + 1], Failures) == 1
    {
      assert c[..k + 1][k] == c[k];
      CountOfPositive(c[..k + 1], k, Failures);
      assert c == c[..k + 1] + c[k + 1..];
      CountOfAppend(c[..k + 1], c[k + 1..], Failures);
    }
  }

  /** Numbering continues across an appended trace. */
  lemma NumberingAppend(a: seq<Event>, b: seq<Event>, base: int)
    requires FailuresNumbered(a, base) && FailuresNumbered(b, base + CountOf(a, Failures))
    ensures FailuresNumbered(a + b, base)
  {
    var u := a + b;
    forall k | 0 <= k < |u| && u[k].Failed?
      ensures u[k].attempt == base + CountOf(u[..k + 1], Failures)
    {
      if k < |a| {
        assert u[..k + 1] == a[..k + 1] && u[k] == a[k];
      } else {
        assert u[..k + 1] == a + b[..k - |a| + 1] && u[k] == b[k - |a|];
        CountOfAppend(a, b[..k - |a| + 1], Failures);
      }
    }
  }

  /** Appending a pass numbered `retry + 1` to a run of `retry` failures
      keeps the numbering and the rotation discipline; the run's rotations
      all found a session unless this pass broke off. */
  lemma RunRotationAppended(t: seq<Event>, chunk: seq<Event>, retry: nat, maxRetries: int, stop: bool)
    requires FailuresNumbered(t, 0) && CountOf(t, Failures) == retry
    requires RotatesAfterChallenges(t, maxRetries) && RotationsFoundSession(t, maxRetries)
    requires PassRotation(chunk, retry + 1, maxRetries, stop) && CountOf(chunk, Failures) <= 1
    ensures FailuresNumbered(t + chunk, 0) && RotatesAfterChallenges(t + chunk, maxRetries)
    ensures !stop ==> RotationsFoundSession(t + chunk, maxRetries)
  {
    OneFailureNumbered(chunk, retry + 1);
    NumberingAppend(t, chunk, 0);
    RotationDisciplineAppend(t, chunk, maxRetries);
  }

  /** The first pick of a run without a session stays the run's first
      event. */
  lemma OpeningAppended(t: seq<Event>, chunk: seq<Event>, none: bool)
    requires none && |t| >= 1 ==> IsKind(t[0], Picks)
    requires none && |t| == 0 ==> |chunk| >= 1 && IsKind(chunk[0], Picks)
    ensures none && |t + chunk| >= 1 ==> IsKind((t + chunk)[0], Picks)
  {
    if |t| >= 1 {
      assert (t + chunk)[0] == t[0];
    } else {
      assert t + chunk == chunk;
    }
  }

  /** The events of a run's passes, one after the other. */
  function Flatten(passes: seq<seq<Event>>): seq<Event>
  {
    if |passes| == 0 then [] else Flatten(passes[..|passes| - 1]) + passes[|passes| - 1]
  }

  /** A run from `m0` cut into its passes: the last pass, numbered
      `|passes|`, goes from `states[|passes| - 1]` to `states[|passes|]` as
      `PassResult` says, having returned (`returned`) or broken off (`stop`)
      or neither, and the passes before it are such a run that did neither.
      `PassAt` reads this pass by pass. */
  ghost predicate PassesFrom(m0: Manager, env: Env, passes: seq<seq<Event>>, states: seq<Manager>, maxRetries: int, returned: bool, stop: bool)
    decreases |passes|
  {
    var n := |passes|;
    && |states| == n + 1 && states[0] == m0
    && (n >= 1 ==>
         && PassesFrom(m0, env, passes[..n - 1], states[..n], maxRetries, false, false)
         && PassResult(states[n - 1], env, n, maxRetries, states[n], returned, stop, passes[n - 1]))
  }

  /** Pass `p` of a run, numbered `p + 1`, goes from `states[p]` to
      `states[p + 1]` as `PassResult` says; only the last pass may have
      returned or broken off. */
  lemma {:induction false} PassAt(m0: Manager, env: Env, passes: seq<seq<Event>>, states: seq<Manager>, maxRetries: int, returned: bool, stop: bool, p: nat)
    requires PassesFrom(m0, env, passes, states, maxRetries, returned, stop) && p < |passes|
    ensures PassResult(states[p], env, p + 1, maxRetries, states[p + 1], returned && p == |passes| - 1, stop && p == |passes| - 1, passes[p])
    decreases |passes|
  {
    var n := |passes|;
    if p < n - 1 {
      PassAt(m0, env, passes[..n - 1], states[..n], maxRetries, false, false, p);
      assert passes[..n - 1][p] == passes[p] && states[..n][p] == states[p] && states[..n][p + 1] == states[p + 1];
    }
  }

  /** A run of `execute_with_retry` that ended with `r` in `m` after the
      trace `t` is made of at most `retry_attempts` passes, each as
      `PassResult` says from the state the one before left. A returned run
      ends with the pass that returned; a run that gave up before its last
      attempt ends with the pass that broke off; any other run used every
      attempt. */
  ghost predicate RunOfPasses(m0: Manager, env: Env, m: Manager, r: RunResult, t: seq<Event>, passes: seq<seq<Event>>, states: seq<Manager>)
  {
    var maxRetries := Effective(m0.store.settings).retryAttempts;
    && PassesFrom(m0, env, passes, states, maxRetries, r.Returned?, r.RetryExhausted? && |passes| < maxRetries)
    && states[|passes|] == m && t == Flatten(passes)
    && |passes| <= Max0(maxRetries)
    && (r.Returned? || |passes| < Max0(maxRetries) ==> |passes| >= 1)
  }

  /** What each pass of a run promises, read at the state it starts from.
      With a session, it picks an account only to rotate after a
      challenge-like error while attempts remain, keeps its session
      otherwise, and logs in at most the three times of one rotation.
      Without one, a pass that makes no call is a failed login loop followed
      by the fixed failure entry and its sleep. No pass logs in more than
      three times before its call or after it. */
  lemma RunPass(m0: Manager, env: Env, m: Manager, r: RunResult, t: seq<Event>, passes: seq<seq<Event>>, states: seq<Manager>, p: nat)
    requires RunOfPasses(m0, env, m, r, t, passes, states) && p < |passes|
    ensures states[p].current.Some? ==>
      && (CountOf(passes[p], Picks) >= 1 <==> Rotates(env.operation(states[p].calls), p + 1, Effective(m0.store.settings).retryAttempts))
      && (CountOf(passes[p], Picks) == 0 ==> states[p + 1].current == states[p].current)
      && CountOf(passes[p], Logins) <= LoginAttempts
    ensures states[p].current.None? && CountOf(passes[p], Calls) == 0 ==>
      InitFailurePass(passes[p], p + 1, Effective(states[p].store.settings).requestDelaySeconds)
    ensures LoginsAroundCall(passes[p])
  {
    var maxRetries := Effective(m0.store.settings).retryAttempts;
    PassAt(m0, env, passes, states, maxRetries, r.Returned?, r.RetryExhausted? && |passes| < maxRetries, p);
  }

  /** A further pass, from the state the passes so far left, extends them. */
  lemma PassesAppend(m0: Manager, env: Env, passes: seq<seq<Event>>, states: seq<Manager>, maxRetries: int,
                     m': Manager, returned: bool, stop: bool, chunk: seq<Event>)
    requires PassesFrom(m0, env, passes, states, maxRetries, false, false)
    requires PassResult(states[|passes|], env, |passes| + 1, maxRetries, m', returned, stop, chunk)
    ensures PassesFrom(m0, env, passes + [chunk], states + [m'], maxRetries, returned, stop)
    ensures Flatten(passes + [chunk]) == Flatten(passes) + chunk
  {
    var ps, ss := passes + [chunk], states + [m'];
    assert ps[..|ps| - 1] == passes && ss[..|ps|] == states;
    assert ps[|ps| - 1] == chunk && ss[|ps| - 1] == states[|passes|] && ss[|ps|] == m';
  }

  /** What the passes of a run leave behind before pass `retry + 1`. */
  ghost predicate Looping(m0: Manager, env: Env, m: Manager, t: seq<Event>, retry: nat, passes: seq<seq<Event>>, states: seq<Manager>)
  {
    var maxRetries := Effective(m0.store.settings).retryAttempts;
    && Progress(m0, env, m, t, retry) && RotationsFoundSession(t, maxRetries)
    && |passes| == retry && PassesFrom(m0, env, passes, states, maxRetries, false, false)
    && states[retry] == m && t == Flatten(passes)
  }

  /** One pass of the retry loop appended to the run so far: either the run
      ends with `r` (`done`), or it goes on to the next pass. */
  method Pass(m0: Manager, env: Env, m: Manager, t: seq<Event>, retry: nat, passes: seq<seq<Event>>, states: seq<Manager>)
    returns (m': Manager, t': seq<Event>, done: bool, r: RunResult, passes': seq<seq<Event>>, states': seq<Manager>)
    requires retry < Effective(m0.store.settings).retryAttempts
    requires Looping(m0, env, m, t, retry, passes, states)
    ensures done ==> Finished(m0, env, m', r, t') && RunOfPasses(m0, env, m', r, t', passes', states')
    ensures !done ==> Looping(m0, env, m', t', retry + 1, passes', states')
  {
    var maxRetries := Effective(m0.store.settings).retryAttempts;
    var chunk, returned, stop;
    m', returned, stop, chunk := Attempt(m, env, retry + 1, maxRetries);
    t', passes', states' := t + chunk, passes + [chunk], states + [m'];
    PassesAppend(m0, env, passes, states, maxRetries, m', returned, stop, chunk);
    done := returned || stop;
    if returned {
      r := Returned(m.calls);
      ReturnedRun(m0, env, m, t, retry, m', stop, chunk);
    } else {
      r := RetryExhausted(maxRetries);
      if stop {
        StoppedRun(m0, env, m, t, retry, m', chunk);
      } else {
        FailedRun(m0, env, m, t, retry, m', stop, chunk);
      }
    }
  }

  /** A pass that returned ends the run with the call's result. */
  lemma ReturnedRun(m0: Manager, env: Env, m: Manager, t: seq<Event>, retry: nat, m': Manager, stop: bool, chunk: seq<Event>)
    requires retry < Effective(m0.store.settings).retryAttempts
    requires Progress(m0, env, m, t, retry) && RotationsFoundSession(t, Effective(m0.store.settings).retryAttempts)
    requires PassResult(m, env, retry + 1, Effective(m0.store.settings).retryAttempts, m', true, stop, chunk)
    ensures Finished(m0, env, m', Returned(m.calls), t + chunk)
  {
    var maxRetries := Effective(m0.store.settings).retryAttempts;
    RunRotationAppended(t, chunk, retry, maxRetries, stop);
    OpeningAppended(t, chunk, m0.current.None?);
    ReturnedPass(m0, env, m, t, retry, m', stop, chunk);
  }

  /** A pass that did not return leads to the next one, or, when its
      rotation found no session, ends the run. */
  lemma FailedRun(m0: Manager, env: Env, m: Manager, t: seq<Event>, retry: nat, m': Manager, stop: bool, chunk: seq<Event>)
    requires retry < Effective(m0.store.settings).retryAttempts
    requires Progress(m0, env, m, t, retry) && RotationsFoundSession(t, Effective(m0.store.settings).retryAttempts)
    requires PassResult(m, env, retry + 1, Effective(m0.store.settings).retryAttempts, m', false, stop, chunk)
    ensures Progress(m0, env, m', t + chunk, retry + 1)
    ensures !stop ==> RotationsFoundSession(t + chunk, Effective(m0.store.settings).retryAttempts)
    ensures stop ==> EveryLoginCountedTwice(t + chunk) && EndsWithFailedRotation(t + chunk)
    ensures stop ==> !(m0.current.Some? && OnlyTransient(env, m0.calls))
  {
    var maxRetries := Effective(m0.store.settings).retryAttempts;
    RunRotationAppended(t, chunk, retry, maxRetries, stop);
    OpeningAppended(t, chunk, m0.current.None?);
    FailedPass(m0, env, m, t, retry, m', stop, chunk);
  }

  /** A pass whose rotation found no session ends the run: the retries are
      given up before the last attempt. */
  lemma StoppedRun(m0: Manager, env: Env, m: Manager, t: seq<Event>, retry: nat, m': Manager, chunk: seq<Event>)
    requires retry < Effective(m0.store.settings).retryAttempts
    requires Progress(m0, env, m, t, retry) && RotationsFoundSession(t, Effective(m0.store.settings).retryAttempts)
    requires PassResult(m, env, retry + 1, Effective(m0.store.settings).retryAttempts, m', false, true, chunk)
    ensures Finished(m0, env, m', RetryExhausted(Effective(m0.store.settings).retryAttempts), t + chunk)
  {
    FailedRun(m0, env, m, t, retry, m', true, chunk);
    GaveUpEarly(m0, env, m', t + chunk, retry + 1);
  }

  /** The trace facts that every pass keeps. */
  lemma PassKeeps(m0: Manager, env: Env, m: Manager, t: seq<Event>, retry: nat, m': Manager, returned: bool, stop: bool, chunk: seq<Event>)
    requires Progress(m0, env, m, t, retry)
    requires Ran(m, env, chunk, m') && PassShape(m, env, retry + 1, Effective(m0.store.settings).retryAttempts, m', returned, stop, chunk)
    ensures var u := t + chunk;
      && Ran(m0, env, u, m')
      && (forall kind :: CountOf(u, kind) == CountOf(t, kind) + CountOf(chunk, kind))
      && (forall k :: 0 <= k < |t| && IsLoginOk(t[k]) ==> CountedTwice(u, k))
      && (forall k :: |t| <= k < |u| && IsLoginOk(u[k]) && !CountedTwice(u, k) ==>
           k == |u| - 2 && m'.current == Some(u[k].account) && !returned && !stop && retry + 1 < Effective(m0.store.settings).retryAttempts)
      && (forall k :: 0 <= k < |u| && u[k].Call? ==> u[k].outcome.Err? || (returned && k == |u| - 1))
      && (stop ==> EndsWithFailedRotation(u))
  {
    RanThen(m0, env, t, m, chunk, m');
    PassAppended(t, chunk);
    AppendedLogins(t, chunk, m'.current, !returned && !stop && retry + 1 < Effective(m0.store.settings).retryAttempts);
    AppendedCalls(t, chunk, returned);
    if stop {
      var j :| FailedRotationAt(chunk, j);
      FailedRotationShifts(t, chunk, j);
    }
  }

  /** A successful login of an appended chunk that its chunk counts twice
      stays counted twice; the one it leaves waiting is still the one
      waiting. */
  lemma AppendedLogins(t: seq<Event>, chunk: seq<Event>, current: Option<string>, late: bool)
    requires forall j :: 0 <= j < |chunk| && IsLoginOk(chunk[j]) ==>
      CountedTwice(chunk, j) || (j == |chunk| - 2 && current == Some(chunk[j].account) && late)
    requires forall j :: 0 <= j < |chunk| && IsLoginOk(chunk[j]) && CountedTwice(chunk, j) ==> CountedTwice(t + chunk, |t| + j)
    ensures var u := t + chunk;
      forall k :: |t| <= k < |u| && IsLoginOk(u[k]) && !CountedTwice(u, k) ==> k == |u| - 2 && current == Some(u[k].account) && late
  {
    var u := t + chunk;
    forall k | |t| <= k < |u| && IsLoginOk(u[k]) && !CountedTwice(u, k)
      ensures k == |u| - 2 && current == Some(u[k].account) && late
    {
      assert u[k] == chunk[k - |t|];
    }
  }

  /** Calls that failed, then a chunk whose calls failed but for a last
      one that returned. */
  lemma AppendedCalls(t: seq<Event>, chunk: seq<Event>, returned: bool)
    requires forall k :: 0 <= k < |t| && t[k].Call? ==> t[k].outcome.Err?
    requires forall k :: 0 <= k < |chunk| && chunk[k].Call? ==> chunk[k].outcome.Err? || (returned && k == |chunk| - 1)
    ensures var u := t + chunk;
      forall k :: 0 <= k < |u| && u[k].Call? ==> u[k].outcome.Err? || (returned && k == |u| - 1)
  {
    var u := t + chunk;
    forall k | 0 <= k < |u| && u[k].Call?
      ensures u[k].outcome.Err? || (returned && k == |u| - 1)
    {
      if k < |t| {
        assert u[k] == t[k];
      } else {
        assert u[k] == chunk[k - |t|];
      }
    }
  }

  lemma ReturnedPass(m0: Manager, env: Env, m: Manager, t: seq<Event>, retry: nat, m': Manager, stop: bool, chunk: seq<Event>)
    requires retry < Effective(m0.store.settings).retryAttempts
    requires Progress(m0, env, m, t, retry)
    requires Ran(m, env, chunk, m') && PassShape(m, env, retry + 1, Effective(m0.store.settings).retryAttempts, m', true, stop, chunk)
    requires FailuresNumbered(t + chunk, 0) && RotatesAfterChallenges(t + chunk, Effective(m0.store.settings).retryAttempts)
    requires m0.current.None? && |t + chunk| >= 1 ==> IsKind((t + chunk)[0], Picks)
    ensures !stop && Finished(m0, env, m', Returned(m.calls), t + chunk)
  {
    PassKeeps(m0, env, m, t, retry, m', true, stop, chunk);
    assert m0.current.Some? && OnlyTransient(env, m0.calls) ==> TransientAt(env, m.calls);
  }

  lemma FailedPass(m0: Manager, env: Env, m: Manager, t: seq<Event>, retry: nat, m': Manager, stop: bool, chunk: seq<Event>)
    requires retry < Effective(m0.store.settings).retryAttempts
    requires Progress(m0, env, m, t, retry)
    requires Ran(m, env, chunk, m') && PassShape(m, env, retry + 1, Effective(m0.store.settings).retryAttempts, m', false, stop, chunk)
    requires FailuresNumbered(t + chunk, 0) && RotatesAfterChallenges(t + chunk, Effective(m0.store.settings).retryAttempts)
    requires m0.current.None? && |t + chunk| >= 1 ==> IsKind((t + chunk)[0], Picks)
    ensures Progress(m0, env, m', t + chunk, retry + 1)
    ensures stop ==> EveryLoginCountedTwice(t + chunk) && EndsWithFailedRotation(t + chunk)
    ensures stop ==> !(m0.current.Some? && OnlyTransient(env, m0.calls))
  {
    PassKeeps(m0, env, m, t, retry, m', false, stop, chunk);
    assert m0.current.Some? && OnlyTransient(env, m0.calls) ==> TransientAt(env, m.calls);
  }

  /** `execute_with_retry(operation)`: up to `retry_attempts` passes (from
      the settings, default 3). A pass without a session first calls
      `initialize_api()`, whose failure is handled as an ordinary error with
      a fixed message. Then it records a request and calls the operation; a
      success ends the run with the call's result. An error counts one
      attempt; an error naming an execution keyword records a challenge on
      the current account and, while attempts remain, rotates to a fresh
      session, giving up when that fails; any other error sleeps
      `request_delay_seconds`. Running out of attempts raises. */
  method ExecuteWithRetry(m: Manager, env: Env) returns (m': Manager, r: RunResult, t: seq<Event>, passes: seq<seq<Event>>, states: seq<Manager>)
    ensures Finished(m, env, m', r, t)
    ensures RunOfPasses(m, env, m', r, t, passes, states)
    ensures Effective(m.store.settings).retryAttempts <= 0 ==> r.RetryExhausted? && t == [] && m' == m
  {
    var maxRetries := Effective(m.store.settings).retryAttempts;
    m' := m;
    t := [];
    passes, states := [], [m];
    var retry := 0;
    assert Replay(env, m, t) == Some(m');
    assert StatusChangesAreBlocks(m.store.accounts, m'.store.accounts, t);
    while retry < maxRetries
      invariant Looping(m, env, m', t, retry, passes, states)
      invariant maxRetries <= 0 ==> t == [] && m' == m
    {
      var done;
      m', t, done, r, passes, states := Pass(m, env, m', t, retry, passes, states);
      if done {
        return;
      }
      retry := retry + 1;
    }
    r := RetryExhausted(maxRetries);
    Exhausted(m, env, m', t, retry);
  }

  /** A run gives up after its last attempt. */
  lemma Exhausted(m0: Manager, env: Env, m: Manager, t: seq<Event>, retry: nat)
    requires Progress(m0, env, m, t, retry) && retry == Max0(Effective(m0.store.settings).retryAttempts)
    ensures Finished(m0, env, m, RetryExhausted(Effective(m0.store.settings).retryAttempts), t)
  {
    CountOfAtMostLength(t, Failures);
  }

  /** A run gives up early after a rotation that found no session, with no
      login left waiting for its request and call. */
  lemma GaveUpEarly(m0: Manager, env: Env, m: Manager, t: seq<Event>, retry: nat)
    requires Progress(m0, env, m, t, retry)
    requires EveryLoginCountedTwice(t) && EndsWithFailedRotation(t) && !(m0.current.Some? && OnlyTransient(env, m0.calls))
    ensures Finished(m0, env, m, RetryExhausted(Effective(m0.store.settings).retryAttempts), t)
  {
    CountOfAtMostLength(t, Failures);
  }

  /** A run of `execute_with_retry` changes an account's status only where
      `env` answered one of that account's logins or calls with a challenge,
      and the account is then blocked. */
  lemma RetryBlocksTraceToEnv(m: Manager, env: Env, m': Manager, r: RunResult, t: seq<Event>, i: int)
    requires Finished(m, env, m', r, t)
    requires 0 <= i < |m.store.accounts| && m'.store.accounts[i].status != m.store.accounts[i].status
    ensures m'.store.accounts[i].status == Blocked
    ensures exists k :: 0 <= k < |t| && ChallengedBy(env, m, t, k, m.store.accounts[i].id)
  {
    StatusChangeTracesToEnv(env, m, t, m', i);
  }

  /** A run of the login loop changes an account's status only where `env`
      answered one of that account's logins with a challenge, and the
      account is then blocked. */
  lemma LoginBlocksTraceToEnv(m: Manager, env: Env, t: seq<Event>, m': Manager, i: int)
    requires LoginsSoFar(m, env, t, m')
    requires 0 <= i < |m.store.accounts| && m'.store.accounts[i].status != m.store.accounts[i].status
    ensures m'.store.accounts[i].status == Blocked
    ensures exists k :: 0 <= k < |t| && t[k].Login? && ChallengedBy(env, m, t, k, m.store.accounts[i].id)
  {
    var id := m.store.accounts[i].id;
    StatusChangeTracesToEnv(env, m, t, m', i);
    var k :| 0 <= k < |t| && ChallengedBy(env, m, t, k, id);
    if t[k].Call? {
      CountOfPositive(t, k, Calls);
    }
    assert t[k].Login?;
  }
}

=== FILE: selection.dfy ===
/**
 * The rotation selector (`get_next_account`): round-robin over the eligible
 * list with a cursor, least-used, or the first eligible account for any other
 * strategy name.
 */
module Selection {
  import opened Wrappers
  import opened Accounts
  import opened Availability

  /** The position chosen in the eligible list and the cursor afterwards. */
  datatype Pick = Pick(index: nat, cursor: nat)

  /** Python's `min(..., key=requests_count)`: the first account whose counter
      is minimal (a later one replaces it only when strictly smaller). */
  function LeastUsedIndex(s: seq<Account>): (k: nat)
    requires |s| > 0
    ensures k < |s|
    ensures forall j :: 0 <= j < |s| ==> s[k].requestsCount <= s[j].requestsCount
    ensures forall j :: 0 <= j < k ==> s[j].requestsCount > s[k].requestsCount
  {
    if |s| == 1 then 0
    else
      var k := LeastUsedIndex(s[..|s| - 1]);
      if s[|s| - 1].requestsCount < s[k].requestsCount then |s| - 1 else k
  }

  /** The round-robin start position: a cursor past the end restarts at 0. */
  function Start(cursor: nat, n: nat): (c: nat)
    requires n > 0
    ensures c < n
    ensures cursor < n ==> c == cursor
  {
    if cursor >= n then 0 else cursor
  }

  /** One selection from the eligible list `avail` under `strategy`. */
  function Select(avail: seq<Account>, strategy: string, cursor: nat): (r: Option<Pick>)
    ensures r.None? <==> |avail| == 0
    ensures r.Some? ==> r.value.index < |avail|
    ensures r.Some? && strategy == RoundRobin ==>
      && r.value.index == Start(cursor, |avail|)
      && r.value.cursor < |avail|
      && r.value.cursor == (r.value.index + 1) % |avail|
    ensures r.Some? && strategy == LeastUsed ==>
      && r.value.cursor == cursor
      && (forall j :: 0 <= j < |avail| ==> avail[r.value.index].requestsCount <= avail[j].requestsCount)
      && (forall j :: 0 <= j < r.value.index ==> avail[j].requestsCount > avail[r.value.index].requestsCount)
    ensures r.Some? && strategy != RoundRobin && strategy != LeastUsed ==> r.value == Pick(0, cursor)
  {
    if |avail| == 0 then None
    else if strategy == RoundRobin then
      var c := Start(cursor, |avail|);
      Some(Pick(c, (c + 1) % |avail|))
    else if strategy == LeastUsed then Some(Pick(LeastUsedIndex(avail), cursor))
    else Some(Pick(0, cursor))
  }

  /** The positions picked by `n` successive round-robin selections over an
      eligible list of `size` accounts that does not change in between. */
  function RoundRobinVisits(size: nat, cursor: nat, n: nat): (v: seq<nat>)
    requires size > 0
    ensures |v| == n
    decreases n
  {
    if n == 0 then []
    else
      var c := Start(cursor, size);
      [c] + RoundRobinVisits(size, (c + 1) % size, n - 1)
  }

  /** The positions picked by `n` successive selections over an eligible
      list that does not change in between, each starting from the cursor
      the previous one left. */
  function SelectRun(avail: seq<Account>, strategy: string, cursor: nat, n: nat): (v: seq<nat>)
    requires |avail| > 0
    ensures |v| == n
    ensures forall k :: 0 <= k < n ==> v[k] < |avail|
    decreases n
  {
    if n == 0 then []
    else
      var p := Select(avail, strategy, cursor).value;
      [p.index] + SelectRun(avail, strategy, p.cursor, n - 1)
  }

  /** Successive round-robin selections visit the positions
      `RoundRobinVisits` lists: the first is the selection's own pick, and
      the rest start from the cursor it leaves. */
  lemma {:induction false} SelectRunIsVisits(avail: seq<Account>, cursor: nat, n: nat)
    requires |avail| > 0
    ensures SelectRun(avail, RoundRobin, cursor, n) == RoundRobinVisits(|avail|, cursor, n)
    ensures n >= 1 ==>
      var p := Select(avail, RoundRobin, cursor).value;
      RoundRobinVisits(|avail|, cursor, n) == [p.index] + RoundRobinVisits(|avail|, p.cursor, n - 1)
    decreases n
  {
    if n >= 1 {
      var p := Select(avail, RoundRobin, cursor).value;
      SelectRunIsVisits(avail, p.cursor, n - 1);
    }
  }

  lemma ModBelowTwice(x: int, n: int)
    requires 0 < n && 0 <= x < 2 * n
    ensures x % n == if x < n then x else x - n
  {
    if x >= n {
      assert x == 1 * n + (x - n);
    }
  }

  /** Advancing the cursor by one and then k - 1 more steps lands where k
      steps from the old position would. */
  lemma StepThenAdvance(c: nat, k: nat, size: nat)
    requires c < size && 1 <= k <= size
    ensures ((c + 1) % size + (k - 1)) % size == (c + k) % size
  {
    ModBelowTwice(c + 1, size);
    ModBelowTwice(c + k, size);
    ModBelowTwice((c + 1) % size + (k - 1), size);
  }

  /** The k-th of n successive round-robin calls picks position
      (start + k) mod size. */
  lemma {:induction false} VisitAt(size: nat, cursor: nat, n: nat, k: nat)
    requires 0 < size && k < n <= size
    ensures RoundRobinVisits(size, cursor, n)[k] == (Start(cursor, size) + k) % size
    decreases k
  {
    var c := Start(cursor, size);
    var next := (c + 1) % size;
    assert RoundRobinVisits(size, cursor, n) == [c] + RoundRobinVisits(size, next, n - 1);
    if k == 0 {
      ModBelowTwice(c, size);
    } else {
      VisitAt(size, next, n - 1, k - 1);
      assert Start(next, size) == next;
      StepThenAdvance(c, k, size);
    }
  }

  /** Every one of n successive calls picks (start + k) mod size. */
  lemma RoundRobinVisitOrder(size: nat, cursor: nat, n: nat)
    requires 0 < size && n <= size
    ensures forall k :: 0 <= k < n ==> RoundRobinVisits(size, cursor, n)[k] == (Start(cursor, size) + k) % size
  {
    forall k | 0 <= k < n
      ensures RoundRobinVisits(size, cursor, n)[k] == (Start(cursor, size) + k) % size
    {
      VisitAt(size, cursor, n, k);
    }
  }

  /** Over an unchanged eligible list of N accounts, N round-robin calls visit
      every account exactly once, and from a cursor of 0 they go in list order. */
  lemma RoundRobinFairness(size: nat, cursor: nat)
    requires size > 0
    ensures var v := RoundRobinVisits(size, cursor, size);
      && (forall k, l :: 0 <= k < l < size ==> v[k] != v[l])
      && (forall i :: 0 <= i < size ==> i in v)
      && (cursor == 0 ==> forall k :: 0 <= k < size ==> v[k] == k)
  {
    var v := RoundRobinVisits(size, cursor, size);
    var c := Start(cursor, size);
    RoundRobinVisitOrder(size, cursor, size);
    forall k, l | 0 <= k < l < size
      ensures v[k] != v[l]
    {
      ModBelowTwice(c + k, size);
      ModBelowTwice(c + l, size);
    }
    forall i | 0 <= i < size
      ensures i in v
    {
      var k := if i >= c then i - c else i - c + size;
      ModBelowTwice(c + k, size);
      assert v[k] == i;
    }
    if cursor == 0 {
      forall k | 0 <= k < size
        ensures v[k] == k
      {
        ModBelowTwice(k, size);
      }
    }
  }

  /** Over an unchanged list of eligible accounts, as many successive
      round-robin selections as there are accounts, each from the cursor the
      previous one left, pick every account exactly once; from cursor 0 they
      go in list order. */
  lemma RoundRobinSelectionFair(avail: seq<Account>, cursor: nat)
    requires |avail| > 0
    ensures var v := SelectRun(avail, RoundRobin, cursor, |avail|);
      && (forall k, l :: 0 <= k < l < |avail| ==> v[k] != v[l])
      && (forall i :: 0 <= i < |avail| ==> i in v)
      && (cursor == 0 ==> forall k :: 0 <= k < |avail| ==> v[k] == k)
  {
    SelectRunIsVisits(avail, cursor, |avail|);
    RoundRobinFairness(|avail|, cursor);
  }

  /** The outcome of `get_next_account`: the account list after the filter's
      normalisation, the cursor, and the chosen account if any. */
  datatype Next = Next(accounts: seq<Account>, cursor: nat, picked: Option<Account>)

  /** `get_next_account` at time `now`. */
  function NextAccount(accs: seq<Account>, strategy: string, cursor: nat, now: int): (r: Next)
    ensures r.accounts == NormalizeAll(accs, now)
    ensures var p := Select(AvailableAccounts(accs, now), strategy, cursor);
      p.Some? ==> r.picked == Some(AvailableAccounts(accs, now)[p.value.index]) && r.cursor == p.value.cursor
    ensures SameRoster(accs, r.accounts)
    ensures forall i :: 0 <= i < |accs| ==>
      r.accounts[i].status == accs[i].status && (Eligible(r.accounts[i], now) <==> Eligible(accs[i], now))
    ensures r.picked.None? <==> forall i :: 0 <= i < |accs| ==> !Eligible(accs[i], now)
    ensures r.picked.None? ==> r.cursor == cursor
    ensures r.picked.Some? ==>
      && Ready(r.picked.value, now)
      && exists i :: 0 <= i < |accs| && Eligible(accs[i], now) && r.picked.value == Normalize(accs[i], now)
  {
    var avail := AvailableAccounts(accs, now);
    NormalizeAllKeepsRoster(accs, now);
    forall i | 0 <= i < |accs| ensures Eligible(Normalize(accs[i], now), now) == Eligible(accs[i], now) {
      NormalizeKeepsEligibility(accs[i], now);
    }
    AvailableAreEligibleInOrder(accs, now);
    var idx := EligiblePositions(accs, now);
    assert |avail| == 0 <==> forall i :: 0 <= i < |accs| ==> !Eligible(accs[i], now) by {
      if |avail| == 0 {
        forall i | 0 <= i < |accs| ensures !Eligible(accs[i], now) {
          assert i !in idx;
        }
      } else {
        assert Eligible(accs[idx[0]], now);
      }
    }
    match Select(avail, strategy, cursor)
    case None => Next(NormalizeAll(accs, now), cursor, None)
    case Some(p) =>
      assert Eligible(accs[idx[p.index]], now) && avail[p.index] == Normalize(accs[idx[p.index]], now);
      Next(NormalizeAll(accs, now), p.cursor, Some(avail[p.index]))
  }
}

=== FILE: summary.dfy ===
/**
 * The status report (`get_account_status`): one line per account and the
 * totals of usable and unusable accounts. The report only reads the
 * records: it neither normalises them nor looks at the hourly quota.
 */
module Summary {
  import opened Wrappers
  import opened Accounts
  import opened Availability

  /** One line of the report. */
  datatype AccountLine = AccountLine(
    id: string,
    email: string,
    status: Status,
    challengeCount: int,
    requestsCount: int,
    lastUsed: Option<int>,
    blockedUntil: Option<int>,
    isAvailable: bool)

  datatype Report = Report(
    total: nat,
    active: nat,
    blocked: nat,
    current: Option<string>,
    accounts: seq<AccountLine>)

  /** The report's notion of availability: status "active" and no block
      still running. */
  predicate Usable(a: Account, now: int)
  {
    a.status == Active && !BlockedAt(a, now)
  }

  /** A report line shows the account's identity, status, counters and
      timestamps as stored, and whether it is usable now. */
  predicate Describes(line: AccountLine, a: Account, now: int)
  {
    && line.id == a.id
    && line.email == a.email
    && line.status == a.status
    && line.challengeCount == a.challengeCount
    && line.requestsCount == a.requestsCount
    && line.lastUsed == a.lastUsed
    && line.blockedUntil == a.blockedUntil
    && (line.isAvailable <==> Usable(a, now))
  }

  /** How many accounts of the list are usable. */
  function CountUsable(accs: seq<Account>, now: int): nat
  {
    if |accs| == 0 then 0
    else CountUsable(accs[..|accs| - 1], now) + (if Usable(accs[|accs| - 1], now) then 1 else 0)
  }

  /** `get_account_status()`: the totals, the id of the account in use, and
      for every account its identity, counters, timestamps and whether it
      is usable now. Every account is counted either as active or as
      blocked. */
  method AccountStatus(accs: seq<Account>, current: Option<string>, now: int) returns (r: Report)
    ensures r.total == |accs| && r.active + r.blocked == r.total
    ensures r.active == CountUsable(accs, now)
    ensures r.current == current
    ensures |r.accounts| == |accs|
    ensures forall i :: 0 <= i < |accs| ==> Describes(r.accounts[i], accs[i], now)
  {
    var active, blocked := 0, 0;
    var lines: seq<AccountLine> := [];
    var i := 0;
    while i < |accs|
      invariant 0 <= i <= |accs|
      invariant active == CountUsable(accs[..i], now)
      invariant active + blocked == i
      invariant |lines| == i
      invariant forall j :: 0 <= j < i ==> Describes(lines[j], accs[j], now)
    {
      var a := accs[i];
      var isAvailable := false;
      if a.status == Active {
        var isBlocked := a.blockedUntil.Some? && now < a.blockedUntil.value;
        if !isBlocked {
          isAvailable := true;
          active := active + 1;
        } else {
          blocked := blocked + 1;
        }
      } else {
        blocked := blocked + 1;
      }
      assert accs[..i + 1][..i] == accs[..i];
      lines := lines + [AccountLine(a.id, a.email, a.status, a.challengeCount, a.requestsCount, a.lastUsed, a.blockedUntil, isAvailable)];
      i := i + 1;
    }
    assert accs[..i] == accs;
    r := Report(|accs|, active, blocked, current, lines);
  }

  /** Every account the filter would hand out is one the report counts as
      active, so the filter never offers more accounts than the report's
      active total; the difference is the accounts over their hourly quota. */
  lemma {:induction false} AvailableWithinActive(accs: seq<Account>, now: int)
    ensures |AvailableAccounts(accs, now)| <= CountUsable(accs, now)
    ensures forall i :: 0 <= i < |accs| && Eligible(accs[i], now) ==> Usable(accs[i], now)
  {
    if |accs| > 0 {
      AvailableWithinActive(accs[..|accs| - 1], now);
    }
  }

  /** For accounts without an hourly window the report's active total and
      the filter agree exactly. */
  lemma {:induction false} ActiveMatchesAvailableWithoutWindows(accs: seq<Account>, now: int)
    requires forall i :: 0 <= i < |accs| ==> accs[i].requestsResetTime.None?
    ensures |AvailableAccounts(accs, now)| == CountUsable(accs, now)
  {
    if |accs| > 0 {
      ActiveMatchesAvailableWithoutWindows(accs[..|accs| - 1], now);
    }
  }
}

=== FILE: tracking.dfy ===
/**
 * The usage and failure tracker: `mark_challenge` counts anti-automation
 * challenges and blocks an account at the threshold; `mark_request` counts
 * requests inside an hourly window.
 */
module Tracking {
  import opened Wrappers
  import opened Accounts
  import opened Availability

  /** One more challenge on one record; at the threshold the record is
      blocked for `cooldownMinutes` from `now` and its status becomes
      "blocked". */
  function Challenged(a: Account, maxRetries: int, cooldownMinutes: int, now: int): (b: Account)
  {
    var count := a.challengeCount + 1;
    if count >= maxRetries then
      a.(challengeCount := count, blockedUntil := Some(now + cooldownMinutes * SecondsPerMinute), status := Blocked)
    else a.(challengeCount := count)
  }

  /** `mark_challenge(id)`: only the first account with that id changes. */
  function MarkChallenge(accs: seq<Account>, id: string, maxRetries: int, cooldownMinutes: int, now: int): (r: seq<Account>)
    ensures SameRoster(accs, r)
    ensures !HasId(accs, id) ==> r == accs
    ensures forall i :: FirstWithId(accs, id, i) ==>
      && r[i].challengeCount == accs[i].challengeCount + 1
      && r[i].requestsCount == accs[i].requestsCount
      && r[i].requestsResetTime == accs[i].requestsResetTime
      && r[i].lastUsed == accs[i].lastUsed
      && (r[i].challengeCount >= maxRetries ==>
            r[i].status == Blocked && r[i].blockedUntil == Some(now + cooldownMinutes * 60))
      && (r[i].challengeCount < maxRetries ==>
            r[i].status == accs[i].status && r[i].blockedUntil == accs[i].blockedUntil)
      && r[i] == Challenged(accs[i], maxRetries, cooldownMinutes, now)
    ensures forall j :: 0 <= j < |accs| && !FirstWithId(accs, id, j) ==> r[j] == accs[j]
  {
    match FindIndex(accs, id)
    case None => accs
    case Some(i) =>
      assert forall k :: FirstWithId(accs, id, k) ==> k == i;
      accs[i := Challenged(accs[i], maxRetries, cooldownMinutes, now)]
  }

  /** One request on one record: a record without an hourly window opens
      one ending an hour from `now` with the counter restarted; then the
      request is counted and `last_used` stamped. Nothing else changes. */
  function Requested(a: Account, now: int): (b: Account)
    ensures SameCredentials(a, b)
    ensures a.requestsCount >= 0 ==> b.requestsCount >= 1
    ensures b.requestsCount == (if a.requestsResetTime.None? then 1 else a.requestsCount + 1)
    ensures b.requestsResetTime == Some(a.requestsResetTime.GetOr(now + SecondsPerHour))
    ensures b.lastUsed == Some(now)
    ensures b.status == a.status && b.challengeCount == a.challengeCount && b.blockedUntil == a.blockedUntil
  {
    var windowed := if a.requestsResetTime.None?
      then a.(requestsResetTime := Some(now + SecondsPerHour), requestsCount := 0)
      else a;
    windowed.(requestsCount := windowed.requestsCount + 1, lastUsed := Some(now))
  }

  /** `mark_request(id)`: only the first account with that id changes, and
      it changes by one request. */
  function MarkRequest(accs: seq<Account>, id: string, now: int): (r: seq<Account>)
    ensures SameRoster(accs, r)
    ensures !HasId(accs, id) ==> r == accs
    ensures forall i :: FirstWithId(accs, id, i) ==> r[i] == Requested(accs[i], now)
    ensures forall j :: 0 <= j < |accs| && !FirstWithId(accs, id, j) ==> r[j] == accs[j]
  {
    match FindIndex(accs, id)
    case None => accs
    case Some(i) =>
      assert forall k :: FirstWithId(accs, id, k) ==> k == i;
      accs[i := Requested(accs[i], now)]
  }

  /** `mark_request` never changes any account's status. */
  lemma MarkRequestKeepsStatus(accs: seq<Account>, id: string, now: int)
    ensures var r := MarkRequest(accs, id, now);
      |r| == |accs| && forall i :: 0 <= i < |accs| ==> r[i].status == accs[i].status
  {
    var r := MarkRequest(accs, id, now);
    forall i | 0 <= i < |accs|
      ensures r[i].status == accs[i].status
    {
      if FirstWithId(accs, id, i) {
      }
    }
  }

  /** The only status change `mark_challenge` makes is to block an account
      carrying the challenged id. */
  lemma MarkChallengeOnlyBlocks(accs: seq<Account>, id: string, maxRetries: int, cooldownMinutes: int, now: int)
    ensures var r := MarkChallenge(accs, id, maxRetries, cooldownMinutes, now);
      && |r| == |accs|
      && forall i :: 0 <= i < |accs| && r[i].status != accs[i].status ==> r[i].status == Blocked && accs[i].id == id
  {
    var r := MarkChallenge(accs, id, maxRetries, cooldownMinutes, now);
    forall i | 0 <= i < |accs| && r[i].status != accs[i].status
      ensures r[i].status == Blocked && accs[i].id == id
    {
      if FirstWithId(accs, id, i) {
      }
    }
  }

  /** On a list, `mark_challenge` is the one-record step applied to the
      first account with the id, every other account left as it was. */
  lemma MarkChallengeAt(accs: seq<Account>, id: string, i: int, maxRetries: int, cooldownMinutes: int, now: int)
    requires FirstWithId(accs, id, i)
    ensures MarkChallenge(accs, id, maxRetries, cooldownMinutes, now)
      == accs[i := Challenged(accs[i], maxRetries, cooldownMinutes, now)]
  {
    var k := FindIndex(accs, id);
    FirstWithIdUnique(accs, id, i, k.value);
  }

  /** `n` challenges on one record at one instant. */
  function ChallengedTimes(a: Account, maxRetries: int, cooldownMinutes: int, now: int, n: nat): (b: Account)
    ensures SameCredentials(a, b)
    decreases n
  {
    if n == 0 then a else Challenged(ChallengedTimes(a, maxRetries, cooldownMinutes, now, n - 1), maxRetries, cooldownMinutes, now)
  }

  /** Starting from an active record with no challenges, the first
      `max_challenge_retries - 1` challenges leave it active; from the
      threshold on it is blocked until `now + cooldown`, and since its status
      is no longer "active" the filter never returns it again at any time,
      even after `blocked_until` has passed. */
  lemma {:induction false} ThresholdBlocksForGood(a: Account, maxRetries: int, cooldownMinutes: int, now: int, n: nat)
    requires a.status == Active && a.challengeCount == 0
    ensures var b := ChallengedTimes(a, maxRetries, cooldownMinutes, now, n);
      && b.challengeCount == n
      && (n < maxRetries ==> b.status == Active)
      && (n >= maxRetries && n >= 1 ==>
            && b.status == Blocked
            && b.blockedUntil == Some(now + cooldownMinutes * SecondsPerMinute)
            && forall later :: !Eligible(b, later))
    decreases n
  {
    if n > 0 {
      ThresholdBlocksForGood(a, maxRetries, cooldownMinutes, now, n - 1);
    }
  }

  /** With a ceiling of one request per hour, a fresh account is used up by a
      single request: the filter excludes it until its window ends and takes
      it back, with the counter cleared, once `now` passes the window. */
  lemma HourlyBudgetExhausted(accs: seq<Account>, id: string, i: int, now: int, later: int)
    requires FirstWithId(accs, id, i)
    requires accs[i].maxRequestsPerHour == 1 && accs[i].requestsResetTime.None?
    requires accs[i].status == Active && accs[i].blockedUntil.None?
    ensures var r := MarkRequest(accs, id, now);
      && (now <= later <= now + SecondsPerHour ==> !Eligible(r[i], later))
      && (later > now + SecondsPerHour ==>
            Eligible(r[i], later) && Normalize(r[i], later).requestsCount == 0)
  {
  }

  /** Two requests recorded on a fresh account count as two, whichever code
      path recorded them. */
  lemma TwoMarksCountTwo(accs: seq<Account>, id: string, i: int, now: int)
    requires FirstWithId(accs, id, i) && accs[i].requestsResetTime.None?
    ensures MarkRequest(MarkRequest(accs, id, now), id, now)[i].requestsCount == 2
  {
    var once := MarkRequest(accs, id, now);
    assert FirstWithId(once, id, i);
  }
}

=== FILE: urlid.dfy ===
/**
 * Extraction of the LinkedIn identifier from a URL (`extract_linkedin_id`):
 * the three path markers are tried in the order profile, company, school;
 * for each, the leftmost occurrence followed by an identifier character
 * wins, and the identifier is the longest run of characters other than
 * `/` and `?` after it.
 */
module UrlId {
  import opened Wrappers

  datatype IdKind = Profile | Company | School

  datatype Extracted = Extracted(kind: IdKind, id: string)

  /** The path marker of each kind of page. */
  function Marker(k: IdKind): string
  {
    match k
    case Profile => "/in/"
    case Company => "/company/"
    case School => "/school/"
  }

  /** The characters the pattern `[^/?]` accepts. */
  predicate IdChar(c: char)
  {
    c != '/' && c != '?'
  }

  /** Every character of `s` is an identifier character. */
  predicate IdText(s: string)
  {
    forall i :: 0 <= i < |s| ==> IdChar(s[i])
  }

  /** The pattern of `marker` matches at position p: the marker is there
      and is followed by at least one identifier character. */
  predicate MatchAt(url: string, marker: string, p: int)
  {
    && 0 <= p
    && p + |marker| < |url|
    && url[p..p + |marker|] == marker
    && IdChar(url[p + |marker|])
  }

  /** p is where a left-to-right search finds the pattern first. */
  ghost predicate Leftmost(url: string, marker: string, p: int)
  {
    MatchAt(url, marker, p) && forall q :: 0 <= q < p ==> !MatchAt(url, marker, q)
  }

  /** `id` is what the capture group holds for a match at p: the maximal
      run of identifier characters directly after the marker. */
  ghost predicate Captures(url: string, marker: string, p: int, id: string)
  {
    var start := p + |marker|;
    && 0 <= start
    && |id| >= 1
    && start + |id| <= |url|
    && url[start..start + |id|] == id
    && IdText(id)
    && (start + |id| == |url| || !IdChar(url[start + |id|]))
  }

  /** Length of the run of identifier characters starting at i. */
  function RunLength(url: string, i: nat): (n: nat)
    requires i <= |url|
    ensures i + n <= |url|
    ensures forall j :: i <= j < i + n ==> IdChar(url[j])
    ensures i + n == |url| || !IdChar(url[i + n])
    decreases |url| - i
  {
    if i == |url| || !IdChar(url[i]) then 0 else 1 + RunLength(url, i + 1)
  }

  /** `re.search`: the first position at or after `from` where the pattern
      matches. */
  function Search(url: string, marker: string, from: nat): (r: Option<nat>)
    ensures r.Some? ==> from <= r.value && MatchAt(url, marker, r.value)
    ensures forall q :: from <= q && (r.None? || q < r.value) ==> !MatchAt(url, marker, q)
    decreases |url| - from
  {
    if from + |marker| >= |url| then None
    else if MatchAt(url, marker, from) then Some(from)
    else Search(url, marker, from + 1)
  }

  /** The match of one pattern and its capture, if it matches anywhere. */
  function MatchOf(url: string, marker: string): (r: Option<string>)
    ensures r.None? <==> forall q :: !MatchAt(url, marker, q)
    ensures r.Some? ==> exists p :: Leftmost(url, marker, p) && Captures(url, marker, p, r.value)
  {
    match Search(url, marker, 0)
    case None => None
    case Some(p) =>
      var start := p + |marker|;
      var id := url[start..start + RunLength(url, start)];
      assert forall j :: 0 <= j < |id| ==> id[j] == url[start + j];
      assert Captures(url, marker, p, id);
      Some(id)
  }

  lemma NoKindMatches(url: string)
    requires forall q :: !MatchAt(url, Marker(Profile), q)
    requires forall q :: !MatchAt(url, Marker(Company), q)
    requires forall q :: !MatchAt(url, Marker(School), q)
    ensures forall k, q :: !MatchAt(url, Marker(k), q)
  {
    forall k, q
      ensures !MatchAt(url, Marker(k), q)
    {
      if k == Profile {
      } else if k == Company {
      } else {
      }
    }
  }

  /** `extract_linkedin_id(url)`: the patterns are tried in the order
      profile, company, school, and the first that matches anywhere gives
      the kind of page and its identifier; nothing when no marker is
      followed by an identifier character. */
  function ExtractId(url: string): (r: Option<Extracted>)
    ensures r.None? <==> forall k, q :: !MatchAt(url, Marker(k), q)
    ensures r.Some? ==> exists p :: Leftmost(url, Marker(r.value.kind), p) && Captures(url, Marker(r.value.kind), p, r.value.id)
    ensures r.Some? && r.value.kind != Profile ==> forall q :: !MatchAt(url, Marker(Profile), q)
    ensures r.Some? && r.value.kind == School ==> forall q :: !MatchAt(url, Marker(Company), q)
  {
    match MatchOf(url, Marker(Profile))
    case Some(id) => Some(Extracted(Profile, id))
    case None =>
      match MatchOf(url, Marker(Company))
      case Some(id) => Some(Extracted(Company, id))
      case None =>
        match MatchOf(url, Marker(School))
        case Some(id) => Some(Extracted(School, id))
        case None =>
          NoKindMatches(url);
          None
  }

  /** What a caller may rely on: an identifier is never empty and never
      holds `/` or `?`. */
  lemma ExtractedIdShape(url: string)
    requires ExtractId(url).Some?
    ensures var id := ExtractId(url).value.id;
      |id| >= 1 && '/' !in id && '?' !in id
  {
    var r := ExtractId(url).value;
    var p :| Leftmost(url, Marker(r.kind), p) && Captures(url, Marker(r.kind), p, r.id);
  }

  /** The position of each kind in the order `extract_linkedin_id` tries
      the patterns. */
  function Tried(k: IdKind): (n: nat)
    ensures n < 3
    ensures (n == 0 <==> k == Profile) && (n == 2 <==> k == School)
  {
    match k
    case Profile => 0
    case Company => 1
    case School => 2
  }

  /** A marker holds `/` only at its two ends, and its second character
      tells the kinds apart. */
  lemma MarkerShape(k: IdKind)
    ensures |Marker(k)| >= 4
    ensures Marker(k)[0] == '/' && Marker(k)[|Marker(k)| - 1] == '/'
    ensures forall j :: 0 < j < |Marker(k)| - 1 ==> Marker(k)[j] != '/'
    ensures forall k' :: Marker(k')[1] == Marker(k)[1] ==> k' == k
  {
    assert Marker(Profile) == ['/', 'i', 'n', '/'];
    assert Marker(Company) == ['/', 'c', 'o', 'm', 'p', 'a', 'n', 'y', '/'];
    assert Marker(School) == ['/', 's', 'c', 'h', 'o', 'o', 'l', '/'];
  }

  /** A match inside the second part of a URL is a match of that part. */
  lemma MatchInTail(head: string, rest: string, marker: string, q: int)
    requires |head| <= q && MatchAt(head + rest, marker, q)
    ensures MatchAt(rest, marker, q - |head|)
  {
    var url, a := head + rest, q - |head|;
    assert rest[a..a + |marker|] == url[q..q + |marker|];
    assert rest[a + |marker|] == url[q + |marker|];
  }

  /** A pattern tried before `k` matches nowhere in a URL made of a prefix
      without `/`, the marker of `k` up to its closing `/`, and a rest in
      which it does not match either. */
  lemma NoEarlierMatch(prefix: string, k: IdKind, rest: string, k': IdKind, q: int)
    requires '/' !in prefix
    requires Tried(k') < Tried(k)
    requires forall p :: !MatchAt(rest, Marker(k'), p)
    ensures !MatchAt(prefix + Marker(k)[..|Marker(k)| - 1] + rest, Marker(k'), q)
  {
    var m, m' := Marker(k), Marker(k');
    var head := prefix + m[..|m| - 1];
    MarkerShape(k);
    MarkerShape(k');
    if MatchAt(head + rest, m', q) {
      var url := head + rest;
      assert url[q] == m'[0] && url[q + 1] == m'[1];
      if q >= |head| {
        MatchInTail(head, rest, m', q);
      }
      assert false;
    }
  }

  /** The capture of a match is determined by where the identifier starts. */
  lemma CaptureUnique(url: string, marker: string, p: int, id: string, id': string)
    requires Captures(url, marker, p, id) && Captures(url, marker, p, id')
    ensures id == id'
  {
    var start := p + |marker|;
    assert forall j :: start <= j < start + |id'| ==> url[j] == id'[j - start];
    assert forall j :: start <= j < start + |id| ==> url[j] == id[j - start];
    assert forall j :: start <= j < start + |id'| ==> IdChar(url[j]);
    assert forall j :: start <= j < start + |id| ==> IdChar(url[j]);
  }

  /** In a URL made of a prefix without `/`, a marker, an identifier and
      a rest that does not start with an identifier character, the
      marker's pattern matches first where the marker is, and captures the
      identifier. */
  lemma MarkerMatchesFirst(prefix: string, k: IdKind, id: string, suffix: string)
    requires '/' !in prefix
    requires |id| >= 1 && IdText(id)
    requires suffix == [] || !IdChar(suffix[0])
    ensures var url := prefix + Marker(k) + id + suffix;
      Leftmost(url, Marker(k), |prefix|) && Captures(url, Marker(k), |prefix|, id)
  {
    var m := Marker(k);
    var url := prefix + m + id + suffix;
    MarkerShape(k);
    var start := |prefix| + |m|;
    assert url[|prefix|..start] == m;
    assert url[start..start + |id|] == id;
    assert url[start] == id[0];
    assert start + |id| == |url| || url[start + |id|] == suffix[0];
    forall q | 0 <= q < |prefix|
      ensures !MatchAt(url, m, q)
    {
      assert url[q] == prefix[q];
    }
  }

  /** A URL with a page's marker and identifier in it gives back that kind
      and that identifier, whatever comes before the marker (as long as it
      holds no `/`) and after the identifier (as long as it starts with `/`
      or `?`), unless what follows the marker also names a kind whose
      pattern is tried earlier. */
  lemma ExtractRoundTrip(prefix: string, k: IdKind, id: string, suffix: string)
    requires '/' !in prefix
    requires |id| >= 1 && IdText(id)
    requires suffix == [] || !IdChar(suffix[0])
    requires forall k', q :: Tried(k') < Tried(k) ==> !MatchAt("/" + id + suffix, Marker(k'), q)
    ensures ExtractId(prefix + Marker(k) + id + suffix) == Some(Extracted(k, id))
  {
    var m := Marker(k);
    var url := prefix + m + id + suffix;
    MarkerShape(k);
    assert url == prefix + m[..|m| - 1] + ("/" + id + suffix);
    forall k', q | Tried(k') < Tried(k)
      ensures !MatchAt(url, Marker(k'), q)
    {
      NoEarlierMatch(prefix, k, "/" + id + suffix, k', q);
    }
    MarkerMatchesFirst(prefix, k, id, suffix);
    var r := ExtractId(url).value;
    var p :| Leftmost(url, Marker(r.kind), p) && Captures(url, Marker(r.kind), p, r.id);
    assert r.kind == k;
    assert p == |prefix|;
    CaptureUnique(url, m, p, id, r.id);
  }

  /** The bare path of a page gives back its kind and identifier. */
  lemma ExtractBareRoundTrip(k: IdKind, id: string)
    requires |id| >= 1 && IdText(id)
    ensures ExtractId(Marker(k) + id) == Some(Extracted(k, id))
  {
    var none: string := [];
    NoMatchAfterMarker(id);
    assert none + Marker(k) + id + none == Marker(k) + id;
    ExtractRoundTrip(none, k, id, none);
  }

  /** What follows a bare marker matches no pattern. */
  lemma NoMatchAfterMarker(id: string)
    requires IdText(id)
    ensures forall k', q :: !MatchAt("/" + id + [], Marker(k'), q)
  {
    assert "/" + id + [] == "/" + id;
    NoMatchInSlashId(id, Profile);
    NoMatchInSlashId(id, Company);
    NoMatchInSlashId(id, School);
  }

  /** No pattern matches in `/` followed by an identifier: a marker would
      need a second `/`. */
  lemma NoMatchInSlashId(id: string, k: IdKind)
    requires IdText(id)
    ensures forall q :: !MatchAt("/" + id, Marker(k), q)
  {
    var rest := "/" + id;
    MarkerShape(k);
    assert forall j :: 1 <= j < |rest| ==> rest[j] == id[j - 1];
    forall q
      ensures !MatchAt(rest, Marker(k), q)
    {
      if 0 <= q && q + |Marker(k)| < |rest| {
        assert rest[q..q + |Marker(k)|][|Marker(k)| - 1] == rest[q + |Marker(k)| - 1];
      }
    }
  }
}

=== FILE: wrappers.dfy ===
/** Optional values: the model's stand-in for Python's `None`. */
module Wrappers {

  datatype Option<+T> = None | Some(value: T) {

    /** The wrapped value, or `default` when there is none. */
    function GetOr(default: T): T {
      match this
      case Some(v) => v
      case None => default
    }
  }
}
